=== FILE: README.md ===
# Document compliance: the PDF layout engine and its helpers, in Dafny

This project models the core of the document compliance service. The service reads a PDF and rebuilds its layout page by page: lines, fonts, margins, headings, superscripts and subscripts, images and URLs. The result is a document model and a fact model that the rule engine checks. The project also models the helpers that map font aliases and CP850 substitutes, and the spreadsheet routines that enforce a charset on cell values.

The content parser, the margin finder and the installed-font catalogue become inputs, such as a page's event list or a function parameter. Every operation of the core is a pure function over immutable records.

Modules, one per source component:

- `Common`: the `Option`/`Result` wrappers and the `java.lang.String` operations the code relies on. These include `trim`, `indexOf`, `split`, `Integer.toHexString`, `Integer.parseInt` and `Math.round`.
- `Sorting` and `StringOrder`: the stable sort behind `Collections.sort`, `String.compareTo`, and the ascending set a `TreeSet` keeps.
- `Constants` and `Model`: the constants, and the records the engine produces (`FontModel`, `LineModel`, `PageModel`, `DocumentModel`, the fact records and so on).
- `TextEventFilter` and `TextRenderInfoListener`: the blank-text filter and the pre-scan. The pre-scan counts blocks, averages space widths and compares the heights of the last two blocks.
- `PdfExtractionListener`: the per-page state machine. `RenderText` is one text chunk, `Step` one content event and `Run` a page. `Consistent` is the listener's invariant, and it holds after every prefix of a page:
  - the stored lines are numbered 1..n and mirrored by the text lines;
  - the font inventory holds each font once, and every line refers into it;
  - recorded leadings are positive and distinct;
  - headings belong to this page.
- `PdfUtils`: the pure helpers:
  - the font-size correction and the heading test;
  - margins, the reading-order sort, and the text split and join;
  - unused fonts and URL merging;
  - the predominant leading and font, and the file-name helpers.
- `PdfModelBuilderUtils` and `PdfModelBuilder`: the page builder (text page, geometry-only page, `initOutput`) and the document fold. The fold filters pages, concatenates sections, builds the sorted URL set and sets the encryption flags, and `buildMetadata` is modelled too.
- `UnicodeToCp850`, `DocComplianceUtils` and `SpreadsheetModelBuilderUtils`: the substitution table, font-family aliasing, comma lists, the fact models, the document entry points, charset enforcement, and row, column and table naming.

Modelling conventions:

- `float` and `double` become `real`, and `Math.round(x)` is `Floor(x + 1/2)`.
- `getDistance` is compared through squares. Its 0/0 case is NaN, which makes every comparison false, and the model keeps that.
- A Java `null` list is an empty sequence.
- Exceptions become `Result`/`Option` failures, or the `Failed`/`Skipped` page outcomes.
- Paths are Unix paths: `java.io.File` drops trailing '/' before `getName`, which `Files.getFileExtension` reads.
- `FontModel` equality is equality of the (name, size) key.
- The iteration order of a `HashMultimap` is an environment function.
- Java's three `StringUtils.isEmpty` variants are kept apart. Apache CXF's is taken as "blank" (`CxfIsEmpty`), commons-lang's as "length 0" (`LangIsEmpty`), and Spring's as null or "".

## Model

| member | source | states |
|---|---|---|
| Common.Trim | document-compliance-service/src/main/java/gov/nsf/psm/documentcompliance/compliance/pdf/utility/PdfUtils.java:215-218 | String.trim: the result starts where the leading chars <= U+0020 end and occurs there in the input; every char before it and every char after it is <= U+0020, and neither of its own ends is |
| Common.TrimEmptyIffBlank | document-compliance-service/src/main/java/gov/nsf/psm/documentcompliance/compliance/pdf/filter/TextEventFilter.java:15 | trim() is empty exactly when every char of the text is <= U+0020, the acceptance test of the text filter |
| Common.IndexOf | document-compliance-service/src/main/java/gov/nsf/psm/documentcompliance/compliance/common/utility/DocComplianceUtils.java:226-245 | String.indexOf(sub): -1 exactly when `sub` does not occur, else the least position where it occurs |
| Common.IndexOfChar | document-compliance-service/src/main/java/gov/nsf/psm/documentcompliance/compliance/ss/utility/SpreadsheetModelBuilderUtils.java:253-262 | String.indexOf(char): -1 exactly when the char is absent, else its first position |
| Common.LastIndexOfChar | document-compliance-service/src/main/java/gov/nsf/psm/documentcompliance/compliance/pdf/utility/PdfUtils.java:419-421 | String.lastIndexOf(char): -1 when absent, else the greatest position holding the char |
| Common.RemoveChar | document-compliance-service/src/main/java/gov/nsf/psm/documentcompliance/compliance/pdf/PdfExtractionListener.java:506 | the result is the input with exactly the occurrences of the deleted char taken out: a subsequence of the input, as long as the input less the char's count, holding no such char and every other char of the input |
| Common.OccurrencesIsMultiplicity | document-compliance-service/src/main/java/gov/nsf/psm/documentcompliance/compliance/pdf/PdfExtractionListener.java:506 | the occurrence count that RemoveChar's length is stated with is the char's multiplicity in the string's multiset |
| Common.SplitOnJoin | document-compliance-service/src/main/java/gov/nsf/psm/documentcompliance/compliance/pdf/utility/PdfUtils.java:193-213 | splitting a join on its separator gives back the pieces when none of them holds the separator |
| Common.DropTrailingEmpty | document-compliance-service/src/main/java/gov/nsf/psm/documentcompliance/compliance/pdf/utility/PdfUtils.java:198 | String.split's result: the pieces up to the last non-empty one |
| Common.ParseDecimal | document-compliance-service/src/main/java/gov/nsf/psm/documentcompliance/compliance/pdf/PdfExtractionListener.java:499-501 | Integer.parseInt / Long.parseLong: a parsed value lies within the type's range and comes from non-empty text; None stands for the NumberFormatException |
| Common.ParseShowDecimal | document-compliance-service/src/main/java/gov/nsf/psm/documentcompliance/compliance/pdf/PdfExtractionListener.java:499-501 | parsing the printed form of an in-range integer gives that integer back |
| Common.ToHexString | document-compliance-service/src/main/java/gov/nsf/psm/documentcompliance/compliance/common/utility/DocComplianceUtils.java:247-254 | Integer.toHexString: lower-case hex digits, no leading zero, whose value is the input |
| Common.ToHexStringOfValue | document-compliance-service/src/main/java/gov/nsf/psm/documentcompliance/compliance/common/utility/UnicodeToCp850Enum.java:8-19 | a key in toHexString form is exactly what toHexString prints for its value |
| Sorting.SortSorted | document-compliance-service/src/main/java/gov/nsf/psm/documentcompliance/compliance/pdf/utility/PdfUtils.java:169-191 | the stable sort's output is ordered by the comparator |
| Sorting.SortStable | document-compliance-service/src/main/java/gov/nsf/psm/documentcompliance/compliance/pdf/utility/PdfUtils.java:169-191 | elements the comparator ties keep their relative input order (Collections.sort is stable) |
| StringOrder.LexLeTotal | document-compliance-service/src/main/java/gov/nsf/psm/documentcompliance/model/builder/pdf/PdfModelBuilder.java:146-152 | String.compareTo orders every pair of strings |
| StringOrder.LexLeAntisymmetric | document-compliance-service/src/main/java/gov/nsf/psm/documentcompliance/model/builder/pdf/PdfModelBuilder.java:146-152 | two strings that compare both ways are equal |
| StringOrder.SortedAddAll | document-compliance-service/src/main/java/gov/nsf/psm/documentcompliance/model/builder/pdf/PdfModelBuilder.java:114 | TreeSet.addAll: the result is strictly ascending and holds exactly the old elements and the added ones |
| StringOrder.SortedListingUnique | document-compliance-service/src/main/java/gov/nsf/psm/documentcompliance/model/builder/pdf/PdfModelBuilder.java:146-152 | two strictly ascending listings with the same elements are equal, so the URL set's order is determined by its contents |
| UnicodeToCp850.TableKeysDistinct | document-compliance-service/src/main/java/gov/nsf/psm/documentcompliance/compliance/common/utility/UnicodeToCp850Enum.java:8-19 | no two table entries share a Unicode key, so the lookup by key is a function (documents the constant table) |
| UnicodeToCp850.TableNotInjective | document-compliance-service/src/main/java/gov/nsf/psm/documentcompliance/compliance/common/utility/UnicodeToCp850Enum.java:8 | two entries (U+201C and U+201D) share the code "22": the table cannot be inverted (documents the constant table) |
| UnicodeToCp850.TableKeysInHexForm | document-compliance-service/src/main/java/gov/nsf/psm/documentcompliance/compliance/common/utility/UnicodeToCp850Enum.java:8-19 | every key is written the way Integer.toHexString prints it |
| UnicodeToCp850.OneDigitCodeOnlyBullet | document-compliance-service/src/main/java/gov/nsf/psm/documentcompliance/compliance/common/utility/UnicodeToCp850Enum.java:9 | the bullet U+2022 is the only entry with a one-digit code |
| TextEventFilter.Accept | document-compliance-service/src/main/java/gov/nsf/psm/documentcompliance/compliance/pdf/filter/TextEventFilter.java:11-16 | accept: true exactly for a render-text event with a non-null render info whose text contains a char > U+0020 |
| TextEventFilter.AcceptedAppend | document-compliance-service/src/main/java/gov/nsf/psm/documentcompliance/compliance/pdf/filter/TextEventFilter.java:8-18 | the filter keeps no state: filtering two pieces of a stream gives the same glyphs as filtering it whole |
| TextRenderInfoListener.RunSummary | document-compliance-service/src/main/java/gov/nsf/psm/documentcompliance/compliance/pdf/TextRenderInfoListener.java:24-34 | after any prefix of a page's events: one block per text event, blank ones included; the average space width is the sum over all blocks divided by their number; the same-line flag compares the rounded heights of the last two blocks, with 0 before the first; every glyph reaches the wrapped strategy in order |
| TextRenderInfoListener.NonTextEventsIgnored | document-compliance-service/src/main/java/gov/nsf/psm/documentcompliance/compliance/pdf/TextRenderInfoListener.java:61-66 | an event that is not text rendering changes nothing |
| PdfExtractionListener.InitialConsistent | document-compliance-service/src/main/java/gov/nsf/psm/documentcompliance/compliance/pdf/PdfExtractionListener.java:37-77 | the fresh listener satisfies the invariant (lines numbered 1..n and mirrored by the text lines, each font once in the inventory, positive distinct leadings, headings on this page) |
| PdfExtractionListener.ProcessFont | document-compliance-service/src/main/java/gov/nsf/psm/documentcompliance/compliance/pdf/PdfExtractionListener.java:477-489 | a positive size makes (name, size) the current font, which is the inventory's own object exactly when the key was new, and then it is appended; a non-positive size changes nothing; only the inventory and current font change |
| PdfExtractionListener.CaptureFontConsistent | document-compliance-service/src/main/java/gov/nsf/psm/documentcompliance/compliance/pdf/PdfExtractionListener.java:91-102 | the font stage keeps the invariant: the inventory never holds two equal fonts |
| PdfExtractionListener.IdentifyScript | document-compliance-service/src/main/java/gov/nsf/psm/documentcompliance/compliance/pdf/PdfExtractionListener.java:361-412 | the three tests in order. A primary superscript (not after a rotated chunk) appends (\|lines\|+1, current font) to the superscript list only and sets the last superscript text and block count. Otherwise a secondary superscript appends that entry to the superscript list exactly when the last superscript text sits at index < 1 of the buffer, and the subscript test is not tried. Otherwise the entry goes to the subscript list only, exactly when the subscript test holds. Failing tests change nothing; only the font, inventory, script lists and last-superscript fields ever change |
| PdfExtractionListener.ClassifyScriptEffect | document-compliance-service/src/main/java/gov/nsf/psm/documentcompliance/compliance/pdf/PdfExtractionListener.java:348-442 | per chunk at most one of the two script lists gains one entry, numbered \|lines\|+1 in the current font, exactly when the stage reports a script; lines and buffer unchanged |
| PdfExtractionListener.RecordScriptEffect | document-compliance-service/src/main/java/gov/nsf/psm/documentcompliance/compliance/pdf/PdfExtractionListener.java:414-442 | recording a script line adds one entry to one list and keeps the inventory's keys |
| PdfExtractionListener.FlagScriptFontEffect | document-compliance-service/src/main/java/gov/nsf/psm/documentcompliance/compliance/pdf/PdfExtractionListener.java:428-433 | flagging a script font keeps the inventory's keys and the current key |
| PdfExtractionListener.Leading | document-compliance-service/src/main/java/gov/nsf/psm/documentcompliance/compliance/pdf/PdfExtractionListener.java:444-475 | the previous next-height becomes the line height and the baseline the next height. For a non-blank, non-script chunk whose baseline is lower, the box Y becomes nextMaxY, and the leading becomes the height drop when that Y changed. The leading changes only then, and nextMaxY changes only for such a chunk. The leading is appended to the leading values exactly when it is positive and not yet present |
| PdfExtractionListener.LeadingConsistent | document-compliance-service/src/main/java/gov/nsf/psm/documentcompliance/compliance/pdf/PdfExtractionListener.java:444-475 | recorded leadings stay strictly positive and pairwise distinct |
| PdfExtractionListener.CharCount | document-compliance-service/src/main/java/gov/nsf/psm/documentcompliance/compliance/pdf/PdfExtractionListener.java:324-326 | the chunk's char count is its full length unless blank spaces are ignored, and then its length less its number of spaces |
| PdfExtractionListener.CountCharsEffect | document-compliance-service/src/main/java/gov/nsf/psm/documentcompliance/compliance/pdf/PdfExtractionListener.java:323-345 | with a current font the inventory's character total grows by exactly the chunk's count and the inventory keeps its keys; without one nothing changes |
| PdfExtractionListener.AddLine | document-compliance-service/src/main/java/gov/nsf/psm/documentcompliance/compliance/pdf/PdfExtractionListener.java:280-321 | a flush empties the buffer and the line width, keeps every stored line and adds at most one; only the inventory, current font, headings, lines, text lines and character count may change |
| PdfExtractionListener.AddLineShape | document-compliance-service/src/main/java/gov/nsf/psm/documentcompliance/compliance/pdf/PdfExtractionListener.java:280-321 | under the invariant a flush stores the trimmed buffer as line \|lines\|+1 in the current font, unless blank spaces are ignored and it is empty; adds its length to the character count; records a heading only for a non-empty heading text; changes nothing else |
| PdfExtractionListener.StoreLineNumbered | document-compliance-service/src/main/java/gov/nsf/psm/documentcompliance/compliance/pdf/PdfExtractionListener.java:311-316 | appending line \|lines\|+1 with its trimmed text, and the text to the text lines, keeps the lines numbered 1..n and mirrored one to one by the text lines |
| PdfExtractionListener.HeadingsAppend | document-compliance-service/src/main/java/gov/nsf/psm/documentcompliance/compliance/pdf/PdfExtractionListener.java:300-306 | the headings stay non-empty, trimmed, on this page and with the begin line unset, since it is read before the line number is assigned |
| PdfExtractionListener.FlushedConsistent | document-compliance-service/src/main/java/gov/nsf/psm/documentcompliance/compliance/pdf/PdfExtractionListener.java:280-321 | a flush keeps the invariant |
| PdfExtractionListener.LineFontKnown | document-compliance-service/src/main/java/gov/nsf/psm/documentcompliance/compliance/pdf/PdfExtractionListener.java:289-299 | under the invariant the current font is always found in the inventory, so a flush never adds a font |
| PdfExtractionListener.AddDefaultLine | document-compliance-service/src/main/java/gov/nsf/psm/documentcompliance/compliance/pdf/PdfExtractionListener.java:158-189 | the chunk's left edge and its right edge (the previous right edge for a special-character chunk) are taken; every stored line is kept and at most one is added |
| PdfExtractionListener.AddDefaultLineFlush | document-compliance-service/src/main/java/gov/nsf/psm/documentcompliance/compliance/pdf/PdfExtractionListener.java:158-189 | under the invariant, a break flushes the trimmed buffer as a line between the previous baseline's heights: stored as line \|lines\|+1 unless blank spaces are ignored and it is empty, with its length counted and a heading recorded when it passes the heading test. Without a break the lines, text lines and buffer are unchanged |
| PdfExtractionListener.SpecialChunkKeepsRightEdge | document-compliance-service/src/main/java/gov/nsf/psm/documentcompliance/compliance/pdf/PdfExtractionListener.java:158-189 | for a special-character chunk, the buffer is flushed as a line exactly when one of the two height conditions holds (the right-edge condition cannot fire). Otherwise only the edges change |
| PdfExtractionListener.RepairEffect | document-compliance-service/src/main/java/gov/nsf/psm/documentcompliance/compliance/pdf/PdfExtractionListener.java:202-264 | a hard return discards the buffer unstored. Otherwise exactly one space is added when the gap exceeds the threshold and neither side is a space, and else the buffer is kept. The column block rises by one exactly on a hard return whose right edge lies in [textWidth / 3, textWidth), so only with a positive text width; otherwise it stays |
| PdfExtractionListener.AddLastLine | document-compliance-service/src/main/java/gov/nsf/psm/documentcompliance/compliance/pdf/PdfExtractionListener.java:191-200 | the last block of the page (or the one before when the last block is on another line) flushes the buffer; otherwise nothing changes |
| PdfExtractionListener.AddLastLineFlush | document-compliance-service/src/main/java/gov/nsf/psm/documentcompliance/compliance/pdf/PdfExtractionListener.java:191-200 | under the invariant, the last-block flush stores the trimmed buffer as line \|lines\|+1 between the previous baseline's heights, unless blank spaces are ignored and it is empty; it counts the characters and records a heading as any flush does |
| PdfExtractionListener.LastBlockStores | document-compliance-service/src/main/java/gov/nsf/psm/documentcompliance/compliance/pdf/PdfExtractionListener.java:191-200 | on the last block the trimmed buffer becomes the last stored line, numbered \|lines\|, or is empty and dropped because blank spaces are ignored; the buffer ends empty |
| PdfExtractionListener.RenderTextConsistent | document-compliance-service/src/main/java/gov/nsf/psm/documentcompliance/compliance/pdf/PdfExtractionListener.java:79-150 | one text chunk keeps the listener's invariant |
| PdfExtractionListener.RenderTextLines | document-compliance-service/src/main/java/gov/nsf/psm/documentcompliance/compliance/pdf/PdfExtractionListener.java:79-150 | a chunk keeps every stored line and adds at most two |
| PdfExtractionListener.RenderTextLastBlock | document-compliance-service/src/main/java/gov/nsf/psm/documentcompliance/compliance/pdf/PdfExtractionListener.java:139-141 | on the pre-scan's last block, not a special character, the buffer ends up empty |
| PdfExtractionListener.PendingText | document-compliance-service/src/main/java/gov/nsf/psm/documentcompliance/compliance/pdf/PdfExtractionListener.java:130-137 | the buffer renderText holds before its last-block test ends with the chunk's text |
| PdfExtractionListener.RenderTextLastLine | document-compliance-service/src/main/java/gov/nsf/psm/documentcompliance/compliance/pdf/PdfExtractionListener.java:130-141 | under the invariant, on the pre-scan's last block, not a special character: the trimmed pending buffer becomes the last stored line, numbered \|lines\|, unless blank spaces are ignored and it is empty; a non-blank chunk is always stored; the buffer ends empty |
| PdfExtractionListener.RenderTextColumns | document-compliance-service/src/main/java/gov/nsf/psm/documentcompliance/compliance/pdf/PdfExtractionListener.java:216-256 | the column block number rises by at most one per chunk, only for a positive text width |
| PdfExtractionListener.ImageOf | document-compliance-service/src/main/java/gov/nsf/psm/documentcompliance/compliance/pdf/PdfExtractionListener.java:491-514 | an image is recorded exactly when it exists, its three numeric entries parse within int/long range and its bytes decode; it carries the byte count and the position; the filter loses its '/' characters, or is "N/A" without one |
| PdfExtractionListener.ImageOfPrinted | document-compliance-service/src/main/java/gov/nsf/psm/documentcompliance/compliance/pdf/PdfExtractionListener.java:499-510 | an image whose entries print in-range integers is recorded with exactly those values |
| PdfExtractionListener.Step | document-compliance-service/src/main/java/gov/nsf/psm/documentcompliance/compliance/pdf/PdfExtractionListener.java:665-673 | text events go through renderText (one block each), image events through renderImage, other events change nothing |
| PdfExtractionListener.RunConsistent | document-compliance-service/src/main/java/gov/nsf/psm/documentcompliance/compliance/pdf/PdfExtractionListener.java:665-673 | the invariant holds after every prefix of a page's events |
| PdfExtractionListener.RunBlocks | document-compliance-service/src/main/java/gov/nsf/psm/documentcompliance/compliance/pdf/PdfExtractionListener.java:139 | over a page the listener counts exactly the text events |
| PdfExtractionListener.RunImages | document-compliance-service/src/main/java/gov/nsf/psm/documentcompliance/compliance/pdf/PdfExtractionListener.java:491-514 | the recorded images are those of the page's image events, in order |
| PdfExtractionListener.RunMeasured | document-compliance-service/src/main/java/gov/nsf/psm/documentcompliance/compliance/pdf/PdfExtractionListener.java:267-278 | one ascent and one descent per measured (non-skipped, non-blank) chunk |
| PdfExtractionListener.BlockCountMatchesPreScan | document-compliance-service/src/main/java/gov/nsf/psm/documentcompliance/compliance/pdf/TextRenderInfoListener.java:28 | the listener's block count after a page equals the pre-scan's, which the page builder passes as lastBlockCount |
| PdfExtractionListener.LastLineFlushed | document-compliance-service/src/main/java/gov/nsf/psm/documentcompliance/compliance/pdf/PdfExtractionListener.java:130-141 | with the pre-scan's count, a page whose last event is a non-special text chunk ends with an empty buffer. Its trimmed pending buffer, which ends with the chunk's text, is the page's last stored line unless dropped as empty; a non-blank chunk is always stored |
| PdfUtils.FontSize | document-compliance-service/src/main/java/gov/nsf/psm/documentcompliance/compliance/pdf/utility/PdfUtils.java:423-444 | getFontSize: the text-matrix scale when it rounds above 1, else Tf, else the shear entry; a CTM scale in (0, 1] multiplies it, replaced by the text-matrix scale when the CTM diagonal entries agree and the text matrix was not used |
| PdfUtils.WordsCoverText | document-compliance-service/src/main/java/gov/nsf/psm/documentcompliance/compliance/pdf/utility/PdfUtils.java:350-353 | the words hold every non-\s char of the text in order and nothing else |
| PdfUtils.WordCountZeroIffBlank | document-compliance-service/src/main/java/gov/nsf/psm/documentcompliance/compliance/pdf/utility/PdfUtils.java:350-353 | getWordCount is 0 exactly for blank text and at least 1 otherwise |
| PdfUtils.MatchesIffLetter | document-compliance-service/src/main/java/gov/nsf/psm/documentcompliance/compliance/pdf/utility/PdfUtils.java:217-227 | Matcher.find reports a match exactly when the ':'-free trimmed text contains an ASCII letter |
| PdfUtils.IsHeadingIff | document-compliance-service/src/main/java/gov/nsf/psm/documentcompliance/compliance/pdf/utility/PdfUtils.java:215-229 | isHeading holds iff, trimmed and without ':', the text has an ASCII letter and at most ten words |
| PdfUtils.ProcessResource | document-compliance-service/src/main/java/gov/nsf/psm/documentcompliance/compliance/pdf/utility/PdfUtils.java:98-119 | page size from the page rectangle; left = text left; right = abs(width - text right); top = abs(height - text top) raised by a positive top line spacing, never lowered; bottom = the last lower Y |
| PdfUtils.ReadingOrderIsTotalPreorder | document-compliance-service/src/main/java/gov/nsf/psm/documentcompliance/compliance/pdf/utility/PdfUtils.java:172-183 | the line comparator (column block ascending, lower Y descending) is total and transitive |
| PdfUtils.TextLinesFromLines | document-compliance-service/src/main/java/gov/nsf/psm/documentcompliance/compliance/pdf/utility/PdfUtils.java:169-191 | with sorting on, the lines are a permutation of the input sorted in reading order and the texts follow them one to one; otherwise the input order |
| PdfUtils.TextLinesFromLinesStable | document-compliance-service/src/main/java/gov/nsf/psm/documentcompliance/compliance/pdf/utility/PdfUtils.java:169-191 | lines that tie in the comparator keep their relative order |
| PdfUtils.TextLinesRoundTrip | document-compliance-service/src/main/java/gov/nsf/psm/documentcompliance/compliance/pdf/utility/PdfUtils.java:193-213 | joining lines with '\n' and splitting again gives them back when none holds '\n' and the last is non-empty |
| PdfUtils.TextRoundTrip | document-compliance-service/src/main/java/gov/nsf/psm/documentcompliance/compliance/pdf/utility/PdfUtils.java:193-213 | splitting a text and joining again gives it back when it does not end in '\n' |
| PdfUtils.UnusedFonts | document-compliance-service/src/main/java/gov/nsf/psm/documentcompliance/compliance/pdf/utility/PdfUtils.java:317-332 | an order-preserving selection of the declared fonts; none matches a text font's name (trimmed, ignoring case); no two share a name; every unused name is represented |
| PdfUtils.CorrectUrlList | document-compliance-service/src/main/java/gov/nsf/psm/documentcompliance/compliance/pdf/utility/PdfUtils.java:290-299 | the annotation URLs stay an in-order prefix; what follows is an in-order selection of the text URLs; every text URL ends up in the list untrimmed or trimmed |
| PdfUtils.CorrectUrlListSkipsDuplicates | document-compliance-service/src/main/java/gov/nsf/psm/documentcompliance/compliance/pdf/utility/PdfUtils.java:290-299 | duplicates are skipped: no appended URL's trimmed form is among the entries before it (so none whose trimmed form is an annotation URL), every appended entry is a text URL, and a text URL whose trimmed form is neither an annotation URL nor an earlier text URL is appended |
| PdfUtils.PredominantLeading | document-compliance-service/src/main/java/gov/nsf/psm/documentcompliance/compliance/pdf/utility/PdfUtils.java:231-250 | each value once; a value is returned exactly when it is a leading value of greatest line frequency; non-empty exactly when there are leading values |
| PdfUtils.PredominantFontEffect | document-compliance-service/src/main/java/gov/nsf/psm/documentcompliance/compliance/pdf/utility/PdfUtils.java:334-348 | only the predominant flags change; the marked fonts afterwards are those marked before plus the inventory fonts of lines carrying the first predominant leading, each moved to the end |
| PdfUtils.TopLeading | document-compliance-service/src/main/java/gov/nsf/psm/documentcompliance/compliance/pdf/utility/PdfUtils.java:478-484 | 0 without leadings or lines; otherwise the line spacing of the first leading over the first line's font size; None where the first line has no font |
| PdfUtils.LastY | document-compliance-service/src/main/java/gov/nsf/psm/documentcompliance/compliance/pdf/utility/PdfUtils.java:486-498 | the lines sorted by lower Y ascending, a stable permutation (lines of equal lower Y keep their input order), and the least lower Y, 0 without lines |
| PdfUtils.CompareBySquares | document-compliance-service/src/main/java/gov/nsf/psm/documentcompliance/compliance/pdf/PdfExtractionListener.java:243-245 | comparing squared lengths decides the comparison of a length with any bound, so the square root is not needed |
| PdfUtils.CheckFont | document-compliance-service/src/main/java/gov/nsf/psm/documentcompliance/compliance/pdf/utility/PdfUtils.java:126-167 | a descriptor counts only with FontFile, FontFile2 or FontFile3, and then the font is embedded and the library "N/A"; FontFile gives Type 1, FontFile2 TrueType; without one, the library is available exactly when an installed font matches the name |
| PdfUtils.SetIgnoreSuperSubScriptFont | document-compliance-service/src/main/java/gov/nsf/psm/documentcompliance/compliance/pdf/utility/PdfUtils.java:391-396 | a font of at least 5 pt is flagged ignorable; nothing else changes |
| PdfUtils.CleanUpFontName | document-compliance-service/src/main/java/gov/nsf/psm/documentcompliance/compliance/pdf/utility/PdfUtils.java:398-403 | the prefix before the first '-', or the whole name without one |
| PdfUtils.PdfVersion | document-compliance-service/src/main/java/gov/nsf/psm/documentcompliance/compliance/pdf/utility/PdfUtils.java:419-421 | the suffix after the last '-', or the whole string without one |
| PdfUtils.CorrectFileName | document-compliance-service/src/main/java/gov/nsf/psm/documentcompliance/compliance/pdf/utility/PdfUtils.java:379-389 | quotes become spaces and the name is trimmed; no extension gets ".pdf"; an extension other than "pdf" is an error; a name already ending in ".pdf" gives null |
| PdfUtils.CorrectFileNameSettles | document-compliance-service/src/main/java/gov/nsf/psm/documentcompliance/compliance/pdf/utility/PdfUtils.java:379-389 | a name the correction extended is returned as null (accepted as it stands) when corrected again |
| PdfUtils.DropTrailingSlashes | document-compliance-service/src/main/java/gov/nsf/psm/documentcompliance/compliance/pdf/utility/PdfUtils.java:381 | java.io.File's normalisation of a Unix path: the longest prefix not ending in '/', the rest being all '/' |
| PdfUtils.BaseName | document-compliance-service/src/main/java/gov/nsf/psm/documentcompliance/compliance/pdf/utility/PdfUtils.java:381 | File.getName: the slash-free tail of the path once its trailing '/' are dropped, starting at the path's start or just after a '/' |
| PdfUtils.TrailingSlashIgnored | document-compliance-service/src/main/java/gov/nsf/psm/documentcompliance/compliance/pdf/utility/PdfUtils.java:381 | a trailing '/' changes neither the normalised path, nor the name, nor the extension |
| PdfUtils.ExtensionOfName | document-compliance-service/src/main/java/gov/nsf/psm/documentcompliance/compliance/pdf/utility/PdfUtils.java:381 | Files.getFileExtension of a name ending in '.' and a non-empty dot- and slash-free suffix is that suffix |
| PdfUtils.TrailingSlashKeepsExtension | document-compliance-service/src/main/java/gov/nsf/psm/documentcompliance/compliance/pdf/utility/PdfUtils.java:379-389 | a name ending in an extension and '/' is rejected when the extension is not "pdf" and returned as null when it is |
| PdfModelBuilderUtils.SortByName | document-compliance-service/src/main/java/gov/nsf/psm/documentcompliance/compliance/pdf/utility/PdfModelBuilderUtils.java:289-300 | initOutput's font sort: a permutation, ordered by name, equal names keeping their order |
| PdfModelBuilderUtils.TotalCharsPermutation | document-compliance-service/src/main/java/gov/nsf/psm/documentcompliance/compliance/pdf/utility/PdfModelBuilderUtils.java:301 | the font character total does not depend on the fonts' order |
| PdfModelBuilderUtils.InitDocumentModel | document-compliance-service/src/main/java/gov/nsf/psm/documentcompliance/compliance/pdf/utility/PdfModelBuilderUtils.java:170-180 | a new document: not password protected, the reader's encryption flag, page count, version and producer, no pages, sections or facts |
| PdfModelBuilderUtils.CompleteDocumentModel | document-compliance-service/src/main/java/gov/nsf/psm/documentcompliance/compliance/pdf/utility/PdfModelBuilderUtils.java:182-186 | pages and sections are set and nothing else changes |
| PdfModelBuilderUtils.CopyDocumentMetadata | document-compliance-service/src/main/java/gov/nsf/psm/documentcompliance/compliance/pdf/utility/PdfModelBuilderUtils.java:188-193 | encrypted, passwordProtected and noOfPages come from the second model and everything else from the first |
| PdfModelBuilderUtils.CopyDocumentMetadataIdempotent | document-compliance-service/src/main/java/gov/nsf/psm/documentcompliance/compliance/pdf/utility/PdfModelBuilderUtils.java:188-193 | copying the metadata twice is copying it once; copying a model onto itself changes nothing (documents the field-by-field copy) |
| PdfModelBuilderUtils.SettingsFor | document-compliance-service/src/main/java/gov/nsf/psm/documentcompliance/compliance/pdf/utility/PdfModelBuilderUtils.java:86-96 | the listener's settings: page number, the pre-scan's block count, average space width and same-line flag, and the parameters' flags |
| PdfModelBuilderUtils.PageUrls | document-compliance-service/src/main/java/gov/nsf/psm/documentcompliance/compliance/pdf/utility/PdfModelBuilderUtils.java:216-222 | with annotation URLs: they stay an in-order prefix, no appended URL's trimmed form is already listed before it, and a text URL with a new trimmed form is appended; without annotation URLs: exactly the text URLs; every URL comes from one of the two lists |
| PdfModelBuilderUtils.TextPart | document-compliance-service/src/main/java/gov/nsf/psm/documentcompliance/compliance/pdf/utility/PdfModelBuilderUtils.java:205-239 | a text page: page number, page size, margins and text fonts set; unused declared fonts; lines sorted by lower Y; bottom margin the least lower Y; text lines, images, script lines and URLs from the listener; the text fonts are `getPredominantFont` of the listener's fonts under the predominant leadings, which are stored when there are any; built exactly when there is a text rectangle and not (leadings known, lines present and the first line without a font), and the page's font resources can be walked (no font entry without a /BaseFont name), the three cases where the source throws |
| PdfModelBuilderUtils.InitOutput | document-compliance-service/src/main/java/gov/nsf/psm/documentcompliance/compliance/pdf/utility/PdfModelBuilderUtils.java:258-307 | fails exactly for a text page without lines; otherwise the text fonts are sorted by name and the char count becomes their total (0 without text fonts); nothing else changes |
| PdfModelBuilderUtils.PageText | document-compliance-service/src/main/java/gov/nsf/psm/documentcompliance/compliance/pdf/utility/PdfModelBuilderUtils.java:116-128 | with the extractor: its text split into lines; without: the listener's lines sorted in reading order, their texts, joined by '\n' |
| PdfModelBuilderUtils.GetDocumentPart | document-compliance-service/src/main/java/gov/nsf/psm/documentcompliance/compliance/pdf/utility/PdfModelBuilderUtils.java:61-142 | skipped (null) exactly when the content pre-scan cannot read the page; a built page is well formed (a counted page has margins and text fonts) |
| PdfModelBuilderUtils.NoTextFailsWithoutExtractor | document-compliance-service/src/main/java/gov/nsf/psm/documentcompliance/compliance/pdf/utility/PdfModelBuilderUtils.java:116-137 | without the text extractor a readable page with no text event fails the page builder |
| PdfModelBuilderUtils.UnmeasuredPageIsGeometry | document-compliance-service/src/main/java/gov/nsf/psm/documentcompliance/compliance/pdf/utility/PdfModelBuilderUtils.java:240-248 | a page with no measured ascent or descent is a geometry page: page size, images, no text fonts, no headings |
| PdfModelBuilderUtils.MeasuredPageIsText | document-compliance-service/src/main/java/gov/nsf/psm/documentcompliance/compliance/pdf/utility/PdfModelBuilderUtils.java:132-134 | a page with a measured chunk is built through the text branch and initOutput |
| PdfModelBuilderUtils.MeasuredPageWithoutTextRectFails | document-compliance-service/src/main/java/gov/nsf/psm/documentcompliance/compliance/pdf/utility/PdfModelBuilderUtils.java:205-239 | a measured page whose margin finder saw no text fails |
| PdfModelBuilder.KeptPages | document-compliance-service/src/main/java/gov/nsf/psm/documentcompliance/model/builder/pdf/PdfModelBuilder.java:125-130 | the kept pages are exactly the pages with a positive character count, in page order (see KeptPagesAppend and KeptPagesSingle for the exact sequence) |
| PdfModelBuilder.KeptPagesAppend | document-compliance-service/src/main/java/gov/nsf/psm/documentcompliance/model/builder/pdf/PdfModelBuilder.java:118-130 | the pages kept from two runs of parts are the pages kept from the first run followed by those kept from the second |
| PdfModelBuilder.KeptPagesSingle | document-compliance-service/src/main/java/gov/nsf/psm/documentcompliance/model/builder/pdf/PdfModelBuilder.java:125-127 | one part contributes its page exactly when the page's character count is positive |
| PdfModelBuilder.AllHeadings | document-compliance-service/src/main/java/gov/nsf/psm/documentcompliance/model/builder/pdf/PdfModelBuilder.java:121-124 | every page's headings, dropped pages included, and nothing else (see AllHeadingsAppend and AllHeadingsSingle for the exact sequence) |
| PdfModelBuilder.AllHeadingsAppend | document-compliance-service/src/main/java/gov/nsf/psm/documentcompliance/model/builder/pdf/PdfModelBuilder.java:118-124 | the headings of two runs of parts are the first run's headings followed by the second's |
| PdfModelBuilder.AllHeadingsSingle | document-compliance-service/src/main/java/gov/nsf/psm/documentcompliance/model/builder/pdf/PdfModelBuilder.java:121-124 | one part contributes exactly its own headings |
| PdfModelBuilder.KeptUrls | document-compliance-service/src/main/java/gov/nsf/psm/documentcompliance/model/builder/pdf/PdfModelBuilder.java:146-152 | the URLs of the kept pages and nothing else |
| PdfModelBuilder.Assemble | document-compliance-service/src/main/java/gov/nsf/psm/documentcompliance/model/builder/pdf/PdfModelBuilder.java:118-156 | kept pages, all headings, not encrypted, facts with the file, the page count, the section facts and the URL set strictly ascending holding exactly the kept pages' URLs |
| PdfModelBuilder.FileFactsFor | document-compliance-service/src/main/java/gov/nsf/psm/documentcompliance/model/builder/pdf/PdfModelBuilder.java:140-142 | the file fact holds the name and the size in MB |
| PdfModelBuilder.BuildModel | document-compliance-service/src/main/java/gov/nsf/psm/documentcompliance/model/builder/pdf/PdfModelBuilder.java:87-171 | wrong password: encrypted and password protected; unreadable: null; a page that is skipped or fails: the document as initDocumentModel left it; otherwise the assembled model, not encrypted, with only counted pages and a sorted URL set |
| PdfModelBuilder.TextlessPageStopsBuild | document-compliance-service/src/main/java/gov/nsf/psm/documentcompliance/model/builder/pdf/PdfModelBuilder.java:118-131 | one readable page without any text event stops the build (without the extractor) and leaves the initial document |
| PdfModelBuilder.BuildMetadata | document-compliance-service/src/main/java/gov/nsf/psm/documentcompliance/model/builder/pdf/PdfModelBuilder.java:45-84 | wrong password as in buildModel; unreadable: null; otherwise no pages or sections, not encrypted, facts with only the file, page count and mime flag |
| PdfModelBuilder.MetadataAgreesWithModel | document-compliance-service/src/main/java/gov/nsf/psm/documentcompliance/model/builder/pdf/PdfModelBuilder.java:45-171 | on a wrong password or an unreadable file both builders give the same result; on an opened file they report the same page count, version, producer and password flag; once every page is built also the same encryption flag, file facts, fact page count and mime-type flag |
| DocComplianceUtils.WithoutSubsetTag | document-compliance-service/src/main/java/gov/nsf/psm/documentcompliance/compliance/common/utility/DocComplianceUtils.java:228-233 | everything through the first '+' is removed; a name without '+' is unchanged |
| DocComplianceUtils.FamilyFor | document-compliance-service/src/main/java/gov/nsf/psm/documentcompliance/compliance/common/utility/DocComplianceUtils.java:234-241 | None exactly when no key prefixes the name; otherwise the value of the last entry whose key does |
| DocComplianceUtils.MatchingFontFamilyUnmatched | document-compliance-service/src/main/java/gov/nsf/psm/documentcompliance/compliance/common/utility/DocComplianceUtils.java:226-245 | with no prefixing key the original name, subset tag included, is returned |
| DocComplianceUtils.MatchingFontFamilyLastMatch | document-compliance-service/src/main/java/gov/nsf/psm/documentcompliance/compliance/common/utility/DocComplianceUtils.java:226-245 | the last prefixing entry's value wins, unless it is empty, when the original name is returned |
| DocComplianceUtils.MatchingCp850Character | document-compliance-service/src/main/java/gov/nsf/psm/documentcompliance/compliance/common/utility/DocComplianceUtils.java:247-254 | the code of the table entry whose key is toHexString of the char, null when there is none |
| DocComplianceUtils.EveryEntryReachable | document-compliance-service/src/main/java/gov/nsf/psm/documentcompliance/compliance/common/utility/UnicodeToCp850Enum.java:8-19 | every table entry is the one found for the char its key names |
| DocComplianceUtils.ConvertToList | document-compliance-service/src/main/java/gov/nsf/psm/documentcompliance/compliance/common/utility/DocComplianceUtils.java:210-216 | empty input gives an empty list; no element holds ','; trailing empty pieces are dropped |
| DocComplianceUtils.ConvertToListJoin | document-compliance-service/src/main/java/gov/nsf/psm/documentcompliance/compliance/common/utility/DocComplianceUtils.java:210-216 | joining trimmed comma-free items with ',' and converting back gives the items |
| DocComplianceUtils.FontFactsOf | document-compliance-service/src/main/java/gov/nsf/psm/documentcompliance/compliance/common/utility/DocComplianceUtils.java:69-80 | one fact per font with ignore false, in order, and none for the others: the i-th fact is the fact of the i-th kept font |
| DocComplianceUtils.KeptAppend | document-compliance-service/src/main/java/gov/nsf/psm/documentcompliance/compliance/common/utility/DocComplianceUtils.java:69-80 | the fonts kept from a concatenation are the fonts kept from each half, concatenated |
| DocComplianceUtils.KeptSingle | document-compliance-service/src/main/java/gov/nsf/psm/documentcompliance/compliance/common/utility/DocComplianceUtils.java:72-73 | one font is kept exactly when its ignore flag is false |
| DocComplianceUtils.FontFactsAppend | document-compliance-service/src/main/java/gov/nsf/psm/documentcompliance/compliance/common/utility/DocComplianceUtils.java:69-80 | the facts of concatenated font lists are the facts of each list, concatenated |
| DocComplianceUtils.PageFactModel | document-compliance-service/src/main/java/gov/nsf/psm/documentcompliance/compliance/common/utility/DocComplianceUtils.java:61-86 | page facts copy height, width, page number, leading, text lines and margins, and carry the font facts of the text fonts |
| DocComplianceUtils.SectionFactModelList | document-compliance-service/src/main/java/gov/nsf/psm/documentcompliance/compliance/common/utility/DocComplianceUtils.java:88-96 | same length and order; each fact carries its section's heading |
| DocComplianceUtils.SectionFactsAppend | document-compliance-service/src/main/java/gov/nsf/psm/documentcompliance/compliance/common/utility/DocComplianceUtils.java:88-96 | the section facts of a concatenation are the concatenation of the facts |
| DocComplianceUtils.FileName | document-compliance-service/src/main/java/gov/nsf/psm/documentcompliance/compliance/common/utility/DocComplianceUtils.java:204-208 | the submitted name when the part is named "file" ignoring case, the part name otherwise |
| DocComplianceUtils.FileSizeInMB | document-compliance-service/src/main/java/gov/nsf/psm/documentcompliance/compliance/common/utility/DocComplianceUtils.java:106-108 | the size in MB times 1024 * 1024 is the size in bytes |
| DocComplianceUtils.DocumentModelFor | document-compliance-service/src/main/java/gov/nsf/psm/documentcompliance/compliance/common/utility/DocComplianceUtils.java:127-148 | the document model is never null: the built one for an accepted mime type, else an empty model; the mime flag set for an accepted type |
| DocComplianceUtils.DocumentMetadataFor | document-compliance-service/src/main/java/gov/nsf/psm/documentcompliance/compliance/common/utility/DocComplianceUtils.java:110-125 | an unaccepted mime type leaves the compliance model unchanged; an accepted one sets the metadata model and the mime flag |
| SpreadsheetModelBuilderUtils.ConvertHexToString | document-compliance-service/src/main/java/gov/nsf/psm/documentcompliance/compliance/ss/utility/SpreadsheetModelBuilderUtils.java:266-285 | fewer than two hex digits give ""; otherwise the charset's decoding of the bytes, "?" where decoding fails |
| SpreadsheetModelBuilderUtils.CheckedValue | document-compliance-service/src/main/java/gov/nsf/psm/documentcompliance/compliance/ss/utility/SpreadsheetModelBuilderUtils.java:287-296 | no table entry or an empty one gives "?"; otherwise the decoded code |
| SpreadsheetModelBuilderUtils.ReplaceAll | document-compliance-service/src/main/java/gov/nsf/psm/documentcompliance/compliance/ss/utility/SpreadsheetModelBuilderUtils.java:247-252 | a value the charset holds entirely is copied unchanged |
| SpreadsheetModelBuilderUtils.ReplaceAllAppend | document-compliance-service/src/main/java/gov/nsf/psm/documentcompliance/compliance/ss/utility/SpreadsheetModelBuilderUtils.java:247-252 | chars are replaced one by one: the replacement of a concatenation is the concatenation of the replacements |
| SpreadsheetModelBuilderUtils.UnsupportedList | document-compliance-service/src/main/java/gov/nsf/psm/documentcompliance/compliance/ss/utility/SpreadsheetModelBuilderUtils.java:253-262 | one-char strings, no duplicates, holding exactly the chars of the value whose replacement is "?" |
| SpreadsheetModelBuilderUtils.UnsupportedListFirstOccurrence | document-compliance-service/src/main/java/gov/nsf/psm/documentcompliance/compliance/ss/utility/SpreadsheetModelBuilderUtils.java:253-262 | the unsupported chars are listed in order of their first occurrence in the value |
| SpreadsheetModelBuilderUtils.EnforceCharset | document-compliance-service/src/main/java/gov/nsf/psm/documentcompliance/compliance/ss/utility/SpreadsheetModelBuilderUtils.java:243-264 | the value replaced char by char; the unsupported list set only when non-empty; nothing else changes |
| SpreadsheetModelBuilderUtils.EnforceCharsetKeepsSupported | document-compliance-service/src/main/java/gov/nsf/psm/documentcompliance/compliance/ss/utility/SpreadsheetModelBuilderUtils.java:243-264 | a value the charset holds entirely leaves the cell unchanged |
| SpreadsheetModelBuilderUtils.NothingUnsupported | document-compliance-service/src/main/java/gov/nsf/psm/documentcompliance/compliance/ss/utility/SpreadsheetModelBuilderUtils.java:253-262 | a value the charset holds entirely has no unsupported char |
| SpreadsheetModelBuilderUtils.CheckCharset | document-compliance-service/src/main/java/gov/nsf/psm/documentcompliance/compliance/ss/utility/SpreadsheetModelBuilderUtils.java:233-241 | the cell is untouched for an empty value or with checking off, else the charset is enforced |
| SpreadsheetModelBuilderUtils.BulletDecodesToEmpty | document-compliance-service/src/main/java/gov/nsf/psm/documentcompliance/compliance/ss/utility/SpreadsheetModelBuilderUtils.java:266-285 | the bullet's one-digit code decodes to "" and is not reported as unsupported |
| SpreadsheetModelBuilderUtils.CreateCellModelList | document-compliance-service/src/main/java/gov/nsf/psm/documentcompliance/compliance/ss/utility/SpreadsheetModelBuilderUtils.java:224-231 | an empty list exactly when all cells, or all but one, are empty; else the cells |
| SpreadsheetModelBuilderUtils.UpdateNonStrColumns | document-compliance-service/src/main/java/gov/nsf/psm/documentcompliance/compliance/ss/utility/SpreadsheetModelBuilderUtils.java:188-197 | on the header row, the column index once per marker contained in the trimmed upper-cased value; nothing on other rows |
| SpreadsheetModelBuilderUtils.NonStrColumnsIffMarker | document-compliance-service/src/main/java/gov/nsf/psm/documentcompliance/compliance/ss/utility/SpreadsheetModelBuilderUtils.java:188-197 | the header cell's column is marked exactly when some marker occurs in the normalized value |
| SpreadsheetModelBuilderUtils.UpdateNonStrValue | document-compliance-service/src/main/java/gov/nsf/psm/documentcompliance/compliance/ss/utility/SpreadsheetModelBuilderUtils.java:199-202 | "" exactly for a non-numeric cell of a marked column (or an empty value), else the value |
| SpreadsheetModelBuilderUtils.AddNewRowModel | document-compliance-service/src/main/java/gov/nsf/psm/documentcompliance/compliance/ss/utility/SpreadsheetModelBuilderUtils.java:214-222 | a non-empty cell list appends exactly one row with those cells and numbers; an empty one changes nothing |
| SpreadsheetModelBuilderUtils.CamelSpacedRemoveSpaces | document-compliance-service/src/main/java/gov/nsf/psm/documentcompliance/compliance/ss/utility/SpreadsheetModelBuilderUtils.java:147 | inserting spaces before camel-case capitals changes nothing but the added spaces |
| SpreadsheetModelBuilderUtils.CamelSpacedLength | document-compliance-service/src/main/java/gov/nsf/psm/documentcompliance/compliance/ss/utility/SpreadsheetModelBuilderUtils.java:147 | the spaced name is longer than the name by exactly one space per lower-to-upper boundary |
| SpreadsheetModelBuilderUtils.CamelSpacedSeparated | document-compliance-service/src/main/java/gov/nsf/psm/documentcompliance/compliance/ss/utility/SpreadsheetModelBuilderUtils.java:147 | no lower-case letter is directly followed by an upper-case one afterwards |
| SpreadsheetModelBuilderUtils.CamelSpacedRecoversName | document-compliance-service/src/main/java/gov/nsf/psm/documentcompliance/compliance/ss/utility/SpreadsheetModelBuilderUtils.java:147 | deleting the spaces from the spaced form of a space-free name gives the name back |
| SpreadsheetModelBuilderUtils.TableName | document-compliance-service/src/main/java/gov/nsf/psm/documentcompliance/compliance/ss/utility/SpreadsheetModelBuilderUtils.java:145-150 | the camel-spaced display name, or "[Table <id>]" when it is empty |
| SpreadsheetModelBuilderUtils.SortByStartRow | document-compliance-service/src/main/java/gov/nsf/psm/documentcompliance/compliance/ss/utility/SpreadsheetModelBuilderUtils.java:136 | tables sorted by start row: a permutation, ordered, ties keeping their order |
| SpreadsheetModelBuilderUtils.NameTables | document-compliance-service/src/main/java/gov/nsf/psm/documentcompliance/compliance/ss/utility/SpreadsheetModelBuilderUtils.java:136-150 | tables numbered 1..n in start-row order, each named from its display name or id |
| SpreadsheetModelBuilderUtils.NameTablesOrdered | document-compliance-service/src/main/java/gov/nsf/psm/documentcompliance/compliance/ss/utility/SpreadsheetModelBuilderUtils.java:136-143 | a table numbered earlier never starts on a later row |

## Left out

- iText's parser, `TextMarginFinder`, `LocationTextExtractionStrategy` and the text extraction itself are inputs of the model: the page's event list, its text rectangle, the extractor's text and the annotation URLs.
- `PdfUtils.processResource(List, PdfDictionary)`, `findAllLinks` and `getURL` walk iText dictionaries. Their results are inputs: the declared fonts and the annotation URLs.
- `PdfUtils.findAllTextUrls` and `characterMatches` are regular-expression searches. They are environment functions (`Environment.textUrls`, `Settings.isSpecial`).
- `PdfUtils.checkFont` reads the AWT font catalogue. The installed fonts are a parameter.
- `PdfUtils.isTextRotated`, `getDistance` and `getFontSize` read iText vectors and matrices. Their operands are fields of the chunk record.
- The type density arithmetic (`getTypeDensity`, `getAverageTypeDensity`), `getAscentDescentDifference`, `getSuperscriptLines`, `getSubscriptLines` and `getHeadingList` only feed logging and display strings, and so do the `display*`, `show*`, `initFontOutput`, `addFontPercentage` and `createFontPercentList` helpers of PdfModelBuilderUtils.java. The one observable effect of this logging is modelled: a text page without lines fails in `initOutput`.
- `PdfModelBuilderUtils.displayPdfMetadata` only logs the version, the page count, encryption, tagging and keywords. It has no effect on the model.
- Every exception before `initDocumentModel` (reader errors, stream errors) is folded into the `Unreadable` opening.
- `cleanUpFileObjects`, `getXmpTagValue`, `initDocumentMetadataOutput` and `initUserUnitCheck` close streams, read XMP or log. They have no effect on the model.
- Apache POI iteration is left out: `processXSSFRow`, `processHSSFRow`, `processAllRows`, `processXSSFTables`' row loop, `getLinks`, `getImages`, `getFonts` and `goToNextCell`. So are `getDateString` and DateUtils. The table numbering and naming of `processXSSFTables` are modelled. `getCTTable().getId()` is an integer field.
- `Charset` encoding and decoding are the two functions of the `Charset` record: which chars survive the round trip, and how hex bytes decode.
- `String.equalsIgnoreCase` and `toUpperCase` fold ASCII letters only.
- DocComplianceUtils' `getMimeType`, `getOrigFileName`, `getIsTablesOnly`, `getParams`, `convertToMap` and the spreadsheet entry points read multipart requests or other builders. They are outside this core.
- Strings are sequences of Unicode code points, while Java's `String.length()`, `toCharArray()` and char loops work in UTF-16 code units. For text with characters outside the Basic Multilingual Plane the counts differ (`CharCount`, `noOfTextCharsiText`, `totalCharacterCount`): Java counts 2 per such character and the model 1. So does charset enforcement: Java replaces each half of the surrogate pair and lists two one-char strings, and the model replaces and lists the character once.
- The `typeDensity` field that `addLine` stores on each `LineModel` (PdfExtractionListener.java line 313) is omitted from the model's `LineModel`. Its only reader in this core is the debug log.
- Common.ParseDecimal: states that a parsed value is in range, not that every well-formed in-range text parses. `ParseShowDecimal` gives the round trip for printed integers instead.
- PdfUtils.PredominantLeading: the order of the returned values is the environment's `leadingOrder` and is not constrained. The source's `HashMultimap` gives no order, so the "first" predominant leading is any of the ties.
- PdfModelBuilder.BuildModel: covers the page outcomes and the assembled model. It does not model the log lines written along the way.

## Behaviour of the code worth knowing

The model follows the code in each case:

- A line can appear in both `superscriptLines` and `subscriptLines`. Each chunk adds at most one entry, but different chunks of the same line can add one to each list.
- The secondary superscript test also requires that the last subscript line is more than one line back, or that there are no subscript lines (PdfExtractionListener.java line 392).
- `getPageFactModel` emits facts only for fonts whose `ignore` flag is false.
- `checkFont` treats a font descriptor without `FontFile`, `FontFile2` or `FontFile3` as no descriptor at all, and falls back to the installed-font lookup.
- Without the text extractor, a page with no text event makes the page builder throw. `buildModel` swallows that, so the whole document is returned as `initDocumentModel` left it (`TextlessPageStopsBuild`). A page the content pre-scan cannot read gives a null part, which has the same effect.
- A geometry-only page keeps page number 0 and has no URLs.
- `correctFileName` returns null for a name that already ends in `.pdf`.

=== FILE: common.dfy ===
/**
  Shared vocabulary: the failure-compatible wrappers used for the source's
  nulls and exceptions, and the handful of java.lang.String operations that the
  layout engine relies on (trim, indexOf, split on a character, case folding).
 */
module Common {

  /** A Java reference that may be null. */
  datatype Option<+T> = None | Some(value: T) {
    function GetOr(default: T): T {
      match this
      case Some(v) => v
      case None => default
    }
  }

  /** The outcome of a call that may throw: the exception message is kept. */
  datatype Result<+T> = Success(value: T) | Failure(error: string) {
    predicate IsFailure() {
      Failure?
    }
  }

  // ---------------------------------------------------------------------------
  // java.lang.String.trim: strips every code point <= U+0020 at both ends.

  predicate IsTrimmed(c: char) {
    c <= ' '
  }

  /** A string is blank when trim() leaves nothing. */
  predicate IsBlank(s: string) {
    forall i :: 0 <= i < |s| ==> IsTrimmed(s[i])
  }

  function TrimStart(s: string): (r: string)
    ensures |r| <= |s| && r == s[|s| - |r|..]
    ensures forall i :: 0 <= i < |s| - |r| ==> IsTrimmed(s[i])
    ensures |r| == 0 || !IsTrimmed(r[0])
  {
    if |s| > 0 && IsTrimmed(s[0]) then TrimStart(s[1..]) else s
  }

  function TrimEnd(s: string): (r: string)
    ensures |r| <= |s| && r == s[..|r|]
    ensures forall i :: |r| <= i < |s| ==> IsTrimmed(s[i])
    ensures |r| == 0 || !IsTrimmed(r[|r| - 1])
  {
    if |s| > 0 && IsTrimmed(s[|s| - 1]) then TrimEnd(s[..|s| - 1]) else s
  }

  /** String.trim(): the longest infix that neither starts nor ends with a code point <= U+0020. */
  function Trim(s: string): (r: string)
    ensures |r| <= |s|
    ensures r == "" || (!IsTrimmed(r[0]) && !IsTrimmed(r[|r| - 1]))
    ensures OccursAt(s, r, |s| - |TrimStart(s)|)
    ensures forall i :: 0 <= i < |s| - |TrimStart(s)| ==> IsTrimmed(s[i])
    ensures forall i :: |s| - |TrimStart(s)| + |r| <= i < |s| ==> IsTrimmed(s[i])
  {
    TrimShape(s, TrimStart(s), TrimEnd(TrimStart(s)));
    TrimEnd(TrimStart(s))
  }

  /** The trimmed infix `r` occurs after the leading code points <= U+0020 and is followed only by such code points. */
  lemma TrimShape(s: string, t: string, r: string)
    requires |t| <= |s| && t == s[|s| - |t|..]
    requires |r| <= |t| && r == t[..|r|]
    requires forall i :: |r| <= i < |t| ==> IsTrimmed(t[i])
    ensures OccursAt(s, r, |s| - |t|)
    ensures forall i :: |s| - |t| + |r| <= i < |s| ==> IsTrimmed(s[i])
  {
    PrefixOfSuffix(s, t, r, |s| - |t|);
    TrailingTrimmed(s, t, r, |s| - |t|);
  }

  /** The code points of `s` after a trimmed prefix `r` of its suffix `t` are all <= U+0020. */
  lemma TrailingTrimmed(s: string, t: string, r: string, k: int)
    requires 0 <= k <= |s| && t == s[k..] && |r| <= |t|
    requires forall i :: |r| <= i < |t| ==> IsTrimmed(t[i])
    ensures forall i :: k + |r| <= i < |s| ==> IsTrimmed(s[i])
  {
    forall i | k + |r| <= i < |s| ensures IsTrimmed(s[i]) {
      assert s[i] == t[i - k];
    }
  }

  /** A prefix of the suffix of `s` from `k` occurs in `s` at `k`. */
  lemma PrefixOfSuffix(s: string, t: string, r: string, k: int)
    requires 0 <= k <= |s| && t == s[k..] && |r| <= |t| && r == t[..|r|]
    ensures OccursAt(s, r, k) && (|r| > 0 ==> r[0] == t[0])
  {
  }

  /** trim() is empty exactly when every code point of the string is <= U+0020. */
  /** A string ending in a non-blank suffix does not trim to nothing. */
  lemma NonBlankSuffix(s: string, t: string)
    requires |t| <= |s| && s[|s| - |t|..] == t
    requires !IsBlank(t)
    ensures Trim(s) != ""
  {
    var i :| 0 <= i < |t| && !IsTrimmed(t[i]);
    assert s[|s| - |t| + i] == t[i];
    TrimEmptyIffBlank(s);
  }

  lemma TrimEmptyIffBlank(s: string)
    ensures Trim(s) == "" <==> IsBlank(s)
  {
    if Trim(s) != "" {
      var r := Trim(s);
      var k := |s| - |TrimStart(s)|;
      assert s[k] == r[0];
    }
  }

  // ---------------------------------------------------------------------------
  // Searching

  /** `sub` occurs in `s` starting at position `k`. */
  predicate OccursAt(s: string, sub: string, k: int) {
    0 <= k && k + |sub| <= |s| && s[k..k + |sub|] == sub
  }

  lemma OccursAtTail(s: string, sub: string, k: int)
    requires |s| > 0 && k >= 1
    ensures OccursAt(s, sub, k) <==> OccursAt(s[1..], sub, k - 1)
  {
    if k + |sub| <= |s| {
      assert s[k..k + |sub|] == s[1..][k - 1..k - 1 + |sub|];
    }
  }

  /** The characters of the regular-expression class \s. */
  predicate IsRegexSpace(c: char) {
    c == ' ' || c == '\t' || c == '\n' || c == '\U{000B}' || c == '\U{000C}' || c == '\r'
  }

  /** String.indexOf(sub): the least position where `sub` occurs, or -1. */
  function IndexOf(s: string, sub: string): (r: int)
    ensures -1 <= r <= |s|
    ensures r >= 0 ==> OccursAt(s, sub, r)
    ensures forall k :: 0 <= k && (r == -1 || k < r) ==> !OccursAt(s, sub, k)
    decreases |s|
  {
    if |sub| > |s| then -1
    else if s[..|sub|] == sub then
      assert OccursAt(s, sub, 0);
      0
    else
      var r := IndexOf(s[1..], sub);
      assert !OccursAt(s, sub, 0);
      forall k | 1 <= k
        ensures OccursAt(s, sub, k) <==> OccursAt(s[1..], sub, k - 1)
      {
        OccursAtTail(s, sub, k);
      }
      if r == -1 then -1 else r + 1
  }

  /** `sub` occurs in `s` (String.contains). */
  predicate Contains(s: string, sub: string) {
    IndexOf(s, sub) >= 0
  }

  /** String.indexOf(char): the least position of `c`, or -1. */
  function IndexOfChar(s: string, c: char): (r: int)
    ensures -1 <= r < |s|
    ensures r >= 0 ==> s[r] == c && c !in s[..r]
    ensures r == -1 <==> c !in s
  {
    if |s| == 0 then -1
    else if s[0] == c then 0
    else
      var r := IndexOfChar(s[1..], c);
      if r == -1 then -1 else r + 1
  }

  /** String.lastIndexOf(char): the greatest position of `c`, or -1. */
  function LastIndexOfChar(s: string, c: char): (r: int)
    ensures -1 <= r < |s|
    ensures r >= 0 ==> s[r] == c
    ensures forall j :: r < j < |s| ==> s[j] != c
  {
    if |s| == 0 then -1
    else if s[|s| - 1] == c then |s| - 1
    else LastIndexOfChar(s[..|s| - 1], c)
  }

  /** The number of positions of `s` holding `c`. */
  function Occurrences(s: string, c: char): nat
  {
    if |s| == 0 then 0 else (if s[0] == c then 1 else 0) + Occurrences(s[1..], c)
  }

  /** Counting occurrences one by one agrees with the multiplicity in the string's multiset. */
  lemma {:induction false} OccurrencesIsMultiplicity(s: string, c: char)
    ensures Occurrences(s, c) == multiset(s)[c]
  {
    if |s| > 0 {
      OccurrencesIsMultiplicity(s[1..], c);
      assert s == [s[0]] + s[1..];
      assert multiset(s) == multiset{s[0]} + multiset(s[1..]);
    }
  }

  /** The string with every occurrence of `c` deleted (String.replaceAll of a one-character literal by ""). */
  function RemoveChar(s: string, c: char): (r: string)
    ensures c !in r
    ensures |r| <= |s|
    ensures forall x :: x in r <==> x in s && x != c
    ensures IsSubsequence(r, s)
    ensures |r| == |s| - Occurrences(s, c)
  {
    if |s| == 0 then ""
    else
      assert s == [s[0]] + s[1..];
      if s[0] == c then
        var r := RemoveChar(s[1..], c);
        assert |r| > 0 ==> r[0] != s[0] by {
          if |r| > 0 {
            assert r[0] in r;
          }
        }
        r
      else [s[0]] + RemoveChar(s[1..], c)
  }

  lemma RemoveCharCons(x: char, s: string, c: char)
    ensures RemoveChar([x] + s, c) == if x == c then RemoveChar(s, c) else [x] + RemoveChar(s, c)
  {
    assert ([x] + s)[1..] == s;
  }

  /** One step of the spacing: an optional deleted char and a kept first char over tails that agree once `c` is deleted. */
  lemma SpacedStepRemoveSpaces(x: char, tail: string, rest: string, spaced: string, boundary: bool, c: char)
    requires RemoveChar(rest, c) == RemoveChar(tail, c)
    requires spaced == (if boundary then [c] else []) + [x] + rest
    ensures RemoveChar(spaced, c) == RemoveChar([x] + tail, c)
  {
    var t := [x] + rest;
    RemoveCharConsEqual(x, rest, tail, c);
    if boundary {
      assert spaced == [c] + t;
      RemoveCharDropsLeading(c, t);
    }
  }

  lemma RemoveCharDropsLeading(c: char, s: string)
    ensures RemoveChar([c] + s, c) == RemoveChar(s, c)
  {
    assert ([c] + s)[1..] == s;
  }

  lemma RemoveCharConsEqual(x: char, a: string, b: string, c: char)
    requires RemoveChar(a, c) == RemoveChar(b, c)
    ensures RemoveChar([x] + a, c) == RemoveChar([x] + b, c)
  {
    RemoveCharCons(x, a, c);
    RemoveCharCons(x, b, c);
  }

  /** String.replace(from, to) for single characters. */
  function ReplaceChar(s: string, from: char, to: char): (r: string)
    ensures |r| == |s|
    ensures forall i :: 0 <= i < |s| ==> r[i] == (if s[i] == from then to else s[i])
  {
    seq(|s|, i requires 0 <= i < |s| => if s[i] == from then to else s[i])
  }

  // ---------------------------------------------------------------------------
  // Case folding (ASCII letters only)

  predicate IsLower(c: char) {
    'a' <= c <= 'z'
  }

  predicate IsUpper(c: char) {
    'A' <= c <= 'Z'
  }

  predicate IsAsciiLetter(c: char) {
    IsLower(c) || IsUpper(c)
  }

  function UpperChar(c: char): (r: char)
    ensures !IsLower(r)
  {
    if IsLower(c) then (c as int - 32) as char else c
  }

  function ToUpper(s: string): (r: string)
    ensures |r| == |s|
    ensures forall i :: 0 <= i < |s| ==> r[i] == UpperChar(s[i])
  {
    seq(|s|, i requires 0 <= i < |s| => UpperChar(s[i]))
  }

  /** String.equalsIgnoreCase, with case folding restricted to ASCII letters. */
  predicate EqualsIgnoreCase(a: string, b: string) {
    ToUpper(a) == ToUpper(b)
  }

  // ---------------------------------------------------------------------------
  // Splitting on one character

  /** Every piece between occurrences of `sep`, empty pieces included. */
  function SplitOn(s: string, sep: char): (r: seq<string>)
    ensures |r| >= 1
    ensures forall i :: 0 <= i < |r| ==> sep !in r[i]
    decreases |s|
  {
    var k := IndexOfChar(s, sep);
    if k == -1 then [s]
    else [s[..k]] + SplitOn(s[k + 1..], sep)
  }

  /** The pieces joined back with `sep` between consecutive ones. */
  function JoinWith(xs: seq<string>, sep: char): string {
    if |xs| == 0 then ""
    else if |xs| == 1 then xs[0]
    else xs[0] + [sep] + JoinWith(xs[1..], sep)
  }

  /** Splitting a join gives back the pieces when none of them holds the separator. */
  lemma {:induction false} SplitOnJoin(xs: seq<string>, sep: char)
    requires |xs| >= 1
    requires forall i :: 0 <= i < |xs| ==> sep !in xs[i]
    ensures SplitOn(JoinWith(xs, sep), sep) == xs
    decreases |xs|
  {
    if |xs| == 1 {
      assert IndexOfChar(xs[0], sep) == -1;
    } else {
      var s := JoinWith(xs, sep);
      var rest := JoinWith(xs[1..], sep);
      assert s == xs[0] + [sep] + rest;
      FirstSeparator(xs[0], sep, rest);
      SplitOnJoin(xs[1..], sep);
    }
  }

  /** The first separator of `a + [sep] + b` is the one after `a` when `a` holds none. */
  lemma FirstSeparator(a: string, sep: char, b: string)
    requires sep !in a
    ensures var s := a + [sep] + b;
      IndexOfChar(s, sep) == |a| && s[..|a|] == a && s[|a| + 1..] == b
  {
    var s := a + [sep] + b;
    assert s[..|a|] == a;
    assert s[|a|] == sep;
    var j := IndexOfChar(s, sep);
    assert j != -1 by {
      assert s[|a|] in s;
    }
    assert j <= |a| by {
      assert s[..|a| + 1][|a|] == sep;
    }
    assert s[|a| + 1..] == b;
  }

  /** Java's String.split drops every trailing empty piece. */
  function DropTrailingEmpty(xs: seq<string>): (r: seq<string>)
    ensures |r| <= |xs| && r == xs[..|r|]
    ensures |r| == 0 || r[|r| - 1] != ""
    ensures forall i :: |r| <= i < |xs| ==> xs[i] == ""
  {
    if |xs| == 0 then xs
    else if xs[|xs| - 1] == "" then DropTrailingEmpty(xs[..|xs| - 1])
    else xs
  }

  /** A loop that sets a flag when any element passes the test. */
  function AnyOf<T>(p: T -> bool, xs: seq<T>): (r: bool)
    ensures r <==> exists i :: 0 <= i < |xs| && p(xs[i])
  {
    if |xs| == 0 then false
    else
      assert forall i :: 0 <= i < |xs| - 1 ==> xs[..|xs| - 1][i] == xs[i];
      AnyOf(p, xs[..|xs| - 1]) || p(xs[|xs| - 1])
  }

  // ---------------------------------------------------------------------------
  // Numbers

  predicate IsDigit(c: char) {
    '0' <= c <= '9'
  }

  predicate AllDigits(s: string) {
    forall i :: 0 <= i < |s| ==> IsDigit(s[i])
  }

  /** The value of a string of decimal digits. */
  function DigitsValue(s: string): (n: nat)
    requires AllDigits(s)
  {
    if |s| == 0 then 0 else DigitsValue(s[..|s| - 1]) * 10 + (s[|s| - 1] as int - '0' as int)
  }

  /**
    Integer.parseInt / Long.parseLong in base 10: an optional sign, then at
    least one digit, and a value within [lo, hi]; None where the source throws
    NumberFormatException.
   */
  function ParseDecimal(s: string, lo: int, hi: int): (r: Option<int>)
    ensures r.Some? ==> lo <= r.value <= hi
    ensures r.Some? ==> |s| > 0
  {
    var negative := |s| > 0 && s[0] == '-';
    var digits := if |s| > 0 && (s[0] == '-' || s[0] == '+') then s[1..] else s;
    if |digits| == 0 || !AllDigits(digits) then None
    else
      var v: int := if negative then -(DigitsValue(digits) as int) else DigitsValue(digits);
      if lo <= v <= hi then Some(v) else None
  }

  /** The decimal digit for 0..9. */
  function DigitChar(d: nat): (c: char)
    requires d < 10
    ensures IsDigit(c) && c as int - '0' as int == d
  {
    ('0' as int + d) as char
  }

  /** The decimal form of a natural number, without leading zeros. */
  function ShowNat(n: nat): (r: string)
    ensures |r| > 0 && AllDigits(r) && DigitsValue(r) == n
    ensures |r| > 1 ==> r[0] != '0'
  {
    if n < 10 then [DigitChar(n)]
    else
      var front := ShowNat(n / 10);
      var r := front + [DigitChar(n % 10)];
      assert r[..|r| - 1] == front;
      r
  }

  /** How a PDF integer prints: an optional '-' and the decimal digits. */
  function ShowDecimal(n: int): (r: string)
    ensures |r| > 0 && (r[0] == '-' <==> n < 0)
  {
    if n < 0 then "-" + ShowNat(-n) else ShowNat(n)
  }

  /** Parsing a printed integer within the range gives it back. */
  lemma ParseShowDecimal(n: int, lo: int, hi: int)
    requires lo <= n <= hi
    ensures ParseDecimal(ShowDecimal(n), lo, hi) == Some(n)
  {
    var s := ShowDecimal(n);
    if n < 0 {
      assert s[1..] == ShowNat(-n);
    } else {
      assert IsDigit(s[0]);
    }
  }

  // ---------------------------------------------------------------------------
  // Integer.toHexString

  predicate IsHexDigit(c: char) {
    '0' <= c <= '9' || 'a' <= c <= 'f'
  }

  predicate AllHexDigits(s: string) {
    forall i :: 0 <= i < |s| ==> IsHexDigit(s[i])
  }

  function HexDigitValue(c: char): (d: nat)
    requires IsHexDigit(c)
    ensures d < 16
  {
    if c <= '9' then c as int - '0' as int else c as int - 'a' as int + 10
  }

  /** The lower-case hexadecimal digit for 0..15. */
  function HexDigitChar(d: nat): (c: char)
    requires d < 16
    ensures IsHexDigit(c) && HexDigitValue(c) == d
  {
    if d < 10 then ('0' as int + d) as char else ('a' as int + d - 10) as char
  }

  /** The value of a string of lower-case hexadecimal digits. */
  function HexValue(s: string): (n: nat)
    requires AllHexDigits(s)
  {
    if |s| == 0 then 0 else HexValue(s[..|s| - 1]) * 16 + HexDigitValue(s[|s| - 1])
  }

  /** What Integer.toHexString prints for a non-negative value: lower case, no leading zeros. */
  predicate IsHexStringForm(s: string) {
    |s| > 0 && AllHexDigits(s) && (|s| > 1 ==> s[0] != '0')
  }

  /** Integer.toHexString of a non-negative int. */
  function ToHexString(n: nat): (r: string)
    ensures IsHexStringForm(r) && HexValue(r) == n
  {
    if n < 16 then [HexDigitChar(n)]
    else
      var front := ToHexString(n / 16);
      var r := front + [HexDigitChar(n % 16)];
      assert r[..|r| - 1] == front;
      r
  }

  /** A string of hexadecimal digits that starts with a non-zero digit has a non-zero value. */
  lemma {:induction false} HexValuePositive(s: string)
    requires AllHexDigits(s) && |s| > 0 && s[0] != '0'
    ensures HexValue(s) > 0
    decreases |s|
  {
    if |s| > 1 {
      HexValuePositive(s[..|s| - 1]);
    }
  }

  /** A string in toHexString form is what toHexString prints for its value. */
  lemma {:induction false} ToHexStringOfValue(s: string)
    requires IsHexStringForm(s)
    ensures ToHexString(HexValue(s)) == s
    decreases |s|
  {
    var c := s[|s| - 1];
    if |s| == 1 {
      assert HexDigitChar(HexDigitValue(c)) == c;
    } else {
      var front := s[..|s| - 1];
      HexValuePositive(front);
      ToHexStringOfValue(front);
      assert HexDigitChar(HexDigitValue(c)) == c;
      DivModSixteen(HexValue(front), HexDigitValue(c));
      assert s == front + [c];
    }
  }

  lemma DivModSixteen(q: nat, d: nat)
    requires d < 16
    ensures (q * 16 + d) / 16 == q && (q * 16 + d) % 16 == d
  {
  }

  const IntMin: int := -0x8000_0000
  const IntMax: int := 0x7FFF_FFFF
  const LongMin: int := -0x8000_0000_0000_0000
  const LongMax: int := 0x7FFF_FFFF_FFFF_FFFF

  /** Math.round for the values the engine rounds: the floor of x + 1/2. */
  function Round(x: real): int {
    (x + 0.5).Floor
  }

  function SumReals(xs: seq<real>): real {
    if |xs| == 0 then 0.0 else SumReals(xs[..|xs| - 1]) + xs[|xs| - 1]
  }

  /** No value occurs twice. */
  predicate Distinct<T(==)>(xs: seq<T>) {
    forall i, j :: 0 <= i < j < |xs| ==> xs[i] != xs[j]
  }

  /** `sub` is `xs` with some elements left out, the rest in their original order. */
  predicate IsSubsequence<T(==)>(sub: seq<T>, xs: seq<T>)
    decreases |xs|
  {
    if |sub| == 0 then true
    else if |xs| == 0 then false
    else if sub[0] == xs[0] then IsSubsequence(sub[1..], xs[1..])
    else IsSubsequence(sub, xs[1..])
  }

  /**
    If a tail `x` is appended (or not, by `keep`) alike to `kb` and to
    `kab` == `ka` + `kb`, the concatenation law survives: the step of every
    "filter a concatenation" induction.
   */
  lemma SnocAppended<T>(ka: seq<T>, kb: seq<T>, kab: seq<T>, kbx: seq<T>, kabx: seq<T>, x: seq<T>, keep: bool)
    requires kab == ka + kb
    requires kbx == if keep then kb + x else kb
    requires kabx == if keep then kab + x else kab
    ensures kabx == ka + kbx
  {
    if keep {
      assert ka + (kb + x) == (ka + kb) + x;
    }
  }

  lemma {:induction false} SubsequenceAppend<T>(sub: seq<T>, xs: seq<T>, x: T, keep: bool)
    requires IsSubsequence(sub, xs)
    ensures IsSubsequence(if keep then sub + [x] else sub, xs + [x])
    decreases |xs|
  {
    if |sub| == 0 {
      if keep {
        SubsequenceOfSingleton(xs, x);
        assert sub + [x] == [x];
      }
    } else {
      assert |xs| > 0;
      var ys := xs + [x];
      assert ys[1..] == xs[1..] + [x];
      if sub[0] == xs[0] {
        SubsequenceAppend(sub[1..], xs[1..], x, keep);
        if keep {
          assert (sub + [x])[1..] == sub[1..] + [x];
        }
      } else {
        SubsequenceAppend(sub, xs[1..], x, keep);
      }
    }
  }

  lemma {:induction false} SubsequenceOfSingleton<T>(xs: seq<T>, x: T)
    ensures IsSubsequence([x], xs + [x])
    decreases |xs|
  {
    if |xs| > 0 {
      assert (xs + [x])[1..] == xs[1..] + [x];
      if xs[0] == x {
        assert IsSubsequence([x][1..], (xs + [x])[1..]);
      } else {
        SubsequenceOfSingleton(xs[1..], x);
      }
    }
  }
}

=== FILE: constants.dfy ===
/** The thresholds and placeholders of the compliance engine. */
module Constants {

  /** Points per linear inch, used by the type-density figures. */
  const LinearInchInPoints: real := 72.272

  /** A superscript or subscript is set at most this fraction of the neighbouring font size. */
  const SupSubMaximumFontPercentage: real := 0.75

  /** A superscript or subscript baseline lies at least this fraction of the neighbouring baseline. */
  const SupSubMinimumBaselinePercentage: real := 0.75

  /** Fonts at least this size are flagged as ignorable when they set a superscript or subscript. */
  const MinimumSuperSubscriptPtSize: real := 5.0

  /** The single-space width is divided by this to obtain the gap that stands for a missing space. */
  const SpaceCharacterWidthDivisor: real := 0.5

  /** Above this average single-space width the divisor is scaled by the chunk's own space width. */
  const SpaceCharacterWidthThreshold: real := 1.0

  /** Block gaps strictly between these bounds do not trigger the secondary superscript test. */
  const LowerSuperscriptCorrectionBoundary: int := 2
  const UpperSuperscriptCorrectionBoundary: int := 3

  /** A column break needs the right edge to reach one of this many equal slices of the text width. */
  const MaxNoOfColumnsDetected: int := 3

  /** The character that is deleted before the heading test. */
  const HeadingCharExclude: char := ':'

  /** A heading has at most this many words. */
  const HeadingMaxWordCount: int := 10

  const TextLineSeparator: char := '\n'

  /** The part name under which a programmatic upload carries its file. */
  const ProgrammaticFilePlaceholder: string := "file"

  /** Substitute for a character with no representation in the target charset. */
  const DefaultCharsetPlaceholder: string := "?"

  /** Separates a font subset tag from the font name ("ABCDEF+Times"). */
  const DefaultFontNameSeparator: char := '+'
}

=== FILE: doc_compliance_utils.dfy ===
/**
  The helpers shared by the document and spreadsheet paths: font-family
  aliasing, the code page 850 lookup, comma lists, the fact models handed to
  the rules engine, and the wiring of a document model into the compliance
  result.
 */
module DocComplianceUtils {
  import opened Common
  import opened Constants
  import opened Model
  import Cp850 = UnicodeToCp850

  /**
    StringUtils.isEmpty of Apache CXF, the one this class uses: null, or no
    char above U+0020.
   */
  predicate CxfIsEmpty(s: string) {
    IsBlank(s)
  }

  // ---------------------------------------------------------------------------
  // Font families

  /** The font name after its subset tag: everything through the first '+' is dropped. */
  function WithoutSubsetTag(fontName: string): (r: string)
    ensures DefaultFontNameSeparator !in fontName ==> r == fontName
    ensures DefaultFontNameSeparator in fontName ==>
      exists k :: 0 <= k < |fontName| && fontName[k] == DefaultFontNameSeparator
        && DefaultFontNameSeparator !in fontName[..k] && r == fontName[k + 1..]
  {
    var idx := IndexOfChar(fontName, DefaultFontNameSeparator);
    if idx > -1 then fontName[idx + 1..] else fontName
  }

  lemma IndexOfZeroIffPrefix(s: string, sub: string)
    ensures IndexOf(s, sub) == 0 <==> sub <= s
  {
    if sub <= s {
      assert OccursAt(s, sub, 0);
    }
  }

  /**
    The alias of the last entry, in the map's iteration order, whose key
    starts the name; None when no key does.
   */
  function FamilyFor(fontMap: seq<(string, string)>, name: string): (r: Option<string>)
    ensures r.None? <==> forall i :: 0 <= i < |fontMap| ==> !(fontMap[i].0 <= name)
    ensures r.Some? ==> exists i :: 0 <= i < |fontMap| && fontMap[i].0 <= name && r.value == fontMap[i].1
                              && (forall j :: i < j < |fontMap| ==> !(fontMap[j].0 <= name))
  {
    if |fontMap| == 0 then None
    else
      var last := fontMap[|fontMap| - 1];
      IndexOfZeroIffPrefix(name, last.0);
      if IndexOf(name, last.0) == 0 then Some(last.1)
      else FamilyFor(fontMap[..|fontMap| - 1], name)
  }

  /**
    getMatchingFontFamily: the alias of the last map entry whose key starts
    the name without its subset tag; the name itself, tag included, when there
    is none or the alias is empty. `fontMap` lists the map's entries in
    iteration order.
   */
  function MatchingFontFamily(fontName: string, fontMap: seq<(string, string)>): (r: string)
    ensures r == fontName || (!CxfIsEmpty(r) && exists i :: 0 <= i < |fontMap| && r == fontMap[i].1)
  {
    var family := FamilyFor(fontMap, WithoutSubsetTag(fontName));
    if family.Some? && !CxfIsEmpty(family.value) then family.value else fontName
  }

  /** With no key starting the untagged name, the name comes back unchanged. */
  lemma MatchingFontFamilyUnmatched(fontName: string, fontMap: seq<(string, string)>)
    requires forall i :: 0 <= i < |fontMap| ==> !(fontMap[i].0 <= WithoutSubsetTag(fontName))
    ensures MatchingFontFamily(fontName, fontMap) == fontName
  {
  }

  /** The last matching entry decides: its alias when that is not empty, the name otherwise. */
  lemma MatchingFontFamilyLastMatch(fontName: string, fontMap: seq<(string, string)>, i: nat)
    requires i < |fontMap| && fontMap[i].0 <= WithoutSubsetTag(fontName)
    requires forall j :: i < j < |fontMap| ==> !(fontMap[j].0 <= WithoutSubsetTag(fontName))
    ensures MatchingFontFamily(fontName, fontMap) == if CxfIsEmpty(fontMap[i].1) then fontName else fontMap[i].1
  {
    var family := FamilyFor(fontMap, WithoutSubsetTag(fontName));
    var k :| 0 <= k < |fontMap| && fontMap[k].0 <= WithoutSubsetTag(fontName) && family.value == fontMap[k].1
      && (forall j :: k < j < |fontMap| ==> !(fontMap[j].0 <= WithoutSubsetTag(fontName)));
    assert k == i;
  }

  // ---------------------------------------------------------------------------
  // Code page 850

  /**
    getMatchingCp850Character: the code of the table entry whose key is the
    char's code as Integer.toHexString prints it; None where the source
    returns null.
   */
  function MatchingCp850Character(c: char): (r: Option<string>)
    ensures r.Some? <==> exists i :: 0 <= i < |Cp850.Table| && Cp850.Table[i].unicode == ToHexString(c as int)
    ensures forall i :: 0 <= i < |Cp850.Table| && Cp850.Table[i].unicode == ToHexString(c as int) ==>
      r == Some(Cp850.Table[i].cp850Code)
  {
    Cp850.Lookup(ToHexString(c as int))
  }

  /** Every entry of the table is found by the character whose code its key spells. */
  lemma EveryEntryReachable(i: nat)
    requires i < |Cp850.Table|
    ensures var k := Cp850.Table[i].unicode;
      && IsHexStringForm(k) && HexValue(k) < 0xD800
      && MatchingCp850Character(HexValue(k) as char) == Some(Cp850.Table[i].cp850Code)
  {
    var k := Cp850.Table[i].unicode;
    Cp850.TableKeysInHexForm();
    assert |k| <= 2 || (|k| <= 4 && k[0] <= '2');
    HexValueLeadingDigit(k);
    assert Pow16(1) == 16 && Pow16(2) == 256 && Pow16(3) == 4096;
    ToHexStringOfValue(k);
  }

  function Pow16(n: nat): (r: nat)
    ensures r >= 1
  {
    if n == 0 then 1 else 16 * Pow16(n - 1)
  }

  /** The leading digit bounds the value: below (d + 1) * 16^(length - 1). */
  lemma {:induction false} HexValueLeadingDigit(s: string)
    requires AllHexDigits(s) && |s| > 0
    ensures HexValue(s) < (HexDigitValue(s[0]) + 1) * Pow16(|s| - 1)
    decreases |s|
  {
    if |s| > 1 {
      var front := s[..|s| - 1];
      assert front[0] == s[0];
      HexValueLeadingDigit(front);
      var d := HexDigitValue(s[0]) + 1;
      var p := Pow16(|front| - 1);
      assert Pow16(|s| - 1) == p * 16;
      ScaleBound(HexValue(front), HexDigitValue(s[|s| - 1]), d, p);
    }
  }

  lemma ScaleBound(v: nat, e: nat, d: nat, p: nat)
    requires v + 1 <= d * p && e < 16
    ensures v * 16 + e < d * (p * 16)
  {
    assert (v + 1) * 16 <= (d * p) * 16;
    assert d * (p * 16) == (d * p) * 16;
  }

  // ---------------------------------------------------------------------------
  // Comma lists

  /** The string without its leading \s characters. */
  function StripSpaceStart(s: string): (r: string)
    ensures |r| <= |s| && r == s[|s| - |r|..]
    ensures r == "" || !IsRegexSpace(r[0])
    ensures s == "" || !IsRegexSpace(s[0]) ==> r == s
    decreases |s|
  {
    if |s| > 0 && IsRegexSpace(s[0]) then StripSpaceStart(s[1..]) else s
  }

  /** The string without its trailing \s characters. */
  function StripSpaceEnd(s: string): (r: string)
    ensures |r| <= |s| && r == s[..|r|]
    ensures r == "" || !IsRegexSpace(r[|r| - 1])
    ensures s == "" || !IsRegexSpace(s[|s| - 1]) ==> r == s
    decreases |s|
  {
    if |s| > 0 && IsRegexSpace(s[|s| - 1]) then StripSpaceEnd(s[..|s| - 1]) else s
  }

  /** A piece between commas loses the \s next to a comma: at its start unless first, at its end unless last. */
  function TidyPiece(p: string, afterComma: bool, beforeComma: bool): (r: string)
    ensures forall c :: c in r ==> c in p
  {
    var q := if afterComma then StripSpaceStart(p) else p;
    assert forall c :: c in q ==> c in p;
    var r := if beforeComma then StripSpaceEnd(q) else q;
    assert forall c :: c in r ==> c in q;
    r
  }

  /** A piece with no \s at either end. */
  predicate Stripped(p: string) {
    p == "" || (!IsRegexSpace(p[0]) && !IsRegexSpace(p[|p| - 1]))
  }

  function TidyPieces(pieces: seq<string>): (r: seq<string>)
    ensures |r| == |pieces|
    ensures forall i :: 0 <= i < |r| ==> forall c :: c in r[i] ==> c in pieces[i]
  {
    seq(|pieces|, i requires 0 <= i < |pieces| => TidyPiece(pieces[i], i > 0, i < |pieces| - 1))
  }

  /**
    convertToList: split("\\s*,\\s*") of a non-empty string, which cuts at
    each comma, drops the \s around it and, as String.split does, every
    trailing empty piece; an empty list otherwise.
   */
  function ConvertToList(str: string): (r: seq<string>)
    ensures CxfIsEmpty(str) ==> r == []
    ensures forall i :: 0 <= i < |r| ==> ',' !in r[i]
    ensures |r| == 0 || r[|r| - 1] != ""
  {
    if CxfIsEmpty(str) then []
    else
      var pieces := TidyPieces(SplitOn(str, ','));
      var r := DropTrailingEmpty(pieces);
      assert forall i :: 0 <= i < |r| ==> r[i] == pieces[i];
      r
  }

  /**
    Joining items with commas and converting back gives the items, as long as
    no item holds a comma or has \s at its ends, the last is not empty and
    the joined text is not blank.
   */
  lemma ConvertToListJoin(xs: seq<string>)
    requires |xs| > 0 && xs[|xs| - 1] != ""
    requires forall i :: 0 <= i < |xs| ==> ',' !in xs[i] && Stripped(xs[i])
    requires !CxfIsEmpty(JoinWith(xs, ','))
    ensures ConvertToList(JoinWith(xs, ',')) == xs
  {
    SplitOnJoin(xs, ',');
    TidyStrippedPieces(xs);
  }

  /** Pieces with no \s at their ends are left as they are. */
  lemma TidyStrippedPieces(xs: seq<string>)
    requires forall i :: 0 <= i < |xs| ==> Stripped(xs[i])
    ensures TidyPieces(xs) == xs
  {
    forall i | 0 <= i < |xs|
      ensures TidyPieces(xs)[i] == xs[i]
    {
      var p := xs[i];
      assert StripSpaceStart(p) == p;
      assert StripSpaceEnd(p) == p;
    }
  }

  // ---------------------------------------------------------------------------
  // Fact models

  /** The fact for one text font: its alias, size and type. */
  function FontFactOf(f: FontModel, fontMap: seq<(string, string)>): FontFacts {
    FontFacts(MatchingFontFamily(f.key.name, fontMap), f.key.size, f.info.fontType)
  }

  /** The facts for the text fonts that are not ignored, in order. */
  function FontFactsOf(fonts: seq<FontModel>, fontMap: seq<(string, string)>): (r: seq<FontFacts>)
    ensures |r| == |Kept(fonts)|
    ensures forall x :: x in r <==> exists f :: f in fonts && !f.ignore && x == FontFactOf(f, fontMap)
    ensures forall i :: 0 <= i < |r| ==> r[i] == FontFactOf(Kept(fonts)[i], fontMap)
  {
    var kept := Kept(fonts);
    var r := seq(|kept|, i requires 0 <= i < |kept| => FontFactOf(kept[i], fontMap));
    assert forall f :: f in kept ==> FontFactOf(f, fontMap) in r by {
      forall f | f in kept ensures FontFactOf(f, fontMap) in r {
        var i :| 0 <= i < |kept| && kept[i] == f;
        assert r[i] == FontFactOf(f, fontMap);
      }
    }
    r
  }

  /** The fonts that are not ignored, in order. */
  function Kept(fonts: seq<FontModel>): (r: seq<FontModel>)
    ensures IsSubsequence(r, fonts)
    ensures forall f :: f in r <==> f in fonts && !f.ignore
  {
    if |fonts| == 0 then []
    else
      var front := fonts[..|fonts| - 1];
      var f := fonts[|fonts| - 1];
      SubsequenceAppend(Kept(front), front, f, !f.ignore);
      assert fonts == front + [f];
      if f.ignore then Kept(front) else Kept(front) + [f]
  }

  /** Dropping ignored fonts works piece by piece: the kept fonts of a concatenation are the concatenated kept fonts. */
  lemma {:induction false} KeptAppend(a: seq<FontModel>, b: seq<FontModel>)
    ensures Kept(a + b) == Kept(a) + Kept(b)
    decreases |b|
  {
    if |b| == 0 {
      assert a + b == a;
    } else {
      var front, f := b[..|b| - 1], b[|b| - 1];
      assert b == front + [f];
      assert a + b == (a + front) + [f];
      KeptAppend(a, front);
      KeptSnoc(front, f);
      KeptSnoc(a + front, f);
      SnocAppended(Kept(a), Kept(front), Kept(a + front), Kept(b), Kept(a + b), [f], !f.ignore);
    }
  }

  lemma KeptSnoc(fonts: seq<FontModel>, f: FontModel)
    ensures Kept(fonts + [f]) == if f.ignore then Kept(fonts) else Kept(fonts) + [f]
  {
    assert (fonts + [f])[..|fonts|] == fonts;
  }

  /** One font is kept exactly when it is not ignored. */
  lemma KeptSingle(f: FontModel)
    ensures Kept([f]) == if f.ignore then [] else [f]
  {
    assert [f][..0] == [];
  }

  /** The font facts of concatenated font lists are the concatenated facts: one fact per kept font, in font order. */
  lemma FontFactsAppend(a: seq<FontModel>, b: seq<FontModel>, fontMap: seq<(string, string)>)
    ensures FontFactsOf(a + b, fontMap) == FontFactsOf(a, fontMap) + FontFactsOf(b, fontMap)
  {
    KeptAppend(a, b);
    var l := FontFactsOf(a + b, fontMap);
    var r := FontFactsOf(a, fontMap) + FontFactsOf(b, fontMap);
    assert forall i :: 0 <= i < |l| ==> l[i] == r[i];
  }

  /** A page the rules engine can read: one with margins and text fonts. */
  predicate HasTextLayout(page: PageModel) {
    page.margin.Some? && page.textFonts.Some?
  }

  /**
    getPageFactModel: the page's measurements and lines, with one font fact
    per text font that is not ignored. It dereferences the margin and the
    font list, so the page must have both.
   */
  function PageFactModel(page: PageModel, fontMap: seq<(string, string)>): (r: PageFacts)
    requires HasTextLayout(page)
    ensures r.height == page.height && r.width == page.width && r.pageNumber == page.pageNumber
    ensures r.leading == page.leadingValues && r.textLines == page.textLines
    ensures r.margin == page.margin.value
    ensures r.textFonts == FontFactsOf(page.textFonts.value, fontMap)
  {
    PageFacts(page.height, page.leadingValues, page.textLines, page.pageNumber, page.margin.value,
              FontFactsOf(page.textFonts.value, fontMap), page.width)
  }

  /** getSectionFactModelList: one fact per section, carrying its heading. */
  function SectionFactModelList(sections: seq<SectionModel>): (r: seq<SectionFacts>)
    ensures |r| == |sections|
    ensures forall i :: 0 <= i < |r| ==> r[i].heading == sections[i].heading
  {
    seq(|sections|, i requires 0 <= i < |sections| => SectionFacts(sections[i].heading))
  }

  /** The section facts of concatenated section lists are the concatenated facts. */
  lemma SectionFactsAppend(a: seq<SectionModel>, b: seq<SectionModel>)
    ensures SectionFactModelList(a + b) == SectionFactModelList(a) + SectionFactModelList(b)
  {
    var l := SectionFactModelList(a + b);
    var r := SectionFactModelList(a) + SectionFactModelList(b);
    assert forall i :: 0 <= i < |l| ==> l[i] == r[i];
  }

  // ---------------------------------------------------------------------------
  // Files and results

  /** getFileName: the submitted file name when the part is named "file" in any case, else the part name. */
  function FileName(partName: string, submittedFileName: string): (r: string)
    ensures EqualsIgnoreCase(partName, ProgrammaticFilePlaceholder) ==> r == submittedFileName
    ensures !EqualsIgnoreCase(partName, ProgrammaticFilePlaceholder) ==> r == partName
  {
    if EqualsIgnoreCase(partName, ProgrammaticFilePlaceholder) then submittedFileName else partName
  }

  /** convertFileSizeFromBytesToMB, in exact arithmetic. */
  function FileSizeInMB(sizeInBytes: int): (r: real)
    ensures r * 1048576.0 == sizeInBytes as real
  {
    sizeInBytes as real / 1024.0 / 1024.0
  }

  /**
    getDocumentModel: for an accepted type the builder's document, or an
    empty document where the builder returned null; for any other type an
    empty document. `built` is what buildModel returns for the file.
   */
  function DocumentModelFor(compliance: ComplianceModel, mimeTypes: seq<string>, built: Option<DocumentModel>): (r: ComplianceModel)
    ensures r.docModel.Some?
    ensures r.mimeType == compliance.mimeType
    ensures compliance.mimeType in mimeTypes ==> r.correctMimeType
    ensures compliance.mimeType !in mimeTypes ==> r.correctMimeType == compliance.correctMimeType && r.docModel == Some(EmptyDocument)
    ensures compliance.mimeType in mimeTypes && built.Some? ==> r.docModel == built
    ensures built.None? ==> r.docModel == Some(EmptyDocument)
  {
    if compliance.mimeType in mimeTypes then
      var document := if built.Some? then built.value else EmptyDocument;
      compliance.(docModel := Some(document), correctMimeType := true)
    else compliance.(docModel := Some(EmptyDocument))
  }

  /**
    getDocumentMetadata: for an accepted type the builder's metadata (null
    included) and the type flagged correct; any other type changes nothing.
   */
  function DocumentMetadataFor(compliance: ComplianceModel, mimeTypes: seq<string>, mimeType: string,
                               built: Option<DocumentModel>): (r: ComplianceModel)
    ensures mimeType !in mimeTypes ==> r == compliance
    ensures mimeType in mimeTypes ==> r == compliance.(docModel := built, correctMimeType := true)
  {
    if mimeType in mimeTypes then compliance.(docModel := built, correctMimeType := true) else compliance
  }
}

=== FILE: model.dfy ===
/**
  The records of the PDF side of the compliance engine. The parser's objects
  (render infos, page rectangles) become plain values; the document model the
  service returns is an immutable tree. A Java list that may be null is an
  empty sequence unless the difference is observable, in which case it is an
  Option.
 */
module Model {
  import opened Common

  // ---------------------------------------------------------------------------
  // Geometry, in PDF user-space points

  datatype Point = Point(x: real, y: real)

  /** A directed line segment, such as the baseline of a text chunk. */
  datatype Segment = Segment(start: Point, end: Point)

  datatype Rect = Rect(left: real, bottom: real, width: real, height: real) {
    function Right(): real { left + width }
    function Top(): real { bottom + height }
  }

  // ---------------------------------------------------------------------------
  // Fonts

  /** The attributes that FontModel equality compares: two fonts are the same font when these agree. */
  datatype FontKey = FontKey(name: string, size: real)

  /** The embedded font programs the engine names: a FontFile is Type 1, a FontFile2 is TrueType. */
  datatype FontType = TypeOne | TrueType

  /** Whether a font that is not embedded has a matching library on the server. */
  datatype LibraryAvailability = LibraryAvailable | LibraryUnavailable | LibraryNotApplicable

  /** What font classification reports about a font dictionary. */
  datatype FontInfo = FontInfo(
    hasFontDescriptor: bool,
    embedded: bool,
    fontType: Option<FontType>,
    library: Option<LibraryAvailability>)

  /** The attributes of a FontModel that nobody has classified yet. */
  const UnclassifiedFont := FontInfo(false, false, None, None)

  datatype FontModel = FontModel(
    key: FontKey,
    info: FontInfo,
    noOfChars: int,
    ignore: bool,
    predominant: bool)

  /** A freshly constructed FontModel for a name and size. */
  function NewFont(key: FontKey, info: FontInfo): (f: FontModel)
    ensures f.key == key && f.info == info
    ensures f.noOfChars == 0 && !f.ignore && !f.predominant
  {
    FontModel(key, info, 0, false, false)
  }

  // ---------------------------------------------------------------------------
  // Lines, sections and images

  /**
    One reconstructed line of text. Its single font is the inventory font with
    that key; it is None when the line was flushed before any font was seen.
   */
  datatype LineModel = LineModel(
    number: int,
    text: string,
    upperY: real,
    lowerY: real,
    colBlockNo: int,
    leading: real,
    font: Option<FontKey>)

  /** A superscript or subscript occurrence: the number the next stored line will get, and its font. */
  datatype ScriptLine = ScriptLine(number: int, font: FontKey)

  /** A heading candidate. */
  datatype SectionModel = SectionModel(heading: string, beginLine: int, beginPage: int)

  datatype ImageModel = ImageModel(
    bitType: int,
    height: int,
    width: int,
    size: int,
    xCoordinate: real,
    yCoordinate: real,
    filterUsed: string)

  datatype MarginModel = MarginModel(left: real, right: real, top: real, bottom: real)

  // ---------------------------------------------------------------------------
  // Pages and documents

  /**
    A page of the document model. A geometry-only page carries width, height
    and images; `textFonts` and `margin` are None for it.
   */
  datatype PageModel = PageModel(
    pageNumber: int,
    width: real,
    height: real,
    margin: Option<MarginModel>,
    urls: seq<string>,
    textFonts: Option<seq<FontModel>>,
    nonTextFonts: seq<FontModel>,
    superscriptLines: seq<ScriptLine>,
    subscriptLines: seq<ScriptLine>,
    textLines: seq<string>,
    noOfTextChars: int,
    noOfTextCharsiText: int,
    images: seq<ImageModel>,
    lines: seq<LineModel>,
    leadingValues: Option<seq<real>>)

  /** The page the engine builds when a page has no visible text. */
  function GeometryPage(width: real, height: real, images: seq<ImageModel>): (p: PageModel)
    ensures p.width == width && p.height == height && p.images == images
    ensures p.textFonts.None? && p.margin.None? && p.noOfTextChars == 0
  {
    PageModel(0, width, height, None, [], None, [], [], [], [], 0, 0, images, [], None)
  }

  datatype FileFacts = FileFacts(name: string, size: real)

  datatype FontFacts = FontFacts(name: string, size: real, fontType: Option<FontType>)

  datatype PageFacts = PageFacts(
    height: real,
    leading: Option<seq<real>>,
    textLines: seq<string>,
    pageNumber: int,
    margin: MarginModel,
    textFonts: seq<FontFacts>,
    width: real)

  datatype SectionFacts = SectionFacts(heading: string)

  datatype DocumentFacts = DocumentFacts(
    file: FileFacts,
    pages: seq<PageFacts>,
    noOfPages: int,
    sections: seq<SectionFacts>,
    correctMimeType: bool,
    urls: seq<string>)

  datatype DocumentModel = DocumentModel(
    passwordProtected: bool,
    encrypted: bool,
    noOfPages: int,
    pdfVersion: Option<string>,
    producer: Option<string>,
    pages: seq<PageModel>,
    sections: seq<SectionModel>,
    docFacts: Option<DocumentFacts>)

  /** A DocumentModel straight from its no-argument constructor. */
  const EmptyDocument := DocumentModel(false, false, 0, None, None, [], [], None)

  /** What the service reports for one uploaded file: its detected type and, for a PDF, the document. */
  datatype ComplianceModel = ComplianceModel(
    mimeType: string,
    correctMimeType: bool,
    docModel: Option<DocumentModel>)

  // ---------------------------------------------------------------------------
  // Parser events

  /** The five numbers of a text render state that decide the effective font size. */
  datatype FontMatrices = FontMatrices(
    tmA: real,   // text matrix, first row, first column
    tmB: real,   // text matrix, first row, second column
    ctmA: real,  // current transformation matrix, first row, first column
    ctmD: real,  // current transformation matrix, second row, second column
    tf: real)    // the size operand of the Tf operator

  /**
    The font descriptor of a font dictionary: absent, or present with the
    embedded-program entries it carries.
   */
  datatype FontDescriptor =
    | NoDescriptor
    | Descriptor(fontFile: bool, fontFile2: bool, fontFile3: bool)

  /** A font installed on the server, by its full name and its PostScript name. */
  datatype InstalledFont = InstalledFont(fontName: string, psName: string)

  /** One glyph of a text chunk, as the pre-scan forwards it. */
  datatype Glyph = Glyph(text: string)

  /** A text chunk as the content parser reports it. */
  datatype Chunk = Chunk(
    text: string,
    baseline: Segment,
    baselineLength: real,
    bboxLeft: real,
    bboxRight: real,
    bboxY: real,
    ascentStartY: real,
    descentStartY: real,
    descentEndY: real,
    singleSpaceWidth: real,
    fontName: string,
    descriptor: FontDescriptor,
    matrices: FontMatrices,
    glyphs: seq<Glyph>)

  /**
    An image XObject's dictionary entries, as their string forms; None where
    the entry is missing. `byteCount` is the length of the decoded image
    bytes, None where decoding them fails.
   */
  datatype RawImage = RawImage(
    bitsPerComponent: Option<string>,
    height: Option<string>,
    width: Option<string>,
    byteCount: Option<nat>,
    filter: Option<string>)

  datatype ImageEvent = ImageEvent(image: Option<RawImage>, ctmX: real, ctmY: real)

  /** The event kinds of the content parser. */
  datatype EventType = BeginText | RenderText | RenderImage | RenderPath | EndText | ClipPathChanged

  datatype ContentEvent =
    | TextRendered(chunk: Chunk)
    | ImageRendered(image: ImageEvent)
    | OtherEvent(kind: EventType)
  {
    function Kind(): EventType {
      match this
      case TextRendered(_) => RenderText
      case ImageRendered(_) => RenderImage
      case OtherEvent(k) => k
    }
  }
}

=== FILE: pdf_extraction_listener.dfy ===
/**
  The second pass over a page's content: it rebuilds lines of text from the
  parser's chunks, collects the fonts with their character counts, detects
  superscripts and subscripts, records line spacing (leading), heading
  candidates and images. Each render-text event runs the stages of
  `RenderText` in the order the source runs them.
 */
module PdfExtractionListener {
  import opened Common
  import opened Constants
  import opened Model
  import opened PdfUtils
  import Pre = TextRenderInfoListener

  /**
    What the page builder hands the listener before parsing. `isSpecial` is the
    configured special-characters pattern (a regular-expression search);
    `headingTest` is the heading test, which the page builder fixes to
    PdfUtils.IsHeading (the listener's lemmas hold for any test); the last four
    come from the pre-scan and the text margin finder.
   */
  datatype Settings = Settings(
    ignoreBlankSpaces: bool,
    ignoreSuperSubscript: bool,
    isSpecial: string -> bool,
    headingTest: string -> bool,
    installedFonts: seq<InstalledFont>,
    pageNumber: int,
    lastBlockCount: int,
    avgSingleSpaceWidth: real,
    lastTextBlockOnSameLine: bool,
    textWidth: real)

  /**
    The listener's current font. `listed` says that this very object is the
    inventory entry (it was created and added by the same chunk), so that
    changes made through it reach the inventory.
   */
  datatype CurrentFont = CurrentFont(model: FontModel, listed: bool)

  /**
    The listener's fields. `lastSupText` is "" where the source holds null (the
    source only asks whether it is empty); `started` is false until the first
    text chunk, when the source's line list is still null.
   */
  datatype Listener = Listener(
    started: bool,
    colBlockNo: int,
    totalCharacterCount: int,
    totalBlockCount: int,
    lastSupScriptBlockCount: int,
    font: Option<CurrentFont>,
    isRotated: bool,
    previousFontSize: real,
    previousBaseline: real,
    lineWidth: real,
    lineHeight: real,
    nextHeight: real,
    lines: seq<LineModel>,
    headingLines: seq<SectionModel>,
    leadingValues: seq<real>,
    nextMaxY: real,
    prevMaxY: real,
    nextMaxX: real,
    prevMaxX: real,
    nextMinX: real,
    prevMinX: real,
    fonts: seq<FontModel>,
    superscriptLines: seq<ScriptLine>,
    subscriptLines: seq<ScriptLine>,
    initLeading: real,
    lineText: string,
    ascents: seq<real>,
    descents: seq<real>,
    images: seq<ImageModel>,
    textLines: seq<string>,
    lastSupText: string,
    prevSegment: Option<Segment>)

  const Initial := Listener(
    false, 0, 0, 0, 0, None, false, 0.0, 0.0, 0.0, 0.0, 0.0, [], [], [],
    0.0, 0.0, 0.0, 0.0, 0.0, 0.0, [], [], [], 0.0, "", [], [], [], [], "", None)

  /**
    A heading's begin line is read from the new line before the line gets its
    number, so it is always the unset value.
   */
  const UnsetLineNumber: int := 0

  // ---------------------------------------------------------------------------
  // The state invariant

  /** trim() leaves the string as it is. */
  predicate TrimmedText(t: string) {
    t == "" || (!IsTrimmed(t[0]) && !IsTrimmed(t[|t| - 1]))
  }

  function TextLength(texts: seq<string>): nat {
    if |texts| == 0 then 0 else TextLength(texts[..|texts| - 1]) + |texts[|texts| - 1]|
  }

  /** The stored lines are numbered 1, 2, ... and their trimmed texts are the text lines. */
  predicate LinesNumbered(lines: seq<LineModel>, textLines: seq<string>) {
    && |textLines| == |lines|
    && forall i :: 0 <= i < |lines| ==>
         lines[i].number == i + 1 && lines[i].text == textLines[i] && TrimmedText(lines[i].text)
  }

  /**
    The inventory holds each font once; there is a current font exactly when
    the inventory is non-empty, its key is in the inventory, and when it is the
    inventory's own object it is found there unchanged.
   */
  predicate FontsTracked(fonts: seq<FontModel>, font: Option<CurrentFont>) {
    && DistinctKeys(fonts)
    && (font.None? <==> |fonts| == 0)
    && (font.Some? ==> font.value.model.key in KeySet(fonts))
    && (font.Some? && font.value.listed ==> font.value.model in fonts)
  }

  predicate ScriptLinesKnown(scripts: seq<ScriptLine>, lineCount: nat, keys: set<FontKey>) {
    forall i :: 0 <= i < |scripts| ==>
      scripts[i].font in keys && 1 <= scripts[i].number <= lineCount + 1
  }

  predicate LineFontsKnown(lines: seq<LineModel>, keys: set<FontKey>) {
    forall i :: 0 <= i < |lines| && lines[i].font.Some? ==> lines[i].font.value in keys
  }

  /** The recorded leadings are positive and recorded once each. */
  predicate LeadingsValid(values: seq<real>) {
    Distinct(values) && forall i :: 0 <= i < |values| ==> values[i] > 0.0
  }

  /** Every heading is non-empty, trimmed, and begins on this page at the unset line. */
  predicate HeadingsValid(pageNumber: int, headings: seq<SectionModel>) {
    forall i :: 0 <= i < |headings| ==>
      && headings[i].heading != ""
      && TrimmedText(headings[i].heading)
      && headings[i].beginLine == UnsetLineNumber
      && headings[i].beginPage == pageNumber
  }

  /**
    The listener's invariant: numbered lines, a tracked inventory that every
    line and script line refers into, valid leadings and headings, and a page
    character count that is the length of the stored text.
   */
  predicate Consistent(st: Settings, s: Listener) {
    && LinesNumbered(s.lines, s.textLines)
    && FontsTracked(s.fonts, s.font)
    && LineFontsKnown(s.lines, KeySet(s.fonts))
    && ScriptLinesKnown(s.superscriptLines, |s.lines|, KeySet(s.fonts))
    && ScriptLinesKnown(s.subscriptLines, |s.lines|, KeySet(s.fonts))
    && LeadingsValid(s.leadingValues)
    && HeadingsValid(st.pageNumber, s.headingLines)
    && s.totalCharacterCount == TextLength(s.textLines)
  }

  /** The fields the invariant speaks of are the same in `s` and `r`. */
  predicate SameRecords(s: Listener, r: Listener) {
    && r.lines == s.lines && r.textLines == s.textLines && r.headingLines == s.headingLines
    && r.fonts == s.fonts && r.font == s.font
    && r.superscriptLines == s.superscriptLines && r.subscriptLines == s.subscriptLines
    && r.leadingValues == s.leadingValues && r.totalCharacterCount == s.totalCharacterCount
  }

  /** A step that leaves those fields alone keeps the invariant. */
  lemma SameRecordsConsistent(st: Settings, s: Listener, r: Listener)
    requires Consistent(st, s) && SameRecords(s, r)
    ensures Consistent(st, r)
  {
  }

  lemma InitialConsistent(st: Settings)
    ensures Consistent(st, Initial)
  {
    assert KeySet([]) == {};
  }

  // ---------------------------------------------------------------------------
  // Fonts of a chunk

  /** With blank spaces ignored, a blank chunk or one that matches the special characters is skipped for fonts. */
  predicate SkippedForFonts(st: Settings, c: Chunk) {
    st.ignoreBlankSpaces && (|Trim(c.text)| < 1 || st.isSpecial(c.text))
  }

  /**
    processFont: a chunk with a positive size makes (name, size) the current
    font. A font not yet in the inventory is classified and added, and the
    current font is that entry; otherwise the current font is a fresh,
    unclassified FontModel equal to the entry.
   */
  function ProcessFont(st: Settings, s: Listener, c: Chunk, size: real): (r: Listener)
    ensures size <= 0.0 ==> r == s
    ensures size > 0.0 ==> r.font.Some? && r.font.value.model.key == FontKey(c.fontName, size)
    ensures size > 0.0 ==> (r.font.value.listed <==> FontKey(c.fontName, size) !in KeySet(s.fonts))
    ensures r.fonts == s.fonts || (size > 0.0 && r.fonts == s.fonts + [r.font.value.model] && r.font.value.listed)
    ensures r == s.(fonts := r.fonts, font := r.font)
  {
    if size > 0.0 then
      var key := FontKey(c.fontName, size);
      if key in KeySet(s.fonts) then
        s.(font := Some(CurrentFont(NewFont(key, UnclassifiedFont), false)))
      else
        var m := NewFont(key, CheckFont(c.fontName, c.descriptor, st.installedFonts));
        s.(font := Some(CurrentFont(m, true)), fonts := s.fonts + [m])
    else s
  }

  /** A chunk whose ascent and descent are recorded: not skipped, and not blank. */
  predicate Measured(st: Settings, c: Chunk) {
    !SkippedForFonts(st, c) && !IsBlank(c.text)
  }

  /**
    The font stage of renderText: unless the chunk is skipped, take its size,
    process its font, and record the ascent and descent of non-blank text. The
    size is 0 for a skipped chunk.
   */
  function CaptureFont(st: Settings, s: Listener, c: Chunk): (r: (Listener, real))
    ensures SkippedForFonts(st, c) ==> r == (s, 0.0)
    ensures !SkippedForFonts(st, c) ==> r.1 == FontSize(c.matrices)
    ensures r.0.ascents == s.ascents + (if Measured(st, c) then [c.ascentStartY] else [])
    ensures r.0.descents == s.descents + (if Measured(st, c) then [c.descentStartY] else [])
    ensures r.0 == s.(fonts := r.0.fonts, font := r.0.font, ascents := r.0.ascents, descents := r.0.descents)
  {
    if SkippedForFonts(st, c) then (s, 0.0)
    else
      var size := FontSize(c.matrices);
      var s1 := ProcessFont(st, s, c, size);
      TrimEmptyIffBlank(c.text);
      if c.text != "" && |Trim(c.text)| > 0 then
        (s1.(ascents := s1.ascents + [c.ascentStartY], descents := s1.descents + [c.descentStartY]), size)
      else
        (s1, size)
  }

  lemma ProcessFontConsistent(st: Settings, s: Listener, c: Chunk, size: real)
    requires Consistent(st, s)
    ensures Consistent(st, ProcessFont(st, s, c, size))
    ensures KeySet(s.fonts) <= KeySet(ProcessFont(st, s, c, size).fonts)
  {
    var r := ProcessFont(st, s, c, size);
    if r.fonts != s.fonts {
      AppendKey(s.fonts, r.font.value.model);
    }
  }

  lemma CaptureFontConsistent(st: Settings, s: Listener, c: Chunk)
    requires Consistent(st, s)
    ensures Consistent(st, CaptureFont(st, s, c).0)
    ensures KeySet(s.fonts) <= KeySet(CaptureFont(st, s, c).0.fonts)
  {
    if !SkippedForFonts(st, c) {
      ProcessFontConsistent(st, s, c, FontSize(c.matrices));
    }
  }

  // ---------------------------------------------------------------------------
  // Superscripts and subscripts

  /** A smaller font on a raised baseline that is still at least 75% of the previous one. */
  predicate PrimarySuperscript(s: Listener, size: real, baseline: real) {
    && size <= SupSubMaximumFontPercentage * s.previousFontSize
    && baseline > s.previousBaseline
    && baseline >= SupSubMinimumBaselinePercentage * s.previousBaseline
  }

  /**
    The return from a superscript seen after the fact: a superscript was seen
    before, the previous chunk was set in a font at most 75% of this one on a
    higher baseline, the last superscript is not two or three blocks back, and
    no subscript was recorded within the last line.
   */
  predicate SecondarySuperscript(s: Listener, size: real, baseline: real) {
    && s.lastSupText != ""
    && s.previousFontSize <= SupSubMaximumFontPercentage * size
    && s.previousBaseline > baseline
    && s.previousBaseline >= SupSubMinimumBaselinePercentage * baseline
    && (s.totalBlockCount - s.lastSupScriptBlockCount < LowerSuperscriptCorrectionBoundary
        || s.totalBlockCount - s.lastSupScriptBlockCount > UpperSuperscriptCorrectionBoundary)
    && (|s.subscriptLines| == 0 || |s.textLines| > s.subscriptLines[|s.subscriptLines| - 1].number + 1)
  }

  /** isRoughlyEqual: the chunk starts at or after the previous chunk's right edge, by floor or by rounding. */
  predicate RoughlyAfter(x: real, prevMaxX: real) {
    x.Floor >= prevMaxX.Floor || Round(x) >= Round(prevMaxX)
  }

  /** A smaller font on a lowered baseline that is still at least 75% of the previous one, starting after it. */
  predicate PrimarySubscript(s: Listener, size: real, baseline: real, x: real) {
    && RoughlyAfter(x, s.prevMaxX)
    && size <= SupSubMaximumFontPercentage * s.previousFontSize
    && baseline < s.previousBaseline
    && baseline >= SupSubMinimumBaselinePercentage * s.previousBaseline
  }

  /**
    createLineModelForSuperSubscript and its callers: with the ignore flag set,
    the current font is flagged (and so is the inventory entry when it is the
    same object); a script line with the next line number and the font is
    appended to the superscript or the subscript list.
   */
  function RecordScript(st: Settings, s: Listener, superscript: bool): (r: Listener)
    requires s.font.Some?
  {
    var s1 := FlagScriptFont(st, s);
    var entry := ScriptLine(LineNumber(s.lines), s.font.value.model.key);
    if superscript then s1.(superscriptLines := s.superscriptLines + [entry])
    else s1.(subscriptLines := s.subscriptLines + [entry])
  }

  /** With the ignore flag, the current font is flagged, and so is its inventory entry when it is that object. */
  function FlagScriptFont(st: Settings, s: Listener): (r: Listener)
    requires s.font.Some?
    ensures r == s.(font := r.font, fonts := r.fonts)
  {
    var cf := s.font.value;
    var cf1 := if st.ignoreSuperSubscript then cf.(model := SetIgnoreSuperSubScriptFont(cf.model)) else cf;
    var i := IndexOfKey(s.fonts, cf.model.key);
    var fonts := if st.ignoreSuperSubscript && cf.listed && i >= 0 then s.fonts[i := cf1.model] else s.fonts;
    s.(font := Some(cf1), fonts := fonts)
  }

  /** The entry a script chunk records: the number of the line being built and the current font. */
  function ScriptEntry(s: Listener): ScriptLine
    requires s.font.Some?
  {
    ScriptLine(|s.lines| + 1, s.font.value.model.key)
  }

  /** `r` has the script entry appended to the superscript list and the subscript list unchanged. */
  predicate AddsSuperscript(s: Listener, r: Listener)
    requires s.font.Some?
  {
    r.superscriptLines == s.superscriptLines + [ScriptEntry(s)] && r.subscriptLines == s.subscriptLines
  }

  /** `r` has the script entry appended to the subscript list and the superscript list unchanged. */
  predicate AddsSubscript(s: Listener, r: Listener)
    requires s.font.Some?
  {
    r.subscriptLines == s.subscriptLines + [ScriptEntry(s)] && r.superscriptLines == s.superscriptLines
  }

  /** identifySuperscriptSubscript: the three tests in order; the first that applies records the chunk. */
  function IdentifyScript(st: Settings, s: Listener, size: real, baseline: real, x: real, text: string): (r: (Listener, bool))
    requires s.font.Some?
    ensures r.0 == s.(font := r.0.font, fonts := r.0.fonts, superscriptLines := r.0.superscriptLines,
                      subscriptLines := r.0.subscriptLines, lastSupScriptBlockCount := r.0.lastSupScriptBlockCount,
                      lastSupText := r.0.lastSupText)
    ensures !s.isRotated && PrimarySuperscript(s, size, baseline) ==>
      r.1 && r.0.lastSupText == text && r.0.lastSupScriptBlockCount == s.totalBlockCount
    ensures !(!s.isRotated && PrimarySuperscript(s, size, baseline)) ==>
      r.0.lastSupText == s.lastSupText && r.0.lastSupScriptBlockCount == s.lastSupScriptBlockCount
    ensures !(!s.isRotated && PrimarySuperscript(s, size, baseline)) && SecondarySuperscript(s, size, baseline) ==>
      r.0.subscriptLines == s.subscriptLines && (r.1 <==> IndexOf(s.lineText, s.lastSupText) < 1)
    ensures !s.isRotated && PrimarySuperscript(s, size, baseline) ==>
      AddsSuperscript(s, r.0)
    ensures !(!s.isRotated && PrimarySuperscript(s, size, baseline)) && SecondarySuperscript(s, size, baseline) ==>
      if r.1 then AddsSuperscript(s, r.0) else r.0 == s
    ensures !(!s.isRotated && PrimarySuperscript(s, size, baseline)) && !SecondarySuperscript(s, size, baseline) ==>
      && (r.1 <==> PrimarySubscript(s, size, baseline, x))
      && if r.1 then AddsSubscript(s, r.0) else r.0 == s
  {
    if !s.isRotated && PrimarySuperscript(s, size, baseline) then
      var s1 := RecordScript(st, s, true);
      (s1.(lastSupScriptBlockCount := s.totalBlockCount, lastSupText := text), true)
    else if SecondarySuperscript(s, size, baseline) then
      if IndexOf(s.lineText, s.lastSupText) < 1 then (RecordScript(st, s, true), true) else (s, false)
    else if PrimarySubscript(s, size, baseline, x) then
      (RecordScript(st, s, false), true)
    else (s, false)
  }

  /**
    processSuperscriptSubscriptFonts: with a current font and a positive size,
    classify the chunk and remember its size and baseline for the next one.
   */
  function ClassifyScript(st: Settings, s: Listener, c: Chunk, size: real): (r: (Listener, bool))
    ensures r.1 ==> s.font.Some? && size > 0.0
    ensures !(s.font.Some? && size > 0.0) ==> r.0 == s
    ensures s.font.Some? && size > 0.0 ==>
      r.0.previousFontSize == size && r.0.previousBaseline == c.baseline.start.y
    ensures r.0 == s.(font := r.0.font, fonts := r.0.fonts, superscriptLines := r.0.superscriptLines,
                      subscriptLines := r.0.subscriptLines, lastSupScriptBlockCount := r.0.lastSupScriptBlockCount,
                      lastSupText := r.0.lastSupText, previousFontSize := r.0.previousFontSize,
                      previousBaseline := r.0.previousBaseline)
  {
    if s.font.Some? && size > 0.0 then
      var baseline := c.baseline.start.y;
      var p := IdentifyScript(st, s, size, baseline, c.bboxLeft, c.text);
      (p.0.(previousFontSize := size, previousBaseline := baseline), p.1)
    else (s, false)
  }

  /** Replacing a font by one with the same key keeps the keys. */
  lemma ReplaceKeepsKeys(fonts: seq<FontModel>, i: nat, f: FontModel)
    requires i < |fonts| && f.key == fonts[i].key
    ensures KeySet(fonts[i := f]) == KeySet(fonts)
    ensures DistinctKeys(fonts) ==> DistinctKeys(fonts[i := f])
  {
    var r := fonts[i := f];
    assert forall j :: 0 <= j < |fonts| ==> r[j].key == fonts[j].key;
    forall k | k in KeySet(fonts) ensures k in KeySet(r) {
      var j :| 0 <= j < |fonts| && fonts[j].key == k;
      assert r[j].key == k;
    }
  }

  /**
    Recording a script line adds exactly one entry to one of the two lists,
    numbered for the line being built and naming the current font; the font
    inventory keeps its keys and the rest of the state is untouched.
   */
  lemma RecordScriptEffect(st: Settings, s: Listener, superscript: bool)
    requires Consistent(st, s) && s.font.Some?
    ensures var r := RecordScript(st, s, superscript);
      && Consistent(st, r)
      && KeySet(r.fonts) == KeySet(s.fonts)
      && r.lines == s.lines && r.textLines == s.textLines
      && r.font.value.model.key == s.font.value.model.key
      && var entry := ScriptLine(|s.lines| + 1, s.font.value.model.key);
         if superscript then r.superscriptLines == s.superscriptLines + [entry] && r.subscriptLines == s.subscriptLines
         else r.subscriptLines == s.subscriptLines + [entry] && r.superscriptLines == s.superscriptLines
  {
    FlagScriptFontEffect(st, s);
    var s1 := FlagScriptFont(st, s);
    var entry := ScriptLine(|s.lines| + 1, s.font.value.model.key);
    if superscript {
      ScriptLinesAppend(s.superscriptLines, |s.lines|, KeySet(s.fonts), entry);
    } else {
      ScriptLinesAppend(s.subscriptLines, |s.lines|, KeySet(s.fonts), entry);
    }
  }

  /** Flagging the font keeps the inventory tracked, with the same keys and the same current key. */
  lemma FlagScriptFontEffect(st: Settings, s: Listener)
    requires FontsTracked(s.fonts, s.font) && s.font.Some?
    ensures var r := FlagScriptFont(st, s);
      && FontsTracked(r.fonts, r.font)
      && KeySet(r.fonts) == KeySet(s.fonts)
      && r.font.Some? && r.font.value.model.key == s.font.value.model.key
  {
    var cf := s.font.value;
    var i := IndexOfKey(s.fonts, cf.model.key);
    var r := FlagScriptFont(st, s);
    assert i >= 0;
    if st.ignoreSuperSubscript && cf.listed {
      IndexOfMember(s.fonts, cf.model);
      ReplaceKeepsKeys(s.fonts, i, r.font.value.model);
      assert r.font.value.model == r.fonts[i];
    }
  }

  lemma ScriptLinesAppend(scripts: seq<ScriptLine>, lineCount: nat, keys: set<FontKey>, entry: ScriptLine)
    requires ScriptLinesKnown(scripts, lineCount, keys)
    requires entry.font in keys && 1 <= entry.number <= lineCount + 1
    ensures ScriptLinesKnown(scripts + [entry], lineCount, keys)
  {
  }

  /** `r` has one more script line than `s`, the script entry, in one of the two lists. */
  predicate AddsOneScript(s: Listener, r: Listener)
    requires s.font.Some?
  {
    AddsSuperscript(s, r) || AddsSubscript(s, r)
  }

  /** The effect of a classification on the parts of the state it may touch. */
  predicate ScriptStep(st: Settings, s: Listener, r: Listener, isScript: bool) {
    && Consistent(st, r)
    && KeySet(r.fonts) == KeySet(s.fonts)
    && r.lines == s.lines && r.textLines == s.textLines && r.lineText == s.lineText
    && (!isScript ==> r.superscriptLines == s.superscriptLines && r.subscriptLines == s.subscriptLines)
    && (isScript ==> s.font.Some? && AddsOneScript(s, r))
  }

  lemma IdentifyScriptEffect(st: Settings, s: Listener, size: real, baseline: real, x: real, text: string)
    requires Consistent(st, s) && s.font.Some?
    ensures var p := IdentifyScript(st, s, size, baseline, x, text); ScriptStep(st, s, p.0, p.1)
  {
    if !s.isRotated && PrimarySuperscript(s, size, baseline) {
      PrimarySuperscriptStep(st, s, text);
    } else if SecondarySuperscript(s, size, baseline) {
      if IndexOf(s.lineText, s.lastSupText) < 1 {
        RecordedStep(st, s, true);
      } else {
        UnrecordedStep(st, s);
      }
    } else if PrimarySubscript(s, size, baseline, x) {
      RecordedStep(st, s, false);
    } else {
      UnrecordedStep(st, s);
    }
  }

  lemma RecordedStep(st: Settings, s: Listener, superscript: bool)
    requires Consistent(st, s) && s.font.Some?
    ensures ScriptStep(st, s, RecordScript(st, s, superscript), true)
  {
    RecordScriptEffect(st, s, superscript);
  }

  lemma PrimarySuperscriptStep(st: Settings, s: Listener, text: string)
    requires Consistent(st, s) && s.font.Some?
    ensures ScriptStep(st, s, RecordScript(st, s, true).(lastSupScriptBlockCount := s.totalBlockCount, lastSupText := text), true)
  {
    RecordScriptEffect(st, s, true);
    var s1 := RecordScript(st, s, true);
    SameRecordsConsistent(st, s1, s1.(lastSupScriptBlockCount := s.totalBlockCount, lastSupText := text));
  }

  lemma UnrecordedStep(st: Settings, s: Listener)
    requires Consistent(st, s)
    ensures ScriptStep(st, s, s, false)
  {
  }

  /**
    A chunk is recorded as a superscript or subscript exactly when the stage
    reports it: then one entry is added to one list, for the line being built
    and in the current font. The lines, the line buffer and the inventory's
    keys do not change.
   */
  lemma ClassifyScriptEffect(st: Settings, s: Listener, c: Chunk, size: real)
    requires Consistent(st, s)
    ensures var p := ClassifyScript(st, s, c, size); ScriptStep(st, s, p.0, p.1)
  {
    if s.font.Some? && size > 0.0 {
      var baseline := c.baseline.start.y;
      IdentifyScriptEffect(st, s, size, baseline, c.bboxLeft, c.text);
      var p := IdentifyScript(st, s, size, baseline, c.bboxLeft, c.text);
      SameRecordsConsistent(st, p.0, p.0.(previousFontSize := size, previousBaseline := baseline));
    }
  }

  // ---------------------------------------------------------------------------
  // Leading

  /** processLineHeight's test: a non-blank chunk, not a superscript or subscript, on a lower baseline than the last one. */
  predicate LowerTextLine(s: Listener, c: Chunk, isScript: bool) {
    |Trim(c.text)| > 0 && c.baseline.start.y < s.nextHeight && !isScript
  }

  /**
    processLeading and processLineHeight: the previous baseline becomes the
    line height and this chunk's baseline the next height. A non-blank chunk
    that is not a superscript or subscript and sits lower than the previous
    one moves the maximum Y to its own; if that moved, the drop in baseline
    becomes the leading. A positive leading not yet recorded is recorded.
   */
  function Leading(s: Listener, c: Chunk, isScript: bool): (r: Listener)
    ensures r.lineHeight == s.nextHeight && r.nextHeight == c.baseline.start.y
    ensures r.initLeading == s.initLeading || r.initLeading == s.nextHeight - c.baseline.start.y > 0.0
    ensures r.leadingValues == s.leadingValues
         || (r.initLeading > 0.0 && r.initLeading !in s.leadingValues && r.leadingValues == s.leadingValues + [r.initLeading])
    ensures r.initLeading > 0.0 ==> r.initLeading in r.leadingValues
    ensures LowerTextLine(s, c, isScript) ==>
      r.nextMaxY == c.bboxY && (s.nextMaxY != c.bboxY ==> r.initLeading == s.nextHeight - c.baseline.start.y)
    ensures r.initLeading != s.initLeading ==> LowerTextLine(s, c, isScript) && s.nextMaxY != c.bboxY
    ensures !LowerTextLine(s, c, isScript) ==> r.nextMaxY == s.nextMaxY
    ensures r == s.(lineHeight := r.lineHeight, nextHeight := r.nextHeight, initLeading := r.initLeading,
                    nextMaxY := r.nextMaxY, leadingValues := r.leadingValues)
  {
    var lh := s.nextHeight;
    var nh := c.baseline.start.y;
    var s1 := s.(lineHeight := lh, nextHeight := nh);
    var s2 :=
      if LowerTextLine(s, c, isScript) then
        s1.(initLeading := if s.nextMaxY != c.bboxY then lh - nh else s.initLeading, nextMaxY := c.bboxY)
      else s1;
    if s2.initLeading > 0.0 && s2.initLeading !in s2.leadingValues then
      s2.(leadingValues := s2.leadingValues + [s2.initLeading])
    else s2
  }

  lemma LeadingConsistent(st: Settings, s: Listener, c: Chunk, isScript: bool)
    requires Consistent(st, s)
    ensures Consistent(st, Leading(s, c, isScript))
  {
    var r := Leading(s, c, isScript);
    if r.leadingValues != s.leadingValues {
      var v := r.initLeading;
      forall i, j | 0 <= i < j < |r.leadingValues| ensures r.leadingValues[i] != r.leadingValues[j] {
        if j == |s.leadingValues| {
          assert r.leadingValues[i] == s.leadingValues[i];
        }
      }
    }
  }

  // ---------------------------------------------------------------------------
  // Character counts

  function AddChars(f: FontModel, n: int): (r: FontModel)
    ensures r.noOfChars == f.noOfChars + n && r.(noOfChars := f.noOfChars) == f
  {
    f.(noOfChars := f.noOfChars + n)
  }

  /** The characters a chunk adds to its font: spaces left out when blank spaces are ignored. */
  function CharCount(st: Settings, text: string): (r: nat)
    ensures r <= |text|
    ensures !st.ignoreBlankSpaces ==> r == |text|
    ensures st.ignoreBlankSpaces ==> r == |text| - Occurrences(text, ' ')
  {
    if st.ignoreBlankSpaces then |RemoveChar(text, ' ')| else |text|
  }

  /**
    processFontCharacterCount: the chunk's characters are added to the
    inventory entry of the current font, which moves to the end of the
    inventory (List.remove, then add); the current font sees the change only
    when it is that entry. The branches for an empty inventory or an unknown
    current font are the source's; the invariant shows the latter unreachable,
    and where the source would add a null entry the model adds nothing.
   */
  function CountChars(st: Settings, s: Listener, text: string): (r: Listener)
    ensures r == s.(fonts := r.fonts, font := r.font)
  {
    var n := CharCount(st, text);
    if n == 0 then s
    else
      match s.font
      case None => s
      case Some(cf) =>
        if |s.fonts| == 0 then s.(font := Some(cf.(model := AddChars(cf.model, n))))
        else
          var i := IndexOfKey(s.fonts, cf.model.key);
          if i >= 0 then
            var updated := AddChars(s.fonts[i], n);
            s.(fonts := MoveToEnd(s.fonts, i, updated),
               font := if cf.listed then Some(CurrentFont(updated, true)) else s.font)
          else
            var updated := AddChars(cf.model, n);
            s.(fonts := s.fonts + [updated], font := Some(CurrentFont(updated, true)))
  }

  /** The sum of the character counts over a font list. */
  function TotalChars(fonts: seq<FontModel>): int {
    if |fonts| == 0 then 0 else TotalChars(fonts[..|fonts| - 1]) + fonts[|fonts| - 1].noOfChars
  }

  lemma {:induction false} TotalCharsAppend(a: seq<FontModel>, b: seq<FontModel>)
    ensures TotalChars(a + b) == TotalChars(a) + TotalChars(b)
    decreases |b|
  {
    if |b| == 0 {
      assert a + b == a;
    } else {
      assert (a + b)[..|a + b| - 1] == a + b[..|b| - 1];
      TotalCharsAppend(a, b[..|b| - 1]);
    }
  }

  lemma TotalCharsSingle(f: FontModel)
    ensures TotalChars([f]) == f.noOfChars
  {
    assert [f][..0] == [];
  }

  lemma TotalCharsMoveToEnd(fonts: seq<FontModel>, i: nat, updated: FontModel)
    requires i < |fonts|
    ensures TotalChars(MoveToEnd(fonts, i, updated)) == TotalChars(fonts) - fonts[i].noOfChars + updated.noOfChars
  {
    TotalCharsAround(fonts, i);
    TotalCharsAppend(fonts[..i] + fonts[i + 1..], [updated]);
    TotalCharsSingle(updated);
    TotalCharsAppend(fonts[..i], fonts[i + 1..]);
  }

  /** The total splits around any position. */
  lemma TotalCharsAround(fonts: seq<FontModel>, i: nat)
    requires i < |fonts|
    ensures TotalChars(fonts) == TotalChars(fonts[..i]) + fonts[i].noOfChars + TotalChars(fonts[i + 1..])
  {
    var a := fonts[..i];
    var fi := [fonts[i]];
    var b := fonts[i + 1..];
    assert fonts == (a + fi) + b;
    TotalCharsAppend(a + fi, b);
    TotalCharsAppend(a, fi);
    TotalCharsSingle(fonts[i]);
  }

  /**
    Counting keeps the invariant and the inventory's keys, and with a current
    font the inventory's total character count grows by exactly the chunk's
    count.
   */
  lemma CountCharsEffect(st: Settings, s: Listener, text: string)
    requires Consistent(st, s)
    ensures var r := CountChars(st, s, text);
      && Consistent(st, r)
      && KeySet(r.fonts) == KeySet(s.fonts)
      && (s.font.Some? ==> TotalChars(r.fonts) == TotalChars(s.fonts) + CharCount(st, text))
      && (s.font.None? ==> r.fonts == s.fonts)
  {
    var n := CharCount(st, text);
    if n > 0 && s.font.Some? {
      var cf := s.font.value;
      var i := IndexOfKey(s.fonts, cf.model.key);
      assert i >= 0;
      var updated := AddChars(s.fonts[i], n);
      MoveToEndKeys(s.fonts, i, updated);
      TotalCharsMoveToEnd(s.fonts, i, updated);
      var r := CountChars(st, s, text);
      assert r.fonts[|r.fonts| - 1] == updated;
    }
  }

  // ---------------------------------------------------------------------------
  // Flushing a line

  /** The key of the current font, None before the first font. */
  function CurrentKey(s: Listener): (k: Option<FontKey>)
    ensures k.Some? <==> s.font.Some?
  {
    if s.font.Some? then Some(s.font.value.model.key) else None
  }

  /**
    The font addLine gives a line: the current font when the inventory is
    empty, else its inventory entry; an unknown current font is first added to
    the inventory (the invariant shows that branch unreachable, and where the
    source would add a null entry the model adds nothing).
   */
  function LineFont(s: Listener): (r: (seq<FontModel>, Option<FontKey>, Option<CurrentFont>))
    ensures r.1 == CurrentKey(s)
  {
    match s.font
    case None => (s.fonts, None, None)
    case Some(cf) =>
      if |s.fonts| == 0 || IndexOfKey(s.fonts, cf.model.key) >= 0 then (s.fonts, Some(cf.model.key), s.font)
      else (s.fonts + [cf.model], Some(cf.model.key), Some(cf.(listed := true)))
  }

  /** A flushed line is kept unless blank spaces are ignored and it is empty. */
  predicate Stored(st: Settings, text: string) {
    !(st.ignoreBlankSpaces && text == "")
  }

  /** A flushed line is a heading candidate when it is non-empty and passes the heading test. */
  predicate HeadingLine(st: Settings, text: string) {
    text != "" && st.headingTest(text)
  }

  /** The section a flushed line opens, if it is a heading. */
  function HeadingsOf(st: Settings, text: string, isHeading: bool): (r: seq<SectionModel>)
    ensures |r| == 1 <==> isHeading
    ensures |r| == 0 || r == [SectionModel(text, UnsetLineNumber, st.pageNumber)]
  {
    if isHeading then [SectionModel(text, UnsetLineNumber, st.pageNumber)] else []
  }

  /**
    addLine: the buffer, trimmed, becomes line number |lines| + 1 with the
    current column block, leading and font, between the given heights; the
    buffer and the line width are reset.
   */
  function AddLine(st: Settings, s: Listener, upperY: real, lowerY: real): (r: Listener)
    ensures r.lineText == "" && r.lineWidth == 0.0
    ensures s.lines <= r.lines && |r.lines| <= |s.lines| + 1
    ensures r == s.(fonts := r.fonts, font := r.font, headingLines := r.headingLines, lines := r.lines,
                    textLines := r.textLines, totalCharacterCount := r.totalCharacterCount, lineText := "", lineWidth := 0.0)
  {
    var text := Trim(s.lineText);
    var lf := LineFont(s);
    var line := LineModel(LineNumber(s.lines), text, upperY, lowerY, s.colBlockNo, s.initLeading, lf.1);
    var stored := Stored(st, text);
    s.(fonts := lf.0, font := lf.2,
       headingLines := s.headingLines + HeadingsOf(st, text, HeadingLine(st, text)),
       lines := if stored then s.lines + [line] else s.lines,
       textLines := if stored then s.textLines + [text] else s.textLines,
       totalCharacterCount := s.totalCharacterCount + |text|,
       lineText := "",
       lineWidth := 0.0)
  }

  lemma TextLengthAppend(texts: seq<string>, t: string)
    ensures TextLength(texts + [t]) == TextLength(texts) + |t|
  {
    assert (texts + [t])[..|texts|] == texts;
  }

  /**
    How a flush changes the state: at most one line is stored, the trimmed
    buffer, numbered next, in the current font; the page's character count
    grows by its length; headings may gain the line; the buffer is emptied.
    The inventory, the script lists and the rest do not change.
   */
  predicate Flushed(st: Settings, s: Listener, r: Listener, text: string, upperY: real, lowerY: real, isHeading: bool) {
    && TrimmedText(text)
    && r == s.(headingLines := r.headingLines, lines := r.lines, textLines := r.textLines,
               totalCharacterCount := r.totalCharacterCount, lineText := "", lineWidth := 0.0)
    && r.headingLines == s.headingLines + HeadingsOf(st, text, isHeading)
    && (isHeading ==> text != "")
    && r.totalCharacterCount == s.totalCharacterCount + |text|
    && (Stored(st, text) ==>
          && r.lines == s.lines + [LineModel(|s.lines| + 1, text, upperY, lowerY, s.colBlockNo, s.initLeading, CurrentKey(s))]
          && r.textLines == s.textLines + [text])
    && (!Stored(st, text) ==> r.lines == s.lines && r.textLines == s.textLines && text == "")
  }

  lemma AddLineShape(st: Settings, s: Listener, upperY: real, lowerY: real)
    requires Consistent(st, s)
    ensures Flushed(st, s, AddLine(st, s, upperY, lowerY), Trim(s.lineText), upperY, lowerY, HeadingLine(st, Trim(s.lineText)))
  {
    LineFontKnown(st, s);
  }

  lemma StoreLineNumbered(lines: seq<LineModel>, textLines: seq<string>, line: LineModel, text: string)
    requires LinesNumbered(lines, textLines)
    requires line.number == |lines| + 1 && line.text == text && TrimmedText(text)
    ensures LinesNumbered(lines + [line], textLines + [text])
  {
    var ls := lines + [line];
    var ts := textLines + [text];
    forall i | 0 <= i < |ls|
      ensures ls[i].number == i + 1 && ls[i].text == ts[i] && TrimmedText(ls[i].text)
    {
      if i < |lines| {
        assert ls[i] == lines[i] && ts[i] == textLines[i];
      }
    }
  }

  lemma StoreLineFontKnown(lines: seq<LineModel>, line: LineModel, keys: set<FontKey>)
    requires LineFontsKnown(lines, keys)
    requires line.font.Some? ==> line.font.value in keys
    ensures LineFontsKnown(lines + [line], keys)
  {
    var ls := lines + [line];
    forall i | 0 <= i < |ls| && ls[i].font.Some? ensures ls[i].font.value in keys {
      if i < |lines| {
        assert ls[i] == lines[i];
      }
    }
  }

  lemma HeadingsAppend(pageNumber: int, headings: seq<SectionModel>, more: seq<SectionModel>)
    requires HeadingsValid(pageNumber, headings) && HeadingsValid(pageNumber, more)
    ensures HeadingsValid(pageNumber, headings + more)
  {
    var hs := headings + more;
    forall i | 0 <= i < |hs|
      ensures hs[i].heading != "" && TrimmedText(hs[i].heading)
      ensures hs[i].beginLine == UnsetLineNumber && hs[i].beginPage == pageNumber
    {
      if i < |headings| {
        assert hs[i] == headings[i];
      } else {
        assert hs[i] == more[i - |headings|];
      }
    }
  }

  lemma ScriptLinesGrow(scripts: seq<ScriptLine>, lineCount: nat, more: nat, keys: set<FontKey>)
    requires ScriptLinesKnown(scripts, lineCount, keys)
    ensures ScriptLinesKnown(scripts, lineCount + more, keys)
  {
  }

  lemma FlushedLines(st: Settings, s: Listener, r: Listener, text: string, upperY: real, lowerY: real, isHeading: bool)
    requires LinesNumbered(s.lines, s.textLines) && s.totalCharacterCount == TextLength(s.textLines)
    requires Flushed(st, s, r, text, upperY, lowerY, isHeading)
    ensures LinesNumbered(r.lines, r.textLines) && r.totalCharacterCount == TextLength(r.textLines)
  {
    if Stored(st, text) {
      var line := LineModel(|s.lines| + 1, text, upperY, lowerY, s.colBlockNo, s.initLeading, CurrentKey(s));
      TextLengthAppend(s.textLines, text);
      StoreLineNumbered(s.lines, s.textLines, line, text);
    }
  }

  lemma FlushedKeys(st: Settings, s: Listener, r: Listener, text: string, upperY: real, lowerY: real, isHeading: bool)
    requires FontsTracked(s.fonts, s.font)
    requires LineFontsKnown(s.lines, KeySet(s.fonts))
    requires ScriptLinesKnown(s.superscriptLines, |s.lines|, KeySet(s.fonts))
    requires ScriptLinesKnown(s.subscriptLines, |s.lines|, KeySet(s.fonts))
    requires Flushed(st, s, r, text, upperY, lowerY, isHeading)
    ensures LineFontsKnown(r.lines, KeySet(r.fonts))
    ensures ScriptLinesKnown(r.superscriptLines, |r.lines|, KeySet(r.fonts))
    ensures ScriptLinesKnown(r.subscriptLines, |r.lines|, KeySet(r.fonts))
  {
    var keys := KeySet(s.fonts);
    if Stored(st, text) {
      var line := LineModel(|s.lines| + 1, text, upperY, lowerY, s.colBlockNo, s.initLeading, CurrentKey(s));
      StoreLineFontKnown(s.lines, line, keys);
      ScriptLinesGrow(s.superscriptLines, |s.lines|, 1, keys);
      ScriptLinesGrow(s.subscriptLines, |s.lines|, 1, keys);
    }
  }

  /** A flush keeps the invariant. */
  lemma FlushedConsistent(st: Settings, s: Listener, r: Listener, text: string, upperY: real, lowerY: real, isHeading: bool)
    requires Consistent(st, s) && Flushed(st, s, r, text, upperY, lowerY, isHeading)
    ensures Consistent(st, r)
  {
    FlushedLines(st, s, r, text, upperY, lowerY, isHeading);
    FlushedKeys(st, s, r, text, upperY, lowerY, isHeading);
    HeadingsAppend(st.pageNumber, s.headingLines, HeadingsOf(st, text, isHeading));
  }

  lemma AddLineConsistent(st: Settings, s: Listener, upperY: real, lowerY: real)
    requires Consistent(st, s)
    ensures Consistent(st, AddLine(st, s, upperY, lowerY))
  {
    AddLineShape(st, s, upperY, lowerY);
    FlushedConsistent(st, s, AddLine(st, s, upperY, lowerY), Trim(s.lineText), upperY, lowerY, HeadingLine(st, Trim(s.lineText)));
  }

  /** Under the invariant the current font's key is always found, so a flush adds nothing to the inventory. */
  lemma LineFontKnown(st: Settings, s: Listener)
    requires Consistent(st, s)
    ensures LineFont(s).0 == s.fonts && LineFont(s).2 == s.font
  {
    if s.font.Some? {
      assert s.font.value.model.key in KeySet(s.fonts);
    }
  }

  /**
    The three signs of a new line: the first height after a page start with
    the chunk moving left; a lower height with the chunk moving left; or the
    right edge moving back.
   */
  predicate Breaks(s: Listener) {
    || (s.prevMaxY == 0.0 && s.nextMaxY > 0.0 && s.nextMinX < s.prevMinX)
    || (s.prevMaxY > 0.0 && s.prevMaxY > s.nextMaxY && s.nextMinX < s.prevMinX)
    || (s.prevMaxX > 0.0 && s.nextMaxX < s.prevMaxX)
  }

  /** The chunk's left and right edges; a special-character chunk keeps the previous right edge. */
  function Edges(st: Settings, s: Listener, c: Chunk): (r: Listener)
    ensures r.nextMinX == c.bboxLeft
    ensures r.nextMaxX == (if st.isSpecial(Trim(c.text)) then s.prevMaxX else c.bboxRight)
    ensures r == s.(nextMinX := r.nextMinX, nextMaxX := r.nextMaxX)
  {
    s.(nextMinX := c.bboxLeft, nextMaxX := if st.isSpecial(Trim(c.text)) then s.prevMaxX else c.bboxRight)
  }

  /**
    addDefaultLine: take the chunk's edges and flush the buffer at the previous
    baseline's heights when the chunk starts a new line.
   */
  function AddDefaultLine(st: Settings, s: Listener, c: Chunk, seg: Segment): (r: Listener)
    ensures r.nextMinX == c.bboxLeft
    ensures r.nextMaxX == (if st.isSpecial(Trim(c.text)) then s.prevMaxX else c.bboxRight)
    ensures s.lines <= r.lines && |r.lines| <= |s.lines| + 1
    ensures Breaks(Edges(st, s, c)) ==> r.lineText == "" && r.lineWidth == 0.0
    ensures !Breaks(Edges(st, s, c)) ==> r == Edges(st, s, c)
    ensures r == s.(nextMinX := r.nextMinX, nextMaxX := r.nextMaxX, fonts := r.fonts, font := r.font,
                    headingLines := r.headingLines, lines := r.lines, textLines := r.textLines,
                    totalCharacterCount := r.totalCharacterCount, lineText := r.lineText, lineWidth := r.lineWidth)
  {
    var s1 := Edges(st, s, c);
    if Breaks(s1) then AddLine(st, s1, seg.start.y, seg.end.y) else s1
  }

  /**
    A line ends exactly at a column jump, a baseline drop or a right edge
    moving back: then the trimmed buffer is flushed as a line between the
    previous baseline's heights (`Flushed`); otherwise only the edges change.
   */
  lemma AddDefaultLineFlush(st: Settings, s: Listener, c: Chunk, seg: Segment)
    requires Consistent(st, s)
    ensures var r := AddDefaultLine(st, s, c, seg);
      && (Breaks(Edges(st, s, c)) ==>
            Flushed(st, Edges(st, s, c), r, Trim(s.lineText), seg.start.y, seg.end.y, HeadingLine(st, Trim(s.lineText))))
      && (!Breaks(Edges(st, s, c)) ==> r.lines == s.lines && r.lineText == s.lineText && r.textLines == s.textLines)
  {
    var s1 := Edges(st, s, c);
    if Breaks(s1) {
      SameRecordsConsistent(st, s, s1);
      AddLineShape(st, s1, seg.start.y, seg.end.y);
    }
  }

  /**
    A special-character chunk keeps the previous right edge, so it starts a
    line only by a column jump or a baseline drop: then the buffer is
    flushed, and otherwise nothing but the edges changes.
   */
  lemma SpecialChunkKeepsRightEdge(st: Settings, s: Listener, c: Chunk, seg: Segment)
    requires Consistent(st, s)
    requires st.isSpecial(Trim(c.text))
    ensures var moved := || (s.prevMaxY == 0.0 && s.nextMaxY > 0.0 && c.bboxLeft < s.prevMinX)
                         || (s.prevMaxY > 0.0 && s.prevMaxY > s.nextMaxY && c.bboxLeft < s.prevMinX);
      var r := AddDefaultLine(st, s, c, seg);
      && (moved ==> Flushed(st, Edges(st, s, c), r, Trim(s.lineText), seg.start.y, seg.end.y, HeadingLine(st, Trim(s.lineText))))
      && (!moved ==> r == Edges(st, s, c))
  {
    AddDefaultLineFlush(st, s, c, seg);
  }

  // ---------------------------------------------------------------------------
  // Columns and missing spaces

  /** setColumnBlockNo: the right edge lies in the last two thirds of the text width. */
  predicate ColumnBreak(st: Settings, nextMaxX: real) {
    nextMaxX < st.textWidth && nextMaxX >= st.textWidth / MaxNoOfColumnsDetected as real
  }

  /**
    The chunk's start lies further from the previous baseline's line than the
    right edge reaches (the source compares a squared distance with it).
    `seg` is the previous chunk's baseline whenever the buffer is non-empty.
   */
  predicate HardReturn(s: Listener, c: Chunk, seg: Segment) {
    |s.lineText| > 0 && DistanceExceeds(c.baseline.start, seg.start, seg.end, s.nextMaxX)
  }

  /** Neither side of the gap is a space and the gap is wider than the space threshold. */
  predicate MissingSpace(st: Settings, s: Listener, c: Chunk, seg: Segment) {
    && |s.lineText| > 0 && s.lineText[|s.lineText| - 1] != ' '
    && |c.text| > 0 && c.text[0] != ' '
    && var t := SpaceThreshold(c.singleSpaceWidth, st.avgSingleSpaceWidth);
       t.Some? && LongerThan(seg.end, c.baseline.start, t.value)
  }

  /**
    correctForMultiColumnsAndNoSpaces: a hard return discards the buffer (and
    may open a new column block); otherwise a missing space is inserted.
   */
  function Repair(st: Settings, s: Listener, c: Chunk, seg: Segment): (r: Listener)
    ensures r == s.(lineText := r.lineText, colBlockNo := r.colBlockNo)
  {
    if HardReturn(s, c, seg) then
      s.(colBlockNo := if ColumnBreak(st, s.nextMaxX) then s.colBlockNo + 1 else s.colBlockNo, lineText := "")
    else if MissingSpace(st, s, c, seg) then s.(lineText := s.lineText + " ")
    else s
  }

  /**
    The buffer is discarded (never stored) on a hard return, gains exactly one
    space when one is missing, and is otherwise kept; the column block rises
    by one exactly on a hard return whose right edge lies in
    [textWidth / 3, textWidth), so only for a positive text width, and
    otherwise stays.
   */
  lemma RepairEffect(st: Settings, s: Listener, c: Chunk, seg: Segment)
    ensures var r := Repair(st, s, c, seg);
      && (HardReturn(s, c, seg) ==> r.lineText == "")
      && (!HardReturn(s, c, seg) && MissingSpace(st, s, c, seg) ==> r.lineText == s.lineText + " ")
      && (!HardReturn(s, c, seg) && !MissingSpace(st, s, c, seg) ==> r.lineText == s.lineText)
      && (r.colBlockNo == s.colBlockNo || (r.colBlockNo == s.colBlockNo + 1 && HardReturn(s, c, seg)))
      && (r.colBlockNo == s.colBlockNo + 1 <==> HardReturn(s, c, seg) && ColumnBreak(st, s.nextMaxX))
      && (r.colBlockNo != s.colBlockNo ==> st.textWidth > 0.0)
  {
  }

  // ---------------------------------------------------------------------------
  // The last block of a page

  /**
    addLastLine's test, after the block count was incremented: the chunk is
    not a special character and it is the last block, or the one before when
    the last block is on another line.
   */
  predicate LastBlock(st: Settings, s: Listener, c: Chunk) {
    && !st.isSpecial(c.text)
    && ((s.totalBlockCount == st.lastBlockCount - 1 && !st.lastTextBlockOnSameLine)
        || s.totalBlockCount == st.lastBlockCount)
  }

  function AddLastLine(st: Settings, s: Listener, c: Chunk, seg: Segment): (r: Listener)
    ensures LastBlock(st, s, c) ==> r.lineText == ""
    ensures !LastBlock(st, s, c) ==> r == s
    ensures s.lines <= r.lines && |r.lines| <= |s.lines| + 1
    ensures r == s.(fonts := r.fonts, font := r.font, headingLines := r.headingLines, lines := r.lines,
                    textLines := r.textLines, totalCharacterCount := r.totalCharacterCount,
                    lineText := r.lineText, lineWidth := r.lineWidth)
  {
    if LastBlock(st, s, c) then AddLine(st, s, seg.start.y, seg.end.y) else s
  }

  /**
    On the last block the whole trimmed buffer is flushed as a line between
    the previous baseline's heights, as `Flushed` describes.
   */
  lemma AddLastLineFlush(st: Settings, s: Listener, c: Chunk, seg: Segment)
    requires Consistent(st, s)
    ensures LastBlock(st, s, c) ==>
      Flushed(st, s, AddLastLine(st, s, c, seg), Trim(s.lineText), seg.start.y, seg.end.y, HeadingLine(st, Trim(s.lineText)))
  {
    if LastBlock(st, s, c) {
      AddLineShape(st, s, seg.start.y, seg.end.y);
    }
  }

  // ---------------------------------------------------------------------------
  // renderText

  /**
    The first half of renderText: fonts, superscripts and subscripts, the
    rotation flag, the leading and the character count.
   */
  function ScanChunk(st: Settings, s: Listener, c: Chunk): (r: Listener)
    ensures r.lineText == s.lineText && r.lines == s.lines && r.totalBlockCount == s.totalBlockCount
    ensures r.colBlockNo == s.colBlockNo && r.images == s.images && r.prevSegment == s.prevSegment
    ensures r.started
    ensures r.ascents == s.ascents + (if Measured(st, c) then [c.ascentStartY] else [])
    ensures r.descents == s.descents + (if Measured(st, c) then [c.descentStartY] else [])
  {
    var captured := CaptureFont(st, s.(started := true), c);
    var classified := ClassifyScript(st, captured.0, c, captured.1);
    var rotated := classified.0.(isRotated := IsTextRotated(c));
    CountChars(st, Leading(rotated, c, classified.1), c.text)
  }

  /** Append the chunk's text and width to the buffer and count the block. */
  function AppendChunk(s: Listener, c: Chunk): (r: Listener)
    ensures r.lineText == s.lineText + c.text && r.totalBlockCount == s.totalBlockCount + 1
    ensures r == s.(lineText := r.lineText, lineWidth := r.lineWidth, totalBlockCount := r.totalBlockCount)
  {
    s.(lineText := s.lineText + c.text, lineWidth := s.lineWidth + c.baselineLength,
       totalBlockCount := s.totalBlockCount + 1)
  }

  /** The chunk's edges become the previous ones and its baseline the previous segment. */
  function Remember(s: Listener, c: Chunk): (r: Listener)
    ensures r.prevSegment == Some(c.baseline)
    ensures r == s.(prevMinX := r.prevMinX, prevMaxX := r.prevMaxX, prevMaxY := r.prevMaxY, prevSegment := r.prevSegment)
  {
    s.(prevMinX := s.nextMinX, prevMaxX := s.nextMaxX, prevMaxY := s.nextMaxY, prevSegment := Some(c.baseline))
  }

  /**
    The second half: the line break test, the column and missing-space repair,
    appending the chunk, the last-block flush and remembering the chunk's
    edges and baseline. `seg` is the previous chunk's baseline, or this one's
    for the first chunk.
   */
  function PlaceChunk(st: Settings, s: Listener, c: Chunk): (r: Listener)
    ensures r.totalBlockCount == s.totalBlockCount + 1
    ensures r.prevSegment == Some(c.baseline) && r.images == s.images && r.started == s.started
    ensures r.ascents == s.ascents && r.descents == s.descents
  {
    var seg := s.prevSegment.GetOr(c.baseline);
    var broken := AddDefaultLine(st, s.(prevSegment := Some(seg)), c, seg);
    Remember(AddLastLine(st, AppendChunk(Repair(st, broken, c, seg), c), c, seg), c)
  }

  /** renderText: one text chunk. */
  function RenderText(st: Settings, s: Listener, c: Chunk): (r: Listener)
    ensures r.started
    ensures r.totalBlockCount == s.totalBlockCount + 1
    ensures r.images == s.images
    ensures r.ascents == s.ascents + (if Measured(st, c) then [c.ascentStartY] else [])
    ensures r.descents == s.descents + (if Measured(st, c) then [c.descentStartY] else [])
  {
    PlaceChunk(st, ScanChunk(st, s, c), c)
  }

  /**
    The buffer renderText holds just before its last-block test: what the
    line break test and the repair left, followed by the chunk's own text.
   */
  function PendingText(st: Settings, s: Listener, c: Chunk): (r: string)
    ensures |c.text| <= |r| && r[|r| - |c.text|..] == c.text
  {
    var s1 := ScanChunk(st, s, c);
    var seg := s1.prevSegment.GetOr(c.baseline);
    var broken := AddDefaultLine(st, s1.(prevSegment := Some(seg)), c, seg);
    AppendChunk(Repair(st, broken, c, seg), c).lineText
  }

  /** The last stored line, numbered after all others, holds `text`. */
  predicate EndsWithLine(s: Listener, text: string) {
    && |s.lines| > 0 && |s.textLines| > 0
    && s.lines[|s.lines| - 1].text == text
    && s.lines[|s.lines| - 1].number == |s.lines|
    && s.textLines[|s.textLines| - 1] == text
  }

  lemma ScanChunkConsistent(st: Settings, s: Listener, c: Chunk)
    requires Consistent(st, s)
    ensures Consistent(st, ScanChunk(st, s, c))
  {
    var s0 := s.(started := true);
    CaptureFontConsistent(st, s0, c);
    var captured := CaptureFont(st, s0, c);
    ClassifyScriptEffect(st, captured.0, c, captured.1);
    var classified := ClassifyScript(st, captured.0, c, captured.1);
    var rotated := classified.0.(isRotated := IsTextRotated(c));
    LeadingConsistent(st, rotated, c, classified.1);
    CountCharsEffect(st, Leading(rotated, c, classified.1), c.text);
  }

  lemma AddDefaultLineConsistent(st: Settings, s: Listener, c: Chunk, seg: Segment)
    requires Consistent(st, s)
    ensures Consistent(st, AddDefaultLine(st, s, c, seg))
  {
    var s1 := Edges(st, s, c);
    if Breaks(s1) {
      SameRecordsConsistent(st, s, s1);
      AddLineConsistent(st, s1, seg.start.y, seg.end.y);
    }
  }

  lemma RepairConsistent(st: Settings, s: Listener, c: Chunk, seg: Segment)
    requires Consistent(st, s)
    ensures Consistent(st, Repair(st, s, c, seg))
  {
  }

  lemma AppendChunkConsistent(st: Settings, s: Listener, c: Chunk)
    requires Consistent(st, s)
    ensures Consistent(st, AppendChunk(s, c))
  {
  }

  lemma AddLastLineConsistent(st: Settings, s: Listener, c: Chunk, seg: Segment)
    requires Consistent(st, s)
    ensures Consistent(st, AddLastLine(st, s, c, seg))
  {
    if LastBlock(st, s, c) {
      AddLineConsistent(st, s, seg.start.y, seg.end.y);
    }
  }

  lemma RememberConsistent(st: Settings, s: Listener, c: Chunk)
    requires Consistent(st, s)
    ensures Consistent(st, Remember(s, c))
  {
  }

  lemma PlaceChunkConsistent(st: Settings, s: Listener, c: Chunk)
    requires Consistent(st, s)
    ensures Consistent(st, PlaceChunk(st, s, c))
  {
    var seg := s.prevSegment.GetOr(c.baseline);
    var s0 := s.(prevSegment := Some(seg));
    AddDefaultLineConsistent(st, s0, c, seg);
    var broken := AddDefaultLine(st, s0, c, seg);
    RepairConsistent(st, broken, c, seg);
    var repaired := Repair(st, broken, c, seg);
    AppendChunkConsistent(st, repaired, c);
    var appended := AppendChunk(repaired, c);
    AddLastLineConsistent(st, appended, c, seg);
    RememberConsistent(st, AddLastLine(st, appended, c, seg), c);
  }

  /** renderText keeps the listener's invariant. */
  lemma RenderTextConsistent(st: Settings, s: Listener, c: Chunk)
    requires Consistent(st, s)
    ensures Consistent(st, RenderText(st, s, c))
  {
    ScanChunkConsistent(st, s, c);
    PlaceChunkConsistent(st, ScanChunk(st, s, c), c);
  }

  /** renderText keeps every line stored so far, adding at most two. */
  lemma RenderTextLines(st: Settings, s: Listener, c: Chunk)
    ensures var r := RenderText(st, s, c);
      s.lines <= r.lines && |r.lines| <= |s.lines| + 2
  {
    var s1 := ScanChunk(st, s, c);
    var seg := s1.prevSegment.GetOr(c.baseline);
    var broken := AddDefaultLine(st, s1.(prevSegment := Some(seg)), c, seg);
    var appended := AppendChunk(Repair(st, broken, c, seg), c);
    var flushed := AddLastLine(st, appended, c, seg);
    assert s.lines <= broken.lines <= appended.lines <= flushed.lines;
  }

  /**
    When this chunk is the page's last block (by the pre-scan's count) and not
    a special character, the line buffer is flushed: nothing is left unstored.
   */
  lemma RenderTextLastBlock(st: Settings, s: Listener, c: Chunk)
    requires !st.isSpecial(c.text) && s.totalBlockCount + 1 == st.lastBlockCount
    ensures RenderText(st, s, c).lineText == ""
  {
    var s1 := ScanChunk(st, s, c);
    var seg := s1.prevSegment.GetOr(c.baseline);
    var broken := AddDefaultLine(st, s1.(prevSegment := Some(seg)), c, seg);
    var appended := AppendChunk(Repair(st, broken, c, seg), c);
    assert LastBlock(st, appended, c);
  }

  /**
    On the page's last block the trimmed pending buffer becomes the last
    stored line, unless blank spaces are ignored and it is empty; a chunk
    that is not blank is therefore always stored.
   */
  lemma RenderTextLastLine(st: Settings, s: Listener, c: Chunk)
    requires Consistent(st, s)
    requires !st.isSpecial(c.text) && s.totalBlockCount + 1 == st.lastBlockCount
    ensures var r := RenderText(st, s, c);
      var p := Trim(PendingText(st, s, c));
      && r.lineText == ""
      && (Stored(st, p) ==> EndsWithLine(r, p))
      && (!Stored(st, p) ==> p == "")
      && (!IsBlank(c.text) ==> Stored(st, p))
  {
    var a, seg := PendingState(st, s, c);
    LastBlockStores(st, a, c, seg);
    if !IsBlank(c.text) {
      NonBlankSuffix(PendingText(st, s, c), c.text);
    }
  }

  /** The state renderText reaches just before its last-block test, and the segment it uses. */
  lemma PendingState(st: Settings, s: Listener, c: Chunk) returns (a: Listener, seg: Segment)
    requires Consistent(st, s)
    ensures Consistent(st, a)
    ensures a.lineText == PendingText(st, s, c) && a.totalBlockCount == s.totalBlockCount + 1
    ensures RenderText(st, s, c) == Remember(AddLastLine(st, a, c, seg), c)
  {
    ScanChunkConsistent(st, s, c);
    var s1 := ScanChunk(st, s, c);
    seg := s1.prevSegment.GetOr(c.baseline);
    var s0 := s1.(prevSegment := Some(seg));
    AddDefaultLineConsistent(st, s0, c, seg);
    var broken := AddDefaultLine(st, s0, c, seg);
    RepairConsistent(st, broken, c, seg);
    a := AppendChunk(Repair(st, broken, c, seg), c);
    AppendChunkConsistent(st, Repair(st, broken, c, seg), c);
  }

  /** A last-block flush stores the trimmed buffer as the last line unless it is dropped as empty. */
  lemma LastBlockStores(st: Settings, a: Listener, c: Chunk, seg: Segment)
    requires Consistent(st, a) && LastBlock(st, a, c)
    ensures var r := AddLastLine(st, a, c, seg);
      var p := Trim(a.lineText);
      && r.lineText == ""
      && (Stored(st, p) ==> EndsWithLine(r, p))
      && (!Stored(st, p) ==> p == "")
  {
    AddLastLineFlush(st, a, c, seg);
  }

  /**
    The column block number rises by at most one per chunk, and only on a hard
    return when the text width is positive.
   */
  lemma RenderTextColumns(st: Settings, s: Listener, c: Chunk)
    ensures var r := RenderText(st, s, c);
      r.colBlockNo == s.colBlockNo || (r.colBlockNo == s.colBlockNo + 1 && st.textWidth > 0.0)
  {
    var s1 := ScanChunk(st, s, c);
    var seg := s1.prevSegment.GetOr(c.baseline);
    var broken := AddDefaultLine(st, s1.(prevSegment := Some(seg)), c, seg);
    RepairEffect(st, broken, c, seg);
  }

  // ---------------------------------------------------------------------------
  // Images

  /**
    renderImage: an image with parsable bits per component (an int), height
    and width (longs) is recorded with its byte count, its position and its
    filter with '/' removed, or "N/A" without one. A missing image, entry,
    unparsable number or image bytes that cannot be decoded record nothing.
   */
  function ImageOf(e: ImageEvent): (r: Option<ImageModel>)
    ensures r.Some? <==>
      && e.image.Some?
      && e.image.value.bitsPerComponent.Some? && ParseDecimal(e.image.value.bitsPerComponent.value, IntMin, IntMax).Some?
      && e.image.value.height.Some? && ParseDecimal(e.image.value.height.value, LongMin, LongMax).Some?
      && e.image.value.width.Some? && ParseDecimal(e.image.value.width.value, LongMin, LongMax).Some?
      && e.image.value.byteCount.Some?
    ensures r.Some? ==>
      && IntMin <= r.value.bitType <= IntMax
      && LongMin <= r.value.height <= LongMax && LongMin <= r.value.width <= LongMax
      && r.value.size == e.image.value.byteCount.value
      && r.value.xCoordinate == e.ctmX && r.value.yCoordinate == e.ctmY
      && (r.value.filterUsed == "N/A" <==> e.image.value.filter.None?)
      && (e.image.value.filter.Some? ==> '/' !in r.value.filterUsed)
  {
    match e.image
    case None => None
    case Some(img) =>
      if img.bitsPerComponent.None? || img.height.None? || img.width.None? then None
      else
        var bits := ParseDecimal(img.bitsPerComponent.value, IntMin, IntMax);
        var height := ParseDecimal(img.height.value, LongMin, LongMax);
        var width := ParseDecimal(img.width.value, LongMin, LongMax);
        if bits.None? || height.None? || width.None? || img.byteCount.None? then None
        else
          var filter := match img.filter
            case Some(f) => RemoveChar(f, '/')
            case None => "N/A";
          assert "N/A"[1] == '/';
          Some(ImageModel(bits.value, height.value, width.value, img.byteCount.value, e.ctmX, e.ctmY, filter))
  }

  /** An image whose entries print integers within range is recorded with exactly those values. */
  lemma ImageOfPrinted(bits: int, height: int, width: int, bytes: nat, filter: Option<string>, x: real, y: real)
    requires IntMin <= bits <= IntMax && LongMin <= height <= LongMax && LongMin <= width <= LongMax
    ensures var e := ImageEvent(Some(RawImage(Some(ShowDecimal(bits)), Some(ShowDecimal(height)),
                                              Some(ShowDecimal(width)), Some(bytes), filter)), x, y);
      && ImageOf(e).Some?
      && ImageOf(e).value == ImageModel(bits, height, width, bytes, x, y, ImageOf(e).value.filterUsed)
  {
    ParseShowDecimal(bits, IntMin, IntMax);
    ParseShowDecimal(height, LongMin, LongMax);
    ParseShowDecimal(width, LongMin, LongMax);
  }

  function RenderImage(s: Listener, e: ImageEvent): (r: Listener)
    ensures r == s.(images := s.images + (if ImageOf(e).Some? then [ImageOf(e).value] else []))
  {
    match ImageOf(e)
    case Some(m) => s.(images := s.images + [m])
    case None => s
  }

  // ---------------------------------------------------------------------------
  // The event stream of a page

  /** eventOccurred: text and image events are processed; every other kind is ignored. */
  function Step(st: Settings, s: Listener, e: ContentEvent): (r: Listener)
    ensures e.OtherEvent? ==> r == s
    ensures r.totalBlockCount == s.totalBlockCount + (if e.TextRendered? then 1 else 0)
    ensures r.started == (s.started || e.TextRendered?)
    ensures r.images == s.images + (if e.ImageRendered? && ImageOf(e.image).Some? then [ImageOf(e.image).value] else [])
    ensures |r.ascents| == |s.ascents| + (if e.TextRendered? && Measured(st, e.chunk) then 1 else 0)
    ensures |r.descents| == |s.descents| + (if e.TextRendered? && Measured(st, e.chunk) then 1 else 0)
  {
    match e
    case TextRendered(c) => RenderText(st, s, c)
    case ImageRendered(i) => RenderImage(s, i)
    case OtherEvent(_) => s
  }

  /** The listener after a page's events, in order. */
  function Run(st: Settings, events: seq<ContentEvent>): Listener
    decreases |events|
  {
    if |events| == 0 then Initial else Step(st, Run(st, events[..|events| - 1]), events[|events| - 1])
  }

  lemma RunSnoc(st: Settings, events: seq<ContentEvent>, e: ContentEvent)
    ensures Run(st, events + [e]) == Step(st, Run(st, events), e)
  {
    assert (events + [e])[..|events|] == events;
  }

  lemma StepConsistent(st: Settings, s: Listener, e: ContentEvent)
    requires Consistent(st, s)
    ensures Consistent(st, Step(st, s, e))
  {
    match e
    case TextRendered(c) => RenderTextConsistent(st, s, c);
    case ImageRendered(i) => SameRecordsConsistent(st, s, RenderImage(s, i));
    case OtherEvent(_) =>
  }

  /** The invariant holds after every prefix of a page's events. */
  lemma {:induction false} RunConsistent(st: Settings, events: seq<ContentEvent>)
    ensures Consistent(st, Run(st, events))
    decreases |events|
  {
    if |events| == 0 {
      InitialConsistent(st);
    } else {
      RunConsistent(st, events[..|events| - 1]);
      StepConsistent(st, Run(st, events[..|events| - 1]), events[|events| - 1]);
    }
  }

  /** The images that the page's image events record, in order. */
  function ImagesOf(events: seq<ContentEvent>): seq<ImageModel>
    decreases |events|
  {
    if |events| == 0 then []
    else
      var e := events[|events| - 1];
      ImagesOf(events[..|events| - 1])
        + (if e.ImageRendered? && ImageOf(e.image).Some? then [ImageOf(e.image).value] else [])
  }

  /** The number of text chunks whose ascent and descent are recorded. */
  function MeasuredCount(st: Settings, chunks: seq<Chunk>): nat
    decreases |chunks|
  {
    if |chunks| == 0 then 0
    else MeasuredCount(st, chunks[..|chunks| - 1]) + (if Measured(st, chunks[|chunks| - 1]) then 1 else 0)
  }

  /** Over a page: one block per text event, as the pre-scan counts them. */
  lemma {:induction false} RunBlocks(st: Settings, events: seq<ContentEvent>)
    ensures Run(st, events).totalBlockCount == |Pre.TextChunks(events)|
    decreases |events|
  {
    if |events| > 0 {
      var front := events[..|events| - 1];
      RunBlocks(st, front);
    }
  }

  /** The listener has started exactly when the page had a text event. */
  lemma {:induction false} RunStarted(st: Settings, events: seq<ContentEvent>)
    ensures Run(st, events).started <==> |Pre.TextChunks(events)| > 0
    decreases |events|
  {
    if |events| > 0 {
      var front := events[..|events| - 1];
      RunStarted(st, front);
    }
  }

  /** The recorded images are those of the page's image events, in order. */
  lemma {:induction false} RunImages(st: Settings, events: seq<ContentEvent>)
    ensures Run(st, events).images == ImagesOf(events)
    decreases |events|
  {
    if |events| > 0 {
      var front := events[..|events| - 1];
      RunImages(st, front);
    }
  }

  /** One ascent and one descent per measured chunk of the page. */
  lemma {:induction false} RunMeasured(st: Settings, events: seq<ContentEvent>)
    ensures var s := Run(st, events);
      |s.ascents| == |s.descents| == MeasuredCount(st, Pre.TextChunks(events))
    decreases |events|
  {
    if |events| > 0 {
      var front := events[..|events| - 1];
      var e := events[|events| - 1];
      RunMeasured(st, front);
      assert events == front + [e];
      if e.TextRendered? {
        assert Pre.TextChunks(events) == Pre.TextChunks(front) + [e.chunk];
        MeasuredSnoc(st, Pre.TextChunks(front), e.chunk);
      } else {
        assert Pre.TextChunks(events) == Pre.TextChunks(front);
      }
    }
  }

  lemma MeasuredSnoc(st: Settings, chunks: seq<Chunk>, c: Chunk)
    ensures MeasuredCount(st, chunks + [c]) == MeasuredCount(st, chunks) + (if Measured(st, c) then 1 else 0)
  {
    assert (chunks + [c])[..|chunks|] == chunks;
  }

  /**
    The listener's block count after a page agrees with the pre-scan's, which
    the page builder passes as `lastBlockCount`.
   */
  lemma BlockCountMatchesPreScan(st: Settings, events: seq<ContentEvent>)
    ensures Run(st, events).totalBlockCount == Pre.Run(events).blockCount
  {
    RunBlocks(st, events);
    Pre.RunSummary(events);
  }

  /**
    With the pre-scan's block count, a page whose last event is a text chunk
    that is not a special character ends with its line buffer flushed: the
    trimmed buffer, which ends with the chunk's text, is the page's last
    stored line, and always so when the chunk is not blank.
   */
  lemma LastLineFlushed(st: Settings, events: seq<ContentEvent>, c: Chunk)
    requires !st.isSpecial(c.text)
    requires st.lastBlockCount == Pre.Run(events + [TextRendered(c)]).blockCount
    ensures var r := Run(st, events + [TextRendered(c)]);
      var p := Trim(PendingText(st, Run(st, events), c));
      && r.lineText == ""
      && (Stored(st, p) ==> EndsWithLine(r, p))
      && (!IsBlank(c.text) ==> p != "" && EndsWithLine(r, p))
  {
    RunSnoc(st, events, TextRendered(c));
    BlockCountMatchesPreScan(st, events);
    assert (events + [TextRendered(c)])[..|events|] == events;
    RunConsistent(st, events);
    RenderTextLastLine(st, Run(st, events), c);
    if !IsBlank(c.text) {
      NonBlankSuffix(PendingText(st, Run(st, events), c), c.text);
    }
  }
}

=== FILE: pdf_model_builder.dfy ===
/**
  Builds the document model of a PDF: every page through the page builder,
  the pages that carry text, the section headings of all pages, the fact
  model for the rules engine and the sorted set of URLs.
 */
module PdfModelBuilder {
  import opened Common
  import opened Model
  import opened StringOrder
  import opened PdfModelBuilderUtils
  import D = DocComplianceUtils
  import Pre = TextRenderInfoListener

  /** How opening the file ends: a document, a wrong password, or any other failure before the model exists. */
  datatype Opening = Opened | BadPassword | Unreadable

  /** A PDF as its reader sees it. */
  datatype DocumentSource = DocumentSource(
    opening: Opening,
    encrypted: bool,
    pdfVersion: string,
    producer: Option<string>,
    pages: seq<PageSource>)

  /** The model for a file whose password is not known: encrypted and password protected, nothing else. */
  const PasswordProtectedDocument := EmptyDocument.(encrypted := true, passwordProtected := true)

  /** The page builder's outcome for every page, pages numbered from 1. */
  function Outcomes(params: PdfParameters, env: Environment, pages: seq<PageSource>): (r: seq<PartOutcome>)
    ensures |r| == |pages|
    ensures forall k :: 0 <= k < |r| ==> (r[k].Skipped? <==> !pages[k].contentReadable)
    ensures forall k :: 0 <= k < |r| && r[k].Built? ==> WellFormedPart(r[k].part)
  {
    seq(|pages|, k requires 0 <= k < |pages| => GetDocumentPart(params, env, pages[k], k + 1))
  }

  predicate AllBuilt(outcomes: seq<PartOutcome>) {
    forall k :: 0 <= k < |outcomes| ==> outcomes[k].Built?
  }

  /** A page counts when the font total of its characters is positive. */
  predicate Counted(page: PageModel) {
    page.noOfTextChars > 0
  }

  /** The counted pages, in page order. */
  function KeptPages(parts: seq<DocumentPart>): (r: seq<PageModel>)
    ensures forall p :: p in r <==> exists k :: 0 <= k < |parts| && parts[k].page == p && Counted(p)
    ensures |r| <= |parts|
  {
    if |parts| == 0 then []
    else
      var front := parts[..|parts| - 1];
      var last := parts[|parts| - 1];
      var rest := KeptPages(front);
      assert forall k :: 0 <= k < |front| ==> front[k] == parts[k];
      if Counted(last.page) then rest + [last.page] else rest
  }

  /** Every page's section headings, in page order, dropped pages included. */
  function AllHeadings(parts: seq<DocumentPart>): (r: seq<SectionModel>)
    ensures forall k :: 0 <= k < |parts| ==> forall h :: h in parts[k].sectionHeadings ==> h in r
    ensures forall h :: h in r ==> exists k :: 0 <= k < |parts| && h in parts[k].sectionHeadings
  {
    if |parts| == 0 then []
    else
      var front := parts[..|parts| - 1];
      assert forall k :: 0 <= k < |front| ==> front[k] == parts[k];
      AllHeadings(front) + parts[|parts| - 1].sectionHeadings
  }

  /** Keeping pages works part by part: the kept pages of a concatenation are the concatenated kept pages. */
  lemma {:induction false} KeptPagesAppend(a: seq<DocumentPart>, b: seq<DocumentPart>)
    ensures KeptPages(a + b) == KeptPages(a) + KeptPages(b)
    decreases |b|
  {
    if |b| == 0 {
      assert a + b == a;
    } else {
      var front, d := b[..|b| - 1], b[|b| - 1];
      assert b == front + [d];
      assert a + b == (a + front) + [d];
      KeptPagesAppend(a, front);
      KeptPagesSnoc(front, d);
      KeptPagesSnoc(a + front, d);
      SnocAppended(KeptPages(a), KeptPages(front), KeptPages(a + front), KeptPages(b), KeptPages(a + b), [d.page], Counted(d.page));
    }
  }

  lemma KeptPagesSnoc(parts: seq<DocumentPart>, d: DocumentPart)
    ensures KeptPages(parts + [d]) == if Counted(d.page) then KeptPages(parts) + [d.page] else KeptPages(parts)
  {
    assert (parts + [d])[..|parts|] == parts;
  }

  /** One part contributes its page exactly when the page is counted. */
  lemma KeptPagesSingle(d: DocumentPart)
    ensures KeptPages([d]) == if Counted(d.page) then [d.page] else []
  {
    assert [d][..0] == [];
  }

  /** Collecting headings works part by part: the headings of a concatenation are the concatenated headings. */
  lemma {:induction false} AllHeadingsAppend(a: seq<DocumentPart>, b: seq<DocumentPart>)
    ensures AllHeadings(a + b) == AllHeadings(a) + AllHeadings(b)
    decreases |b|
  {
    if |b| == 0 {
      assert a + b == a;
    } else {
      var front, d := b[..|b| - 1], b[|b| - 1];
      assert b == front + [d];
      assert a + b == (a + front) + [d];
      AllHeadingsAppend(a, front);
      AllHeadingsSnoc(front, d);
      AllHeadingsSnoc(a + front, d);
      SnocAppended(AllHeadings(a), AllHeadings(front), AllHeadings(a + front), AllHeadings(b), AllHeadings(a + b), d.sectionHeadings, true);
    }
  }

  lemma AllHeadingsSnoc(parts: seq<DocumentPart>, d: DocumentPart)
    ensures AllHeadings(parts + [d]) == AllHeadings(parts) + d.sectionHeadings
  {
    assert (parts + [d])[..|parts|] == parts;
  }

  /** One part contributes exactly its own headings, in their order. */
  lemma AllHeadingsSingle(d: DocumentPart)
    ensures AllHeadings([d]) == d.sectionHeadings
  {
    assert [d][..0] == [];
  }

  /** The URLs of the counted pages, in page order, duplicates kept. */
  function KeptUrls(pages: seq<PageModel>): (r: seq<string>)
    ensures forall u :: u in r <==> exists k :: 0 <= k < |pages| && u in pages[k].urls
  {
    if |pages| == 0 then []
    else
      var front := pages[..|pages| - 1];
      assert forall k :: 0 <= k < |front| ==> front[k] == pages[k];
      KeptUrls(front) + pages[|pages| - 1].urls
  }

  /** The page facts of the counted pages, which the page builder gives text fonts and margins. */
  function PageFactsOf(pages: seq<PageModel>, fontMap: seq<(string, string)>): (r: seq<PageFacts>)
    requires forall k :: 0 <= k < |pages| ==> D.HasTextLayout(pages[k])
    ensures |r| == |pages|
    ensures forall k :: 0 <= k < |pages| ==> r[k] == D.PageFactModel(pages[k], fontMap)
  {
    seq(|pages|, k requires 0 <= k < |pages| => D.PageFactModel(pages[k], fontMap))
  }

  /**
    The document once every page is built: the counted pages, every heading,
    and the fact model with the counted pages' facts, the section facts, the
    page count and the URL set in ascending order; no longer encrypted.
   */
  function Assemble(init: DocumentModel, parts: seq<DocumentPart>, fontMap: seq<(string, string)>, file: FileFacts): (r: DocumentModel)
    requires forall k :: 0 <= k < |parts| ==> WellFormedPart(parts[k])
    ensures r.pages == KeptPages(parts) && r.sections == AllHeadings(parts)
    ensures !r.encrypted && r.passwordProtected == init.passwordProtected && r.noOfPages == init.noOfPages
    ensures r.pdfVersion == init.pdfVersion && r.producer == init.producer
    ensures r.docFacts.Some?
    ensures r.docFacts.value.file == file && r.docFacts.value.noOfPages == init.noOfPages
    ensures r.docFacts.value.correctMimeType
    ensures |r.docFacts.value.pages| == |r.pages|
    ensures r.docFacts.value.sections == D.SectionFactModelList(r.sections)
    ensures StrictlySorted(r.docFacts.value.urls)
    ensures forall u :: u in r.docFacts.value.urls <==> exists p :: p in r.pages && u in p.urls
  {
    var pages := KeptPages(parts);
    assert forall k :: 0 <= k < |pages| ==> D.HasTextLayout(pages[k]) by {
      forall k | 0 <= k < |pages| ensures D.HasTextLayout(pages[k]) {
        assert pages[k] in pages;
        var j :| 0 <= j < |parts| && parts[j].page == pages[k] && Counted(pages[k]);
        assert WellFormedPart(parts[j]);
      }
    }
    var sections := AllHeadings(parts);
    var urls := SortedAddAll([], KeptUrls(pages));
    assert forall u :: u in urls <==> exists p :: p in pages && u in p.urls by {
      forall u ensures u in urls <==> exists p :: p in pages && u in p.urls {
        if u in urls {
          var k :| 0 <= k < |pages| && u in pages[k].urls;
          assert pages[k] in pages;
        }
        if exists p :: p in pages && u in p.urls {
          var p :| p in pages && u in p.urls;
          var k :| 0 <= k < |pages| && pages[k] == p;
        }
      }
    }
    var facts := DocumentFacts(file, PageFactsOf(pages, fontMap), init.noOfPages,
                               D.SectionFactModelList(sections), true, urls);
    CompleteDocumentModel(init, pages, sections).(docFacts := Some(facts), encrypted := false)
  }

  /** The file's facts: its name and its size in MB. */
  function FileFactsFor(fileName: string, sizeInBytes: int): (r: FileFacts)
    ensures r.name == fileName && r.size * 1048576.0 == sizeInBytes as real
  {
    FileFacts(fileName, D.FileSizeInMB(sizeInBytes))
  }

  /**
    buildModel. A wrong password gives the password-protected model; a file
    that cannot be opened gives null (None). Once the document is opened a
    page the page builder skips or fails on stops the loop, and the model
    stays as initDocumentModel left it. Otherwise the pages are assembled.
   */
  function BuildModel(params: PdfParameters, env: Environment, source: DocumentSource,
                      fileName: string, sizeInBytes: int): (r: Option<DocumentModel>)
    ensures source.opening.BadPassword? ==> r == Some(PasswordProtectedDocument)
    ensures source.opening.Unreadable? <==> r.None?
    ensures source.opening.Opened? ==>
      && r.Some? && r.value.noOfPages == |source.pages|
      && r.value.pdfVersion == Some(source.pdfVersion) && r.value.producer == source.producer
      && !r.value.passwordProtected
    ensures source.opening.Opened? && !AllBuilt(Outcomes(params, env, source.pages)) ==>
      r == Some(InitDocumentModel(source.encrypted, |source.pages|, source.pdfVersion, source.producer))
    ensures source.opening.Opened? && AllBuilt(Outcomes(params, env, source.pages)) ==>
      && !r.value.encrypted && r.value.docFacts.Some?
      && r.value.docFacts.value.file == FileFactsFor(fileName, sizeInBytes)
      && |r.value.docFacts.value.pages| == |r.value.pages| <= |source.pages|
      && (forall p :: p in r.value.pages ==> Counted(p))
      && StrictlySorted(r.value.docFacts.value.urls)
  {
    match source.opening
    case BadPassword => Some(PasswordProtectedDocument)
    case Unreadable => None
    case Opened =>
      var init := InitDocumentModel(source.encrypted, |source.pages|, source.pdfVersion, source.producer);
      var outcomes := Outcomes(params, env, source.pages);
      if AllBuilt(outcomes) then
        var parts := seq(|outcomes|, k requires 0 <= k < |outcomes| && outcomes[k].Built? => outcomes[k].part);
        Some(Assemble(init, parts, params.fontMap, FileFactsFor(fileName, sizeInBytes)))
      else Some(init)
  }

  /** A page without any text event fails the whole document unless the text extractor is on. */
  lemma TextlessPageStopsBuild(params: PdfParameters, env: Environment, source: DocumentSource,
                               fileName: string, sizeInBytes: int, k: nat)
    requires source.opening.Opened? && !params.useTextExtractor
    requires k < |source.pages| && source.pages[k].contentReadable
    requires |Pre.TextChunks(source.pages[k].events)| == 0
    ensures BuildModel(params, env, source, fileName, sizeInBytes)
      == Some(InitDocumentModel(source.encrypted, |source.pages|, source.pdfVersion, source.producer))
  {
    NoTextFailsWithoutExtractor(params, env, source.pages[k], k + 1);
    assert !Outcomes(params, env, source.pages)[k].Built?;
  }

  /**
    buildMetadata: the document's metadata with a fact model holding only the
    file, the page count and the mime-type flag; not encrypted. Wrong
    password and failure as in buildModel.
   */
  function BuildMetadata(source: DocumentSource, fileName: string, sizeInBytes: int): (r: Option<DocumentModel>)
    ensures source.opening.BadPassword? ==> r == Some(PasswordProtectedDocument)
    ensures source.opening.Unreadable? <==> r.None?
    ensures source.opening.Opened? ==>
      && r.Some? && r.value.pages == [] && r.value.sections == []
      && !r.value.encrypted && !r.value.passwordProtected && r.value.noOfPages == |source.pages|
      && r.value.docFacts == Some(DocumentFacts(FileFactsFor(fileName, sizeInBytes), [], |source.pages|, [], true, []))
  {
    match source.opening
    case BadPassword => Some(PasswordProtectedDocument)
    case Unreadable => None
    case Opened =>
      var init := InitDocumentModel(source.encrypted, |source.pages|, source.pdfVersion, source.producer);
      var facts := DocumentFacts(FileFactsFor(fileName, sizeInBytes), [], |source.pages|, [], true, []);
      Some(init.(encrypted := false, docFacts := Some(facts)))
  }

  /**
    The two builders agree: on a wrong password or an unreadable file they
    give the same result; on an opened file they report the same page count,
    version, producer and password flag; and once every page is built also
    the encryption flag, the file facts, the fact page count and the mime-type
    flag. They differ only in the fact model's page, section and URL lists,
    and, when a page fails, in the encryption flag and the missing fact model.
   */
  lemma MetadataAgreesWithModel(params: PdfParameters, env: Environment, source: DocumentSource,
                                fileName: string, sizeInBytes: int)
    ensures !source.opening.Opened? ==>
      BuildMetadata(source, fileName, sizeInBytes) == BuildModel(params, env, source, fileName, sizeInBytes)
    ensures source.opening.Opened? ==>
      var m := BuildMetadata(source, fileName, sizeInBytes).value;
      var d := BuildModel(params, env, source, fileName, sizeInBytes).value;
      && m.passwordProtected == d.passwordProtected
      && m.noOfPages == d.noOfPages && m.pdfVersion == d.pdfVersion && m.producer == d.producer
    ensures source.opening.Opened? && AllBuilt(Outcomes(params, env, source.pages)) ==>
      var m := BuildMetadata(source, fileName, sizeInBytes).value;
      var d := BuildModel(params, env, source, fileName, sizeInBytes).value;
      && m.encrypted == d.encrypted
      && m.docFacts.value.file == d.docFacts.value.file
      && m.docFacts.value.noOfPages == d.docFacts.value.noOfPages
      && m.docFacts.value.correctMimeType == d.docFacts.value.correctMimeType
  {
  }
}

=== FILE: pdf_model_builder_utils.dfy ===
/**
  Builds one page of the document model: the pre-scan, the listener run, the
  page's lines of text, and either a text page with fonts, margins, URLs and
  headings or a geometry-only page for a page without measured text.
 */
module PdfModelBuilderUtils {
  import opened Common
  import opened Model
  import opened Sorting
  import opened StringOrder
  import opened PdfUtils
  import L = PdfExtractionListener
  import Pre = TextRenderInfoListener

  /** The PDF settings that reach the page builder. `fontMap` lists the alias map in iteration order. */
  datatype PdfParameters = PdfParameters(
    ignoreBlankSpaces: bool,
    ignoreSuperSubscript: bool,
    isSpecial: string -> bool,
    useTextExtractor: bool,
    fontMap: seq<(string, string)>)

  /**
    What the page builder learns from libraries outside this code base: the
    installed system fonts, the URL pattern's matches in a text, LineModel
    equality against a bare leading value, and the hash order of a set of
    leading values.
   */
  datatype Environment = Environment(
    installedFonts: seq<InstalledFont>,
    textUrls: string -> seq<string>,
    leadingMatches: (LineModel, real) -> bool,
    leadingOrder: seq<real> -> seq<real>)

  /**
    One page as the parser delivers it. `contentReadable` is false when the
    pre-scan's parse throws; `textRect` is the text margin finder's rectangle,
    None when it saw no glyph; `declaredFonts` are the fonts the page's
    resources declare, None when walking them throws (a font entry that is
    not a dictionary or has no /BaseFont name); `extractorText` is what the simple text extraction
    strategy returns for the page.
   */
  datatype PageSource = PageSource(
    contentReadable: bool,
    events: seq<ContentEvent>,
    pageRect: Rect,
    textRect: Option<Rect>,
    annotationUrls: seq<string>,
    declaredFonts: Option<seq<FontModel>>,
    extractorText: string)

  datatype DocumentPart = DocumentPart(page: PageModel, sectionHeadings: seq<SectionModel>)

  /**
    getDocumentPart's outcomes: null for a page whose pre-scan failed, a
    CommonUtilException for a failure after it, or the part.
   */
  datatype PartOutcome = Skipped | Failed | Built(part: DocumentPart)

  // ---------------------------------------------------------------------------
  // Font order

  /** The comparator of initOutput's sort: font names by String.compareTo. */
  predicate ByName(a: FontModel, b: FontModel) {
    LexLe(a.key.name, b.key.name)
  }

  lemma ByNameIsTotalPreorder()
    ensures TotalPreorder(ByName)
  {
    forall a: FontModel, b: FontModel ensures ByName(a, b) || ByName(b, a) {
      LexLeTotal(a.key.name, b.key.name);
    }
    forall a: FontModel, b: FontModel, c: FontModel | ByName(a, b) && ByName(b, c) ensures ByName(a, c) {
      LexLeTransitive(a.key.name, b.key.name, c.key.name);
    }
  }

  /** The text fonts in name order; fonts with equal names keep their order. */
  function SortByName(fonts: seq<FontModel>): (r: seq<FontModel>)
    ensures multiset(r) == multiset(fonts)
    ensures Sorted(r, ByName)
    ensures forall x :: EquivalentTo(r, x, ByName) == EquivalentTo(fonts, x, ByName)
  {
    ByNameIsTotalPreorder();
    SortSorted(fonts, ByName);
    forall x ensures EquivalentTo(Sort(fonts, ByName), x, ByName) == EquivalentTo(fonts, x, ByName) {
      SortStable(fonts, x, ByName);
    }
    Sort(fonts, ByName)
  }

  /** The character total does not depend on the order of the fonts. */
  lemma {:induction false} TotalCharsPermutation(a: seq<FontModel>, b: seq<FontModel>)
    requires multiset(a) == multiset(b)
    ensures L.TotalChars(a) == L.TotalChars(b)
    decreases |a|
  {
    if |a| == 0 {
      assert |multiset(b)| == 0;
    } else {
      var front := a[..|a| - 1];
      var x := a[|a| - 1];
      assert x in multiset(b) by {
        assert a == front + [x];
        assert x in multiset(a);
      }
      var i :| 0 <= i < |b| && b[i] == x;
      var rest := b[..i] + b[i + 1..];
      RemoveMatching(a, b, i);
      TotalCharsPermutation(front, rest);
      TotalCharsRemove(b, i);
      assert a == front + [x];
      L.TotalCharsAppend(front, [x]);
    }
  }

  /** Taking the last element off one sequence and a matching element out of a permutation of it leaves permutations. */
  lemma RemoveMatching<T>(a: seq<T>, b: seq<T>, i: int)
    requires multiset(a) == multiset(b) && |a| > 0
    requires 0 <= i < |b| && b[i] == a[|a| - 1]
    ensures multiset(a[..|a| - 1]) == multiset(b[..i] + b[i + 1..])
  {
    var x := b[i];
    assert a == a[..|a| - 1] + [x];
    assert b == b[..i] + [x] + b[i + 1..];
    assert multiset(a[..|a| - 1]) == multiset(a) - multiset{x};
    assert multiset(b[..i] + b[i + 1..]) == multiset(b) - multiset{x};
  }

  /** The character total of the fonts without the one at `i`, plus that font's count. */
  lemma TotalCharsRemove(b: seq<FontModel>, i: int)
    requires 0 <= i < |b|
    ensures L.TotalChars(b) == L.TotalChars(b[..i] + b[i + 1..]) + L.TotalChars([b[i]])
  {
    assert b == b[..i] + [b[i]] + b[i + 1..];
    L.TotalCharsAppend(b[..i] + [b[i]], b[i + 1..]);
    L.TotalCharsAppend(b[..i], [b[i]]);
    L.TotalCharsAppend(b[..i], b[i + 1..]);
  }

  // ---------------------------------------------------------------------------
  // Document model records

  /**
    initDocumentModel: not password protected, the reader's encryption flag,
    the page count and PDF version, and the producer when the document
    information has one.
   */
  function InitDocumentModel(encrypted: bool, noOfPages: int, pdfVersion: string, producer: Option<string>): (r: DocumentModel)
    ensures !r.passwordProtected && r.encrypted == encrypted && r.noOfPages == noOfPages
    ensures r.pdfVersion == Some(pdfVersion) && r.producer == producer
    ensures r.pages == [] && r.sections == [] && r.docFacts.None?
  {
    EmptyDocument.(encrypted := encrypted, noOfPages := noOfPages, pdfVersion := Some(pdfVersion), producer := producer)
  }

  /** completeDocumentModel: the pages and sections are set; nothing else changes. */
  function CompleteDocumentModel(document: DocumentModel, pages: seq<PageModel>, sections: seq<SectionModel>): (r: DocumentModel)
    ensures r.pages == pages && r.sections == sections
    ensures r.(pages := document.pages, sections := document.sections) == document
  {
    document.(pages := pages, sections := sections)
  }

  /** copyDocumentMetadata: the encryption, password and page-count fields of the second, the rest of the first. */
  function CopyDocumentMetadata(target: DocumentModel, from: DocumentModel): (r: DocumentModel)
    ensures r.encrypted == from.encrypted && r.passwordProtected == from.passwordProtected && r.noOfPages == from.noOfPages
    ensures r.(encrypted := target.encrypted, passwordProtected := target.passwordProtected, noOfPages := target.noOfPages) == target
  {
    target.(encrypted := from.encrypted, passwordProtected := from.passwordProtected, noOfPages := from.noOfPages)
  }

  /** Copying metadata twice from the same model is copying it once. */
  lemma CopyDocumentMetadataIdempotent(target: DocumentModel, from: DocumentModel)
    ensures CopyDocumentMetadata(CopyDocumentMetadata(target, from), from) == CopyDocumentMetadata(target, from)
    ensures CopyDocumentMetadata(from, from) == from
  {
  }

  // ---------------------------------------------------------------------------
  // One page

  /**
    The listener's settings for a page: the parameters, the page number, the
    heading test, the pre-scan's block count, average space width and
    same-line flag, and the text rectangle's width (0 without one).
   */
  function SettingsFor(params: PdfParameters, env: Environment, source: PageSource, pageNumber: int): (st: L.Settings)
    ensures st.pageNumber == pageNumber && st.lastBlockCount == |Pre.TextChunks(source.events)|
    ensures st.ignoreBlankSpaces == params.ignoreBlankSpaces && st.ignoreSuperSubscript == params.ignoreSuperSubscript
  {
    var pre := Pre.Run(source.events);
    Pre.RunSummary(source.events);
    L.Settings(params.ignoreBlankSpaces, params.ignoreSuperSubscript, params.isSpecial, IsHeading,
               env.installedFonts, pageNumber, pre.blockCount, pre.averageSingleSpaceWidth,
               pre.lastBlockOnSameLine, if source.textRect.Some? then source.textRect.value.width else 0.0)
  }

  /** The URLs a page reports: annotation links completed by text URLs, else the text URLs. */
  function PageUrls(annotationUrls: seq<string>, textUrls: seq<string>): (r: seq<string>)
    ensures |annotationUrls| > 0 ==> |r| >= |annotationUrls| && r[..|annotationUrls|] == annotationUrls
    ensures forall u :: u in textUrls ==> u in r || Trim(u) in r
    ensures forall u :: u in r ==> u in annotationUrls || u in textUrls
    ensures |annotationUrls| == 0 ==> r == textUrls
    ensures |annotationUrls| > 0 ==>
      && AppendedKeysNew(r, |annotationUrls|, Trim)
      && FreshKeysAppended(r, annotationUrls, textUrls, Trim)
  {
    if |annotationUrls| > 0 then
      var r := CorrectUrlList(annotationUrls, textUrls);
      CorrectUrlListSkipsDuplicates(annotationUrls, textUrls);
      forall u | u in r ensures u in annotationUrls || u in textUrls {
        var i :| 0 <= i < |r| && r[i] == u;
        if i >= |annotationUrls| {
          assert r[|annotationUrls|..][i - |annotationUrls|] == u;
          SubsequenceMembers(r[|annotationUrls|..], textUrls);
        }
      }
      r
    else textUrls
  }

  lemma {:induction false} SubsequenceMembers<T>(sub: seq<T>, xs: seq<T>)
    requires IsSubsequence(sub, xs)
    ensures forall x :: x in sub ==> x in xs
    decreases |xs|
  {
    if |sub| > 0 && |xs| > 0 {
      if sub[0] == xs[0] {
        SubsequenceMembers(sub[1..], xs[1..]);
        assert forall x :: x in sub ==> x == sub[0] || x in sub[1..];
      } else {
        SubsequenceMembers(sub, xs[1..]);
      }
    }
  }

  /**
    The text page of processDocumentPart. `lines` is the listener's line list
    as the caller left it (sorted by reading order unless the text extractor
    is on). Fails where the source throws: the page's font resources cannot be
    walked, the first line has no font while a leading is known, or the margin
    finder saw no text.
   */
  function TextPart(env: Environment, source: PageSource, pageNumber: int, listener: L.Listener,
                    lines: seq<LineModel>, linesOfText: seq<string>, pageText: string): (r: PartOutcome)
    ensures !r.Skipped?
    ensures r.Built? <==> source.declaredFonts.Some? && source.textRect.Some? && !(|listener.leadingValues| > 0 && |lines| > 0 && lines[0].font.None?)
    ensures r.Built? ==>
      var leading := PredominantLeading(listener.leadingValues, lines, env.leadingMatches, env.leadingOrder);
      && r.part.page.textFonts == Some(PredominantFont(listener.fonts, lines, leading))
      && r.part.page.leadingValues == (if |leading| > 0 then Some(leading) else None)
    ensures r.Built? ==> var page := r.part.page;
      && page.pageNumber == pageNumber
      && page.width == source.pageRect.width && page.height == source.pageRect.height
      && page.margin.Some? && page.textFonts.Some?
      && |page.textFonts.value| == |listener.fonts|
      && IsSubsequence(page.nonTextFonts, source.declaredFonts.value)
      && (forall f :: f in page.nonTextFonts ==> !UsedBy(f, listener.fonts))
      && multiset(page.lines) == multiset(lines) && Sorted(page.lines, LowerYOrder)
      && page.margin.value.bottom == (if |lines| == 0 then 0.0 else page.lines[0].lowerY)
      && page.textLines == linesOfText && page.noOfTextCharsiText == |pageText|
      && page.images == listener.images
      && page.superscriptLines == listener.superscriptLines && page.subscriptLines == listener.subscriptLines
      && page.urls == PageUrls(source.annotationUrls, env.textUrls(pageText))
      && r.part.sectionHeadings == listener.headingLines
  {
    var leading := PredominantLeading(listener.leadingValues, lines, env.leadingMatches, env.leadingOrder);
    var fonts := PredominantFont(listener.fonts, lines, leading);
    var top := TopLeading(leading, lines);
    if source.declaredFonts.None? || top.None? || source.textRect.None? then Failed
    else
      var unused := UnusedFonts(listener.fonts, source.declaredFonts.value);
      var (byY, lastY) := LastY(lines);
      var page := ProcessResource(source.textRect.value, source.pageRect, top.value, lastY);
      assert |lines| > 0 ==> lastY == byY[0].lowerY by {
        if |lines| > 0 {
          assert |byY| > 0 by {
            assert lines[0] in multiset(byY);
          }
          assert byY[0] in multiset(lines);
        }
      }
      var page := page.(pageNumber := pageNumber,
                        urls := PageUrls(source.annotationUrls, env.textUrls(pageText)),
                        textFonts := Some(fonts),
                        nonTextFonts := unused,
                        superscriptLines := listener.superscriptLines,
                        textLines := linesOfText,
                        noOfTextChars := listener.totalCharacterCount,
                        noOfTextCharsiText := |pageText|,
                        images := listener.images,
                        subscriptLines := listener.subscriptLines,
                        lines := byY,
                        leadingValues := if |leading| > 0 then Some(leading) else None);
      Built(DocumentPart(page, listener.headingLines))
  }

  /**
    processDocumentPart: a text page when the listener measured an ascent and
    a descent; otherwise a page of the page rectangle's size with the images
    and no headings.
   */
  function ProcessDocumentPart(env: Environment, source: PageSource, pageNumber: int, listener: L.Listener,
                               lines: seq<LineModel>, linesOfText: seq<string>, pageText: string): (r: PartOutcome)
    ensures !r.Skipped?
    ensures |listener.ascents| == 0 || |listener.descents| == 0 ==>
      r == Built(DocumentPart(GeometryPage(source.pageRect.width, source.pageRect.height, listener.images), []))
    ensures |listener.ascents| > 0 && |listener.descents| > 0 ==>
      r == TextPart(env, source, pageNumber, listener, lines, linesOfText, pageText)
  {
    if |listener.ascents| > 0 && |listener.descents| > 0 then
      TextPart(env, source, pageNumber, listener, lines, linesOfText, pageText)
    else Built(DocumentPart(GeometryPage(source.pageRect.width, source.pageRect.height, listener.images), []))
  }

  /**
    initOutput's effect on the page: the text fonts sorted by name and the
    character count recomputed as the total over the text fonts (0 without
    them). Logging the average type density of no lines throws, so a text
    page without lines fails.
   */
  function InitOutput(page: PageModel): (r: Option<PageModel>)
    ensures r.None? <==> page.textFonts.Some? && |page.lines| == 0
    ensures r.Some? ==> r.value.textFonts.Some? == page.textFonts.Some?
    ensures r.Some? && page.textFonts.Some? ==>
      && multiset(r.value.textFonts.value) == multiset(page.textFonts.value)
      && Sorted(r.value.textFonts.value, ByName)
      && r.value.noOfTextChars == L.TotalChars(page.textFonts.value)
    ensures r.Some? && page.textFonts.None? ==> r.value.noOfTextChars == 0
    ensures r.Some? ==> r.value.(textFonts := page.textFonts, noOfTextChars := page.noOfTextChars) == page
  {
    if page.textFonts.Some? && |page.lines| == 0 then None
    else if page.textFonts.Some? then
      var fonts := SortByName(page.textFonts.value);
      TotalCharsPermutation(fonts, page.textFonts.value);
      Some(page.(textFonts := Some(fonts), noOfTextChars := L.TotalChars(fonts)))
    else Some(page.(noOfTextChars := 0))
  }

  /** The lines of text and the page text, from the extractor or from the listener's lines. */
  function PageText(params: PdfParameters, source: PageSource, listener: L.Listener): (r: (seq<LineModel>, seq<string>, string))
    ensures params.useTextExtractor ==>
      r == (listener.lines, TextLinesFromText(source.extractorText), source.extractorText)
    ensures !params.useTextExtractor ==>
      && multiset(r.0) == multiset(listener.lines) && Sorted(r.0, ReadingOrder)
      && r.1 == TextsOf(r.0) && r.2 == TextFromTextLines(r.1)
  {
    if params.useTextExtractor then
      (listener.lines, TextLinesFromText(source.extractorText), source.extractorText)
    else
      var (lines, texts) := TextLinesFromLines(listener.lines, true);
      (lines, texts, TextFromTextLines(texts))
  }

  /** A page builder result that a document may keep: a counted page has text fonts and margins. */
  predicate WellFormedPart(part: DocumentPart) {
    && (part.page.noOfTextChars != 0 ==> part.page.textFonts.Some? && part.page.margin.Some?)
    && (part.page.textFonts.Some? ==>
          part.page.noOfTextChars == L.TotalChars(part.page.textFonts.value) && Sorted(part.page.textFonts.value, ByName))
  }

  /**
    getDocumentPart. A page whose pre-scan cannot parse is skipped. Without
    the text extractor a page with no text event fails, since its line list
    is still null when it is sorted.
   */
  function GetDocumentPart(params: PdfParameters, env: Environment, source: PageSource, pageNumber: int): (r: PartOutcome)
    ensures r.Skipped? <==> !source.contentReadable
    ensures r.Built? ==> WellFormedPart(r.part)
  {
    if !source.contentReadable then Skipped
    else
      var st := SettingsFor(params, env, source, pageNumber);
      var listener := L.Run(st, source.events);
      if !params.useTextExtractor && !listener.started then Failed
      else
        var (lines, linesOfText, pageText) := PageText(params, source, listener);
        var part := ProcessDocumentPart(env, source, pageNumber, listener, lines, linesOfText, pageText);
        if part.Built? then
          var page := InitOutput(part.part.page);
          if page.Some? then Built(part.part.(page := page.value)) else Failed
        else part
  }

  /** Without the text extractor, a page with no text event fails the page builder. */
  lemma NoTextFailsWithoutExtractor(params: PdfParameters, env: Environment, source: PageSource, pageNumber: int)
    requires source.contentReadable && !params.useTextExtractor
    requires |Pre.TextChunks(source.events)| == 0
    ensures GetDocumentPart(params, env, source, pageNumber) == Failed
  {
    L.RunStarted(SettingsFor(params, env, source, pageNumber), source.events);
  }

  /**
    A readable page whose chunks are all unmeasured (no ascent recorded), and
    which has a text event or uses the extractor, becomes a geometry page:
    the page rectangle's size, the images of its image events, no headings.
   */
  lemma UnmeasuredPageIsGeometry(params: PdfParameters, env: Environment, source: PageSource, pageNumber: int)
    requires source.contentReadable
    requires params.useTextExtractor || |Pre.TextChunks(source.events)| > 0
    requires L.MeasuredCount(SettingsFor(params, env, source, pageNumber), Pre.TextChunks(source.events)) == 0
    ensures GetDocumentPart(params, env, source, pageNumber)
      == Built(DocumentPart(GeometryPage(source.pageRect.width, source.pageRect.height, L.ImagesOf(source.events)), []))
  {
    var st := SettingsFor(params, env, source, pageNumber);
    L.RunStarted(st, source.events);
    L.RunMeasured(st, source.events);
    L.RunImages(st, source.events);
  }

  /**
    A readable page with a measured chunk becomes a text page or fails; built,
    it carries the page number, margins, the text fonts sorted by name with
    their character total, and the images of its image events.
   */
  lemma MeasuredPageIsText(params: PdfParameters, env: Environment, source: PageSource, pageNumber: int)
    requires source.contentReadable
    requires L.MeasuredCount(SettingsFor(params, env, source, pageNumber), Pre.TextChunks(source.events)) > 0
    ensures var r := GetDocumentPart(params, env, source, pageNumber);
      r.Built? ==>
        && r.part.page.pageNumber == pageNumber
        && r.part.page.margin.Some? && r.part.page.textFonts.Some?
        && r.part.page.images == L.ImagesOf(source.events)
        && |r.part.page.lines| > 0
  {
    var st := SettingsFor(params, env, source, pageNumber);
    L.RunMeasured(st, source.events);
    L.RunImages(st, source.events);
  }

  /** A page whose margin finder saw no text fails once a chunk is measured. */
  lemma MeasuredPageWithoutTextRectFails(params: PdfParameters, env: Environment, source: PageSource, pageNumber: int)
    requires source.contentReadable && source.textRect.None?
    requires L.MeasuredCount(SettingsFor(params, env, source, pageNumber), Pre.TextChunks(source.events)) > 0
    ensures GetDocumentPart(params, env, source, pageNumber) == Failed
  {
    var st := SettingsFor(params, env, source, pageNumber);
    L.RunMeasured(st, source.events);
  }
}

=== FILE: pdf_utils.dfy ===
/**
  The pure helpers of the PDF layout engine: the font-size correction, the
  heading test, margins, the reading-order sort of lines, the page text split
  and join, the font and URL merges, the predominant leading and font, and the
  small string helpers.
 */
module PdfUtils {
  import opened Common
  import opened Sorting
  import opened Constants
  import opened Model

  // ---------------------------------------------------------------------------
  // Effective font size

  /**
    getFontSize: the text-matrix scale, corrected in sequence. A text-matrix
    scale that rounds to at most 1 is replaced by the Tf operand, and, when that
    also rounds to at most 1, by the text matrix's shear entry. A CTM scale in
    (0, 1] is then applied as a multiplier; when the CTM's two diagonal entries
    agree and the text matrix was not used, the multiplier is the text-matrix
    scale instead. The test on the CTM uses its original value.
   */
  function FontSize(m: FontMatrices): (r: real)
    ensures Round(m.tmA) > 1 ==>
      r == (if 0.0 < m.ctmA <= 1.0 then m.ctmA * m.tmA else m.tmA)
    ensures Round(m.tmA) <= 1 && Round(m.tf) > 1 ==>
      r == (if 0.0 < m.ctmA <= 1.0 then (if m.ctmA == m.ctmD then m.tmA else m.ctmA) * m.tf else m.tf)
    ensures Round(m.tmA) <= 1 && Round(m.tf) <= 1 ==>
      r == (if 0.0 < m.ctmA <= 1.0 then (if m.ctmA == m.ctmD then m.tmA else m.ctmA) * m.tmB else m.tmB)
  {
    var size0 := m.tmA;
    var multiplier := if m.ctmA == m.ctmD && Round(size0) <= 1 then size0 else m.ctmA;
    var size1 := if Round(size0) <= 1 then m.tf else size0;
    var size2 := if Round(size1) <= 1 then m.tmB else size1;
    if 0.0 < m.ctmA && m.ctmA <= 1.0 then multiplier * size2 else size2
  }

  // ---------------------------------------------------------------------------
  // Headings and words

  /** The maximal runs of non-\s characters, in order. */
  function Words(s: string): (r: seq<string>)
    ensures forall i :: 0 <= i < |r| ==> r[i] != "" && forall j :: 0 <= j < |r[i]| ==> !IsRegexSpace(r[i][j])
    decreases |s|
  {
    if |s| == 0 then []
    else if IsRegexSpace(s[0]) then Words(s[1..])
    else
      var w := WordAt(s);
      [w] + Words(s[|w|..])
  }

  /** The run of non-\s characters that starts `s`. */
  function WordAt(s: string): (r: string)
    ensures |r| <= |s| && r == s[..|r|]
    ensures forall j :: 0 <= j < |r| ==> !IsRegexSpace(r[j])
    ensures |r| == |s| || IsRegexSpace(s[|r|])
  {
    if |s| == 0 || IsRegexSpace(s[0]) then "" else [s[0]] + WordAt(s[1..])
  }

  /** The characters of `s` that are not \s, in order. */
  function NonSpaces(s: string): string {
    if |s| == 0 then ""
    else (if IsRegexSpace(s[0]) then "" else [s[0]]) + NonSpaces(s[1..])
  }

  function Concat(xs: seq<string>): string {
    if |xs| == 0 then "" else xs[0] + Concat(xs[1..])
  }

  lemma {:induction false} NonSpacesOfWord(w: string)
    requires forall j :: 0 <= j < |w| ==> !IsRegexSpace(w[j])
    ensures NonSpaces(w) == w
    decreases |w|
  {
    if |w| > 0 {
      NonSpacesOfWord(w[1..]);
    }
  }

  lemma {:induction false} NonSpacesAppend(a: string, b: string)
    ensures NonSpaces(a + b) == NonSpaces(a) + NonSpaces(b)
    decreases |a|
  {
    if |a| > 0 {
      assert (a + b)[1..] == a[1..] + b;
      NonSpacesAppend(a[1..], b);
    } else {
      assert a + b == b;
    }
  }

  /** The words hold every non-\s character of the text, in order, and nothing else. */
  lemma {:induction false} WordsCoverText(s: string)
    ensures Concat(Words(s)) == NonSpaces(s)
    decreases |s|
  {
    if |s| > 0 {
      if IsRegexSpace(s[0]) {
        WordsCoverText(s[1..]);
      } else {
        var w := WordAt(s);
        WordsCoverText(s[|w|..]);
        NonSpacesOfWord(w);
        assert s == w + s[|w|..];
        NonSpacesAppend(w, s[|w|..]);
      }
    }
  }

  /** getWordCount: the number of \s-separated words of the trimmed text; 0 when it is blank. */
  function WordCount(text: string): (r: nat)
    ensures Trim(text) == "" ==> r == 0
  {
    var t := Trim(text);
    if t == "" then 0 else |Words(t)|
  }

  /** A blank text has no words; any other text has at least one. */
  lemma WordCountZeroIffBlank(text: string)
    ensures WordCount(text) == 0 <==> IsBlank(text)
  {
    TrimEmptyIffBlank(text);
    var t := Trim(text);
    if t != "" {
      // a trimmed text starts with a code point above U+0020, which is no \s
      assert !IsRegexSpace(t[0]);
      assert Words(t) == [WordAt(t)] + Words(t[|WordAt(t)|..]);
    }
  }

  /** The text the heading test inspects: trimmed, with every ':' deleted. */
  function HeadingCandidate(text: string): string {
    RemoveChar(Trim(text), HeadingCharExclude)
  }

  /** The end of a match of ([a-zA-Z][^\\s]*) whose letter is at `start`: the class excludes '\' and 's'. */
  function MatchEnd(s: string, i: nat): (e: nat)
    requires i <= |s|
    ensures i <= e <= |s|
    decreases |s| - i
  {
    if i < |s| && s[i] != '\\' && s[i] != 's' then MatchEnd(s, i + 1) else i
  }

  /** The successive matches [start, end) that Matcher.find reports, searching from `from`. */
  function HeadingMatches(s: string, from: nat): (r: seq<(nat, nat)>)
    requires from <= |s|
    ensures forall k :: 0 <= k < |r| ==> from <= r[k].0 < r[k].1 <= |s| && IsAsciiLetter(s[r[k].0])
    decreases |s| - from
  {
    if from == |s| then []
    else if IsAsciiLetter(s[from]) then
      var e := MatchEnd(s, from + 1);
      [(from, e)] + HeadingMatches(s, e)
    else HeadingMatches(s, from + 1)
  }

  /**
    isHeading: some match has a non-empty matched text and the candidate has at
    most ten words.
   */
  predicate IsHeading(text: string) {
    var m := HeadingCandidate(text);
    var matches := HeadingMatches(m, 0);
    (exists k :: 0 <= k < |matches| && matches[k].1 > matches[k].0) && WordCount(m) <= HeadingMaxWordCount
  }

  predicate HasAsciiLetter(s: string) {
    exists i :: 0 <= i < |s| && IsAsciiLetter(s[i])
  }

  lemma {:induction false} MatchesIffLetter(s: string, from: nat)
    requires from <= |s|
    ensures |HeadingMatches(s, from)| > 0 <==> exists i :: from <= i < |s| && IsAsciiLetter(s[i])
    decreases |s| - from
  {
    if from < |s| && !IsAsciiLetter(s[from]) {
      MatchesIffLetter(s, from + 1);
      assert forall i :: from <= i < |s| && IsAsciiLetter(s[i]) ==> from + 1 <= i;
    }
  }

  /**
    The heading test reduces to: after trimming and deleting ':', the text has
    an ASCII letter and at most ten words. The class [^\\s] after the letter
    never changes the outcome.
   */
  lemma IsHeadingIff(text: string)
    ensures IsHeading(text) <==>
      HasAsciiLetter(HeadingCandidate(text)) && WordCount(HeadingCandidate(text)) <= HeadingMaxWordCount
  {
    var m := HeadingCandidate(text);
    MatchesIffLetter(m, 0);
    var matches := HeadingMatches(m, 0);
    if |matches| > 0 {
      assert matches[0].1 > matches[0].0;
    }
  }

  // ---------------------------------------------------------------------------
  // Margins

  /**
    processResource: a page with the page rectangle's size and margins from the
    text rectangle. The top margin is corrected upwards by the top line spacing
    when that is positive; the bottom margin is the lowest baseline.
   */
  function ProcessResource(textRect: Rect, pageRect: Rect, topLineSpacing: real, lastBottomY: real): (p: PageModel)
    ensures p.width == pageRect.width && p.height == pageRect.height
    ensures p.margin.Some?
    ensures p.margin.value.left == textRect.left
    ensures p.margin.value.right == Abs(pageRect.width - textRect.Right())
    ensures p.margin.value.top == Abs(pageRect.height - textRect.Top()) + Max(0.0, topLineSpacing)
    ensures p.margin.value.top >= Abs(pageRect.height - textRect.Top())
    ensures p.margin.value.bottom == lastBottomY
  {
    var rightMargin := pageRect.width - textRect.Right();
    var topMargin := Abs(pageRect.height - textRect.Top());
    var corrected := topMargin + topLineSpacing;
    var top := if topMargin < corrected then corrected else topMargin;
    var margin := MarginModel(textRect.left, Abs(rightMargin), top, lastBottomY);
    PageModel(0, pageRect.width, pageRect.height, Some(margin), [], None, [], [], [], [], 0, 0, [], [], None)
  }

  function Abs(x: real): (r: real)
    ensures r >= 0.0 && (r == x || r == -x)
  {
    if x < 0.0 then -x else x
  }

  function Max(a: real, b: real): (r: real)
    ensures r >= a && r >= b && (r == a || r == b)
  {
    if a < b then b else a
  }

  // ---------------------------------------------------------------------------
  // Reading order of lines

  /** The line comparator: column block ascending, then lower Y descending (top of the page first). */
  predicate ReadingOrder(a: LineModel, b: LineModel) {
    a.colBlockNo < b.colBlockNo || (a.colBlockNo == b.colBlockNo && a.lowerY >= b.lowerY)
  }

  lemma ReadingOrderIsTotalPreorder()
    ensures TotalPreorder(ReadingOrder)
  {
  }

  /**
    getTextLinesFromLines: the lines reordered (in place, so the caller sees
    the new order) and their texts. With sorting on, the order is a stable
    sort by reading order.
   */
  function TextLinesFromLines(lines: seq<LineModel>, sortByPosition: bool): (r: (seq<LineModel>, seq<string>))
    ensures multiset(r.0) == multiset(lines)
    ensures !sortByPosition ==> r.0 == lines
    ensures sortByPosition ==> Sorted(r.0, ReadingOrder)
    ensures |r.1| == |r.0| && forall i :: 0 <= i < |r.0| ==> r.1[i] == r.0[i].text
  {
    if sortByPosition then
      ReadingOrderIsTotalPreorder();
      SortSorted(lines, ReadingOrder);
      var ordered := Sort(lines, ReadingOrder);
      (ordered, TextsOf(ordered))
    else (lines, TextsOf(lines))
  }

  function TextsOf(lines: seq<LineModel>): (r: seq<string>)
    ensures |r| == |lines| && forall i :: 0 <= i < |lines| ==> r[i] == lines[i].text
  {
    seq(|lines|, i requires 0 <= i < |lines| => lines[i].text)
  }

  /** Lines that tie in the comparator keep their relative order. */
  lemma TextLinesFromLinesStable(lines: seq<LineModel>, x: LineModel)
    ensures EquivalentTo(TextLinesFromLines(lines, true).0, x, ReadingOrder) == EquivalentTo(lines, x, ReadingOrder)
  {
    ReadingOrderIsTotalPreorder();
    SortStable(lines, x, ReadingOrder);
  }

  // ---------------------------------------------------------------------------
  // Page text

  /** getTextLinesFromText: empty text has no lines; otherwise split on '\n', trailing empty pieces dropped. */
  function TextLinesFromText(text: string): (r: seq<string>)
    ensures forall i :: 0 <= i < |r| ==> TextLineSeparator !in r[i]
    ensures |r| == 0 || r[|r| - 1] != ""
  {
    if text == "" then [] else DropTrailingEmpty(SplitOn(text, TextLineSeparator))
  }

  /** getTextFromTextLines: the lines joined with '\n'; empty for no lines. */
  function TextFromTextLines(lines: seq<string>): string {
    if |lines| == 0 then "" else JoinWith(lines, TextLineSeparator)
  }

  /** Joining and splitting again gives back lines that hold no '\n' and do not end in an empty line. */
  lemma TextLinesRoundTrip(lines: seq<string>)
    requires forall i :: 0 <= i < |lines| ==> TextLineSeparator !in lines[i]
    requires |lines| == 0 || lines[|lines| - 1] != ""
    ensures TextLinesFromText(TextFromTextLines(lines)) == lines
  {
    if |lines| > 0 {
      SplitOnJoin(lines, TextLineSeparator);
      assert JoinWith(lines, TextLineSeparator) != "" by {
        JoinLength(lines, TextLineSeparator);
      }
    }
  }

  lemma {:induction false} JoinLength(xs: seq<string>, sep: char)
    requires |xs| > 0
    ensures |JoinWith(xs, sep)| >= |xs[|xs| - 1]| + |xs| - 1
    decreases |xs|
  {
    if |xs| > 1 {
      JoinLength(xs[1..], sep);
    }
  }

  lemma {:induction false} JoinSplitOn(s: string, sep: char)
    ensures JoinWith(SplitOn(s, sep), sep) == s
    decreases |s|
  {
    var k := IndexOfChar(s, sep);
    if k != -1 {
      JoinSplitOn(s[k + 1..], sep);
      JoinCons(s[..k], SplitOn(s[k + 1..], sep), sep);
      assert s == s[..k] + [sep] + s[k + 1..];
    }
  }

  /** Joining a piece in front of at least one more puts the separator between them. */
  lemma JoinCons(x: string, rest: seq<string>, sep: char)
    requires |rest| >= 1
    ensures JoinWith([x] + rest, sep) == x + [sep] + JoinWith(rest, sep)
  {
    assert ([x] + rest)[1..] == rest;
  }

  lemma {:induction false} SplitOnLast(s: string, sep: char)
    requires |s| > 0 && s[|s| - 1] != sep
    ensures var r := SplitOn(s, sep); r[|r| - 1] != ""
    decreases |s|
  {
    var k := IndexOfChar(s, sep);
    if k != -1 {
      assert k < |s| - 1;
      SplitOnLast(s[k + 1..], sep);
    }
  }

  /** Splitting and joining again gives back any text that does not end in '\n'. */
  lemma TextRoundTrip(text: string)
    requires text == "" || text[|text| - 1] != TextLineSeparator
    ensures TextFromTextLines(TextLinesFromText(text)) == text
  {
    if text != "" {
      SplitOnLast(text, TextLineSeparator);
      JoinSplitOn(text, TextLineSeparator);
    }
  }

  // ---------------------------------------------------------------------------
  // Fonts that are declared but never used for text

  /** Font names compare trimmed and ignoring case. */
  predicate NamesMatch(a: string, b: string) {
    EqualsIgnoreCase(Trim(a), Trim(b))
  }

  predicate UsedBy(font: FontModel, textFonts: seq<FontModel>) {
    exists t :: t in textFonts && NamesMatch(t.key.name, font.key.name)
  }

  predicate HasName(fonts: seq<FontModel>, name: string) {
    exists f :: f in fonts && f.key.name == name
  }

  /**
    The loop of getUnusedFonts for any notion of "used": the declared fonts
    that are not used, first of each exact name only.
   */
  function UnusedFontsBy(allFonts: seq<FontModel>, used: FontModel -> bool): (r: seq<FontModel>)
    ensures UnusedFontsOf(r, allFonts, used)
    decreases |allFonts|
  {
    if |allFonts| == 0 then []
    else
      var font := allFonts[|allFonts| - 1];
      var prefix := UnusedFontsBy(allFonts[..|allFonts| - 1], used);
      UnusedFontsStep(allFonts, prefix, used);
      if !used(font) && !HasName(prefix, font.key.name) then prefix + [font] else prefix
  }

  /**
    What getUnusedFonts promises of its result `r` over the declared fonts:
    an order-preserving selection of unused fonts, no two of one name, with
    every unused declared font represented by its name.
   */
  predicate UnusedFontsOf(r: seq<FontModel>, allFonts: seq<FontModel>, used: FontModel -> bool) {
    && IsSubsequence(r, allFonts)
    && (forall f :: f in r ==> !used(f))
    && (forall i, j :: 0 <= i < j < |r| ==> r[i].key.name != r[j].key.name)
    && (forall f :: f in allFonts && !used(f) ==> HasName(r, f.key.name))
  }

  /** One more declared font: it is kept when unused and its name is not yet represented. */
  lemma UnusedFontsStep(allFonts: seq<FontModel>, prefix: seq<FontModel>, used: FontModel -> bool)
    requires |allFonts| > 0 && UnusedFontsOf(prefix, allFonts[..|allFonts| - 1], used)
    ensures var font := allFonts[|allFonts| - 1];
      UnusedFontsOf(if !used(font) && !HasName(prefix, font.key.name) then prefix + [font] else prefix, allFonts, used)
  {
    var font := allFonts[|allFonts| - 1];
    var init := allFonts[..|allFonts| - 1];
    var keep := !used(font) && !HasName(prefix, font.key.name);
    assert allFonts == init + [font];
    assert forall f :: f in allFonts ==> f in init || f == font;
    SubsequenceAppend(prefix, init, font, keep);
    if keep {
      var r := prefix + [font];
      assert r[|prefix|] == font;
      assert forall n :: HasName(prefix, n) ==> HasName(r, n);
    }
  }

  /**
    getUnusedFonts: the declared fonts whose trimmed name matches no text
    font's trimmed name ignoring case; no two share a name, and every unused
    declared font is represented by one of its name.
   */
  function UnusedFonts(textFonts: seq<FontModel>, allFonts: seq<FontModel>): (r: seq<FontModel>)
    ensures IsSubsequence(r, allFonts)
    ensures forall f :: f in r ==> !UsedBy(f, textFonts)
    ensures forall i, j :: 0 <= i < j < |r| ==> r[i].key.name != r[j].key.name
    ensures forall f :: f in allFonts && !UsedBy(f, textFonts) ==> HasName(r, f.key.name)
  {
    UnusedFontsBy(allFonts, (f: FontModel) => UsedBy(f, textFonts))
  }

  // ---------------------------------------------------------------------------
  // URLs

  /**
    correctUrlList: the annotation URLs, followed by each text URL whose
    trimmed form is not yet in the list, untrimmed.
   */
  function CorrectUrlList(urls: seq<string>, textUrls: seq<string>): (r: seq<string>)
    ensures |r| >= |urls| && r[..|urls|] == urls
    ensures IsSubsequence(r[|urls|..], textUrls)
    ensures forall u :: u in textUrls ==> u in r || Trim(u) in r
    decreases |textUrls|
  {
    if |textUrls| == 0 then
      assert r_empty: urls[|urls|..] == [];
      urls
    else
      var u := textUrls[|textUrls| - 1];
      var prefix := CorrectUrlList(urls, textUrls[..|textUrls| - 1]);
      var keep := Trim(u) !in prefix;
      var r := if keep then prefix + [u] else prefix;
      assert textUrls == textUrls[..|textUrls| - 1] + [u];
      assert r[|urls|..] == (if keep then prefix[|urls|..] + [u] else prefix[|urls|..]);
      SubsequenceAppend(prefix[|urls|..], textUrls[..|textUrls| - 1], u, keep);
      r
  }

  /**
    The text URLs skip duplicates: no appended URL's trimmed form is already
    in the list before it, and a text URL is appended whenever its trimmed
    form occurs neither in the annotation URLs nor among the earlier text URLs.
   */
  lemma {:induction false} CorrectUrlListSkipsDuplicates(urls: seq<string>, textUrls: seq<string>)
    ensures UrlsFromTextUrls(CorrectUrlList(urls, textUrls), urls, textUrls)
    ensures AppendedKeysNew(CorrectUrlList(urls, textUrls), |urls|, Trim)
    ensures FreshKeysAppended(CorrectUrlList(urls, textUrls), urls, textUrls, Trim)
    decreases |textUrls|
  {
    if |textUrls| == 0 {
      assert CorrectUrlList(urls, textUrls)[|urls|..] == [];
    } else {
      var u := textUrls[|textUrls| - 1];
      var front := textUrls[..|textUrls| - 1];
      var prefix := CorrectUrlList(urls, front);
      CorrectUrlListSkipsDuplicates(urls, front);
      var keep := CorrectUrlListUnfold(urls, textUrls);
      UrlStepKeepsDistinct(prefix, u, keep, |urls|, Trim);
      UrlStepKeepsFresh(urls, textUrls, prefix, keep, Trim);
    }
  }

  /** One step of correctUrlList: the last text URL is appended exactly when its trimmed form is not yet listed. */
  lemma CorrectUrlListUnfold(urls: seq<string>, textUrls: seq<string>) returns (keep: bool)
    requires |textUrls| > 0
    ensures var u := textUrls[|textUrls| - 1];
      var prefix := CorrectUrlList(urls, textUrls[..|textUrls| - 1]);
      && (keep <==> Trim(u) !in prefix)
      && CorrectUrlList(urls, textUrls) == if keep then prefix + [u] else prefix
  {
    keep := Trim(textUrls[|textUrls| - 1]) !in CorrectUrlList(urls, textUrls[..|textUrls| - 1]);
  }

  /** Everything after the first `n` entries of `r` comes from the text URLs. */
  predicate UrlsFromTextUrls(r: seq<string>, urls: seq<string>, textUrls: seq<string>)
    requires |urls| <= |r|
  {
    forall x :: x in r[|urls|..] ==> x in textUrls
  }

  /** No entry after the first `n` has its key among the entries before it. */
  predicate AppendedKeysNew(r: seq<string>, n: nat, key: string -> string)
    requires n <= |r|
  {
    forall k :: n <= k < |r| ==> key(r[k]) !in r[..k]
  }

  /** Every text URL whose key is neither a listed URL nor an earlier text URL is appended. */
  predicate FreshKeysAppended(r: seq<string>, urls: seq<string>, textUrls: seq<string>, key: string -> string)
    requires |urls| <= |r|
  {
    forall j :: 0 <= j < |textUrls| && key(textUrls[j]) !in urls + textUrls[..j] ==> textUrls[j] in r[|urls|..]
  }

  /** Appending a URL whose key is not in the list keeps every appended URL's key new. */
  lemma UrlStepKeepsDistinct(prefix: seq<string>, u: string, keep: bool, n: nat, key: string -> string)
    requires n <= |prefix|
    requires AppendedKeysNew(prefix, n, key)
    requires keep ==> key(u) !in prefix
    ensures AppendedKeysNew(if keep then prefix + [u] else prefix, n, key)
  {
    if keep {
      var r := prefix + [u];
      assert r[..|prefix|] == prefix;
      forall k | n <= k < |prefix| ensures key(r[k]) !in r[..k] {
        assert r[..k] == prefix[..k];
      }
    }
  }

  /** A text URL whose key occurs neither in the list nor among the earlier text URLs is appended. */
  lemma UrlStepKeepsFresh(urls: seq<string>, textUrls: seq<string>, prefix: seq<string>, keep: bool,
                          key: string -> string)
    requires |textUrls| > 0
    requires |prefix| >= |urls| && prefix[..|urls|] == urls
    requires UrlsFromTextUrls(prefix, urls, textUrls[..|textUrls| - 1])
    requires FreshKeysAppended(prefix, urls, textUrls[..|textUrls| - 1], key)
    requires keep <==> key(textUrls[|textUrls| - 1]) !in prefix
    ensures UrlsFromTextUrls(if keep then prefix + [textUrls[|textUrls| - 1]] else prefix, urls, textUrls)
    ensures FreshKeysAppended(if keep then prefix + [textUrls[|textUrls| - 1]] else prefix, urls, textUrls, key)
  {
    var front := textUrls[..|textUrls| - 1];
    var u := textUrls[|textUrls| - 1];
    assert textUrls == front + [u];
    var r := if keep then prefix + [u] else prefix;
    assert r[|urls|..] == (if keep then prefix[|urls|..] + [u] else prefix[|urls|..]);
    forall j | 0 <= j < |textUrls| && key(textUrls[j]) !in urls + textUrls[..j]
      ensures textUrls[j] in r[|urls|..]
    {
      if j < |front| {
        assert textUrls[..j] == front[..j];
      } else {
        assert textUrls[..j] == front;
        assert prefix == urls + prefix[|urls|..];
      }
    }
  }

  // ---------------------------------------------------------------------------
  // Predominant leading

  /**
    Collections.frequency of a LineModel carrying only leading `v` among the
    lines; `matches` stands for LineModel equality, which lives outside this
    code base.
   */
  function Frequency(lines: seq<LineModel>, v: real, matches: (LineModel, real) -> bool): (r: nat)
    ensures r <= |lines|
  {
    if |lines| == 0 then 0
    else Frequency(lines[..|lines| - 1], v, matches) + (if matches(lines[|lines| - 1], v) then 1 else 0)
  }

  /** The greatest frequency among the values; 0 when there are none. */
  function MaxFrequency(values: seq<real>, lines: seq<LineModel>, matches: (LineModel, real) -> bool): (m: nat)
    ensures forall v :: v in values ==> Frequency(lines, v, matches) <= m
    ensures |values| > 0 ==> exists v :: v in values && Frequency(lines, v, matches) == m
  {
    if |values| == 0 then 0
    else
      var rest := MaxFrequency(values[1..], lines, matches);
      var f := Frequency(lines, values[0], matches);
      assert forall v :: v in values ==> v == values[0] || v in values[1..];
      if f >= rest then f else rest
  }

  /** The values of `values` whose frequency is `max`, first occurrences only, appended to `acc`. */
  function ModesFrom(values: seq<real>, lines: seq<LineModel>, matches: (LineModel, real) -> bool, max: nat, acc: seq<real>): (r: seq<real>)
    requires Distinct(acc)
    ensures Distinct(r)
    ensures forall v :: v in r <==> v in acc || (v in values && Frequency(lines, v, matches) == max)
  {
    if |values| == 0 then acc
    else
      var v := values[0];
      var next := if Frequency(lines, v, matches) == max && v !in acc then acc + [v] else acc;
      assert forall w :: w in values <==> w == v || w in values[1..];
      ModesFrom(values[1..], lines, matches, max, next)
  }

  /** A list in the order `order` gives it, as long as that order is a rearrangement of the list. */
  function ArrangeBy(xs: seq<real>, order: seq<real> -> seq<real>): (r: seq<real>)
    ensures multiset(r) == multiset(xs)
  {
    var ys := order(xs);
    if multiset(ys) == multiset(xs) then ys else xs
  }

  lemma DistinctByMultiset(xs: seq<real>, ys: seq<real>)
    requires multiset(xs) == multiset(ys)
    requires Distinct(xs)
    ensures Distinct(ys)
  {
    forall i, j | 0 <= i < j < |ys|
      ensures ys[i] != ys[j]
    {
      if ys[i] == ys[j] {
        var v := ys[i];
        assert multiset(ys)[v] >= 2 by {
          assert ys == ys[..i] + [v] + ys[i + 1..j] + [v] + ys[j + 1..];
        }
        DistinctCount(xs, v);
      }
    }
  }

  lemma {:induction false} DistinctCount(xs: seq<real>, v: real)
    requires Distinct(xs)
    ensures multiset(xs)[v] <= 1
    decreases |xs|
  {
    if |xs| > 0 {
      DistinctCount(xs[1..], v);
      assert xs == [xs[0]] + xs[1..];
      if xs[0] == v {
        assert v !in xs[1..];
      }
    }
  }

  /**
    getPredominantLeading: every leading value whose line frequency is the
    greatest, each once. The values sit in a hash multimap, so their order is
    the hash order, supplied as `order`.
   */
  function PredominantLeading(values: seq<real>, lines: seq<LineModel>, matches: (LineModel, real) -> bool,
                              order: seq<real> -> seq<real>): (r: seq<real>)
    ensures Distinct(r)
    ensures forall v :: v in r <==> v in values && Frequency(lines, v, matches) == MaxFrequency(values, lines, matches)
    ensures |values| > 0 <==> |r| > 0
  {
    var sorted := Sort(values, (a: real, b: real) => a <= b);
    assert forall v :: v in sorted <==> v in values by {
      assert forall v :: v in sorted <==> v in multiset(sorted);
      assert forall v :: v in values <==> v in multiset(values);
    }
    var max := MaxFrequency(values, lines, matches);
    var modes := ModesFrom(sorted, lines, matches, max, []);
    var r := ArrangeBy(modes, order);
    assert forall v :: v in r <==> v in modes by {
      assert forall v :: v in r <==> v in multiset(r);
      assert forall v :: v in modes <==> v in multiset(modes);
    }
    DistinctByMultiset(modes, r);
    r
  }

  // ---------------------------------------------------------------------------
  // Predominant font

  /** The line sets its font as predominant: its leading is the first predominant leading. */
  predicate SetsPredominant(line: LineModel, leadingValues: seq<real>) {
    |leadingValues| > 0 && line.leading == leadingValues[0] && line.font.Some?
  }

  function IndexOfKey(fonts: seq<FontModel>, key: FontKey): (i: int)
    ensures -1 <= i < |fonts|
    ensures i >= 0 ==> fonts[i].key == key
    ensures i == -1 <==> forall j :: 0 <= j < |fonts| ==> fonts[j].key != key
  {
    if |fonts| == 0 then -1
    else if fonts[0].key == key then 0
    else
      var i := IndexOfKey(fonts[1..], key);
      assert forall j :: 1 <= j < |fonts| ==> fonts[j] == fonts[1..][j - 1];
      if i == -1 then -1 else i + 1
  }

  /** The keys present in a font list. */
  function KeySet(fonts: seq<FontModel>): set<FontKey> {
    set i | 0 <= i < |fonts| :: fonts[i].key
  }

  /** The keys of the fonts marked predominant. */
  function MarkedKeys(fonts: seq<FontModel>): set<FontKey> {
    set i | 0 <= i < |fonts| && fonts[i].predominant :: fonts[i].key
  }

  /** The fonts with the predominant flag cleared: everything else about them. */
  function Cleared(fonts: seq<FontModel>): (r: seq<FontModel>)
    ensures |r| == |fonts| && forall i :: 0 <= i < |fonts| ==> r[i] == fonts[i].(predominant := false)
  {
    seq(|fonts|, i requires 0 <= i < |fonts| => fonts[i].(predominant := false))
  }

  /** The keys of the lines that carry the first predominant leading. */
  function PredominantLineKeys(lines: seq<LineModel>, leadingValues: seq<real>): set<FontKey> {
    set i | 0 <= i < |lines| && SetsPredominant(lines[i], leadingValues) :: lines[i].font.value
  }

  /** No two fonts of the list are equal as FontModels. */
  predicate DistinctKeys(fonts: seq<FontModel>) {
    forall i, j :: 0 <= i < j < |fonts| ==> fonts[i].key != fonts[j].key
  }

  /** List.remove of the entry at `i` followed by List.add of its updated form: the entry moves to the end. */
  function MoveToEnd(fonts: seq<FontModel>, i: nat, updated: FontModel): (r: seq<FontModel>)
    requires i < |fonts|
    ensures |r| == |fonts|
  {
    fonts[..i] + fonts[i + 1..] + [updated]
  }

  /** Moving an entry keeps the set of keys, and keeps them distinct. */
  lemma MoveToEndKeys(fonts: seq<FontModel>, i: nat, updated: FontModel)
    requires i < |fonts| && updated.key == fonts[i].key
    ensures KeySet(MoveToEnd(fonts, i, updated)) == KeySet(fonts)
    ensures DistinctKeys(fonts) ==> DistinctKeys(MoveToEnd(fonts, i, updated))
    ensures MoveToEnd(fonts, i, updated)[|fonts| - 1] == updated
  {
    var r := MoveToEnd(fonts, i, updated);
    assert forall j :: 0 <= j < i ==> r[j] == fonts[j];
    assert forall j :: i <= j < |r| - 1 ==> r[j] == fonts[j + 1];
    forall k | k in KeySet(fonts)
      ensures k in KeySet(r)
    {
      var j :| 0 <= j < |fonts| && fonts[j].key == k;
      if j < i {
        assert r[j].key == k;
      } else if j == i {
        assert r[|r| - 1].key == k;
      } else {
        assert r[j - 1].key == k;
      }
    }
    if DistinctKeys(fonts) {
      forall a, b | 0 <= a < b < |r|
        ensures r[a].key != r[b].key
      {
        var fa := if a < i then a else a + 1;
        var fb := if b == |r| - 1 then i else if b < i then b else b + 1;
        assert r[a].key == fonts[fa].key && r[b].key == fonts[fb].key;
        assert fa != fb;
      }
    }
  }

  /** Appending a font adds its key; a new key keeps the keys distinct. */
  lemma AppendKey(fonts: seq<FontModel>, m: FontModel)
    ensures KeySet(fonts + [m]) == KeySet(fonts) + {m.key}
    ensures DistinctKeys(fonts) && m.key !in KeySet(fonts) ==> DistinctKeys(fonts + [m])
  {
    var r := fonts + [m];
    assert r[|fonts|].key == m.key;
    forall k | k in KeySet(fonts) ensures k in KeySet(r) {
      var j :| 0 <= j < |fonts| && fonts[j].key == k;
      assert r[j].key == k;
    }
    if DistinctKeys(fonts) && m.key !in KeySet(fonts) {
      forall a, b | 0 <= a < b < |r| ensures r[a].key != r[b].key {
        if b == |fonts| {
          assert r[a].key == fonts[a].key;
          assert fonts[a].key in KeySet(fonts);
        }
      }
    }
  }

  /** In a list of distinct keys, looking up a member's key finds that member. */
  lemma IndexOfMember(fonts: seq<FontModel>, m: FontModel)
    requires DistinctKeys(fonts) && m in fonts
    ensures IndexOfKey(fonts, m.key) >= 0 && fonts[IndexOfKey(fonts, m.key)] == m
  {
    var j :| 0 <= j < |fonts| && fonts[j] == m;
    var i := IndexOfKey(fonts, m.key);
    assert i >= 0 && fonts[i].key == fonts[j].key;
  }

  /** The font at `i` taken out, marked predominant, and appended (List.remove, then add). */
  function MarkAndMoveToEnd(fonts: seq<FontModel>, i: nat): (r: seq<FontModel>)
    requires i < |fonts|
    ensures |r| == |fonts|
  {
    MoveToEnd(fonts, i, fonts[i].(predominant := true))
  }

  lemma MarkAndMoveToEndEffect(fonts: seq<FontModel>, i: nat)
    requires i < |fonts|
    ensures multiset(Cleared(MarkAndMoveToEnd(fonts, i))) == multiset(Cleared(fonts))
    ensures KeySet(MarkAndMoveToEnd(fonts, i)) == KeySet(fonts)
    ensures MarkedKeys(MarkAndMoveToEnd(fonts, i)) == MarkedKeys(fonts) + {fonts[i].key}
  {
    MoveToEndKeys(fonts, i, fonts[i].(predominant := true));
    MarkAndMoveToEndCleared(fonts, i);
    MarkAndMoveToEndMarked(fonts, i);
  }

  lemma MarkAndMoveToEndCleared(fonts: seq<FontModel>, i: nat)
    requires i < |fonts|
    ensures multiset(Cleared(MarkAndMoveToEnd(fonts, i))) == multiset(Cleared(fonts))
  {
    var r := MoveToEnd(fonts, i, fonts[i].(predominant := true));
    assert Cleared(fonts) == Cleared(fonts[..i]) + [fonts[i].(predominant := false)] + Cleared(fonts[i + 1..]);
    assert Cleared(r) == Cleared(fonts[..i]) + Cleared(fonts[i + 1..]) + [fonts[i].(predominant := false)];
  }

  lemma MarkAndMoveToEndMarked(fonts: seq<FontModel>, i: nat)
    requires i < |fonts|
    ensures MarkedKeys(MarkAndMoveToEnd(fonts, i)) == MarkedKeys(fonts) + {fonts[i].key}
  {
    var r := MoveToEnd(fonts, i, fonts[i].(predominant := true));
    assert forall j :: 0 <= j < i ==> r[j] == fonts[j];
    assert forall j :: i <= j < |r| - 1 ==> r[j] == fonts[j + 1];
    forall k | k in MarkedKeys(fonts)
      ensures k in MarkedKeys(r)
    {
      var j :| 0 <= j < |fonts| && fonts[j].predominant && fonts[j].key == k;
      if j < i {
        assert r[j].key == k && r[j].predominant;
      } else if j == i {
        assert r[|r| - 1].key == k && r[|r| - 1].predominant;
      } else {
        assert r[j - 1].key == k && r[j - 1].predominant;
      }
    }
    assert r[|r| - 1].key == fonts[i].key && r[|r| - 1].predominant;
  }

  lemma PredominantLineKeysCons(lines: seq<LineModel>, leadingValues: seq<real>)
    requires |lines| > 0
    ensures PredominantLineKeys(lines, leadingValues)
         == (if SetsPredominant(lines[0], leadingValues) then {lines[0].font.value} else {})
            + PredominantLineKeys(lines[1..], leadingValues)
  {
    var rest := PredominantLineKeys(lines[1..], leadingValues);
    forall k | k in PredominantLineKeys(lines, leadingValues)
      ensures k in (if SetsPredominant(lines[0], leadingValues) then {lines[0].font.value} else {}) + rest
    {
      var j :| 0 <= j < |lines| && SetsPredominant(lines[j], leadingValues) && lines[j].font.value == k;
      if j > 0 {
        assert lines[1..][j - 1] == lines[j];
      }
    }
    forall k | k in rest
      ensures k in PredominantLineKeys(lines, leadingValues)
    {
      var j :| 0 <= j < |lines[1..]| && SetsPredominant(lines[1..][j], leadingValues) && lines[1..][j].font.value == k;
      assert lines[j + 1] == lines[1..][j];
    }
  }

  /**
    getPredominantFont: in line order, every line that carries the first
    predominant leading and whose font is in the inventory moves that font to
    the end of the inventory, marked predominant.
   */
  function PredominantFont(fonts: seq<FontModel>, lines: seq<LineModel>, leadingValues: seq<real>): (r: seq<FontModel>)
    ensures |r| == |fonts|
    decreases |lines|
  {
    if |lines| == 0 then fonts
    else PredominantFont(MarkLineFont(fonts, lines[0], leadingValues), lines[1..], leadingValues)
  }

  /** The step of getPredominantFont for one line. */
  function MarkLineFont(fonts: seq<FontModel>, line: LineModel, leadingValues: seq<real>): (r: seq<FontModel>)
    ensures |r| == |fonts|
  {
    if SetsPredominant(line, leadingValues) && IndexOfKey(fonts, line.font.value) >= 0
    then MarkAndMoveToEnd(fonts, IndexOfKey(fonts, line.font.value))
    else fonts
  }

  lemma MarkLineFontEffect(fonts: seq<FontModel>, line: LineModel, leadingValues: seq<real>)
    ensures multiset(Cleared(MarkLineFont(fonts, line, leadingValues))) == multiset(Cleared(fonts))
    ensures KeySet(MarkLineFont(fonts, line, leadingValues)) == KeySet(fonts)
    ensures MarkedKeys(MarkLineFont(fonts, line, leadingValues))
         == MarkedKeys(fonts) + ((if SetsPredominant(line, leadingValues) then {line.font.value} else {}) * KeySet(fonts))
  {
    if SetsPredominant(line, leadingValues) && IndexOfKey(fonts, line.font.value) >= 0 {
      MarkLineFontFound(fonts, line, leadingValues);
    } else {
      MarkLineFontMissed(fonts, line, leadingValues);
    }
  }

  lemma MarkLineFontFound(fonts: seq<FontModel>, line: LineModel, leadingValues: seq<real>)
    requires SetsPredominant(line, leadingValues) && IndexOfKey(fonts, line.font.value) >= 0
    ensures multiset(Cleared(MarkLineFont(fonts, line, leadingValues))) == multiset(Cleared(fonts))
    ensures KeySet(MarkLineFont(fonts, line, leadingValues)) == KeySet(fonts)
    ensures MarkedKeys(MarkLineFont(fonts, line, leadingValues)) == MarkedKeys(fonts) + ({line.font.value} * KeySet(fonts))
  {
    var i := IndexOfKey(fonts, line.font.value);
    MarkAndMoveToEndEffect(fonts, i);
    assert fonts[i].key in KeySet(fonts);
    assert {line.font.value} * KeySet(fonts) == {fonts[i].key};
  }

  lemma MarkLineFontMissed(fonts: seq<FontModel>, line: LineModel, leadingValues: seq<real>)
    requires !(SetsPredominant(line, leadingValues) && IndexOfKey(fonts, line.font.value) >= 0)
    ensures MarkLineFont(fonts, line, leadingValues) == fonts
    ensures (if SetsPredominant(line, leadingValues) then {line.font.value} else {}) * KeySet(fonts) == {}
  {
    if SetsPredominant(line, leadingValues) {
      assert line.font.value !in KeySet(fonts);
    }
  }

  /**
    Only the predominant flags change (the fonts are the same up to that flag),
    and the marked keys afterwards are those marked before plus the inventory
    keys of the lines with the first predominant leading.
   */
  lemma {:induction false} PredominantFontEffect(fonts: seq<FontModel>, lines: seq<LineModel>, leadingValues: seq<real>)
    ensures multiset(Cleared(PredominantFont(fonts, lines, leadingValues))) == multiset(Cleared(fonts))
    ensures KeySet(PredominantFont(fonts, lines, leadingValues)) == KeySet(fonts)
    ensures MarkedKeys(PredominantFont(fonts, lines, leadingValues))
         == MarkedKeys(fonts) + (PredominantLineKeys(lines, leadingValues) * KeySet(fonts))
    decreases |lines|
  {
    if |lines| > 0 {
      var next := MarkLineFont(fonts, lines[0], leadingValues);
      assert PredominantFont(fonts, lines, leadingValues) == PredominantFont(next, lines[1..], leadingValues);
      MarkLineFontEffect(fonts, lines[0], leadingValues);
      PredominantFontEffect(next, lines[1..], leadingValues);
      PredominantLineKeysCons(lines, leadingValues);
    }
  }

  // ---------------------------------------------------------------------------
  // Top leading and last Y

  /** getLineSpacing: the leading less the font size, or 0 without a positive leading. */
  function LineSpacing(leading: real, fontSize: real): (r: real)
    ensures leading > 0.0 ==> r + fontSize == leading
    ensures leading <= 0.0 ==> r == 0.0
  {
    if leading > 0.0 then leading - fontSize else 0.0
  }

  /**
    getTopLeading: the line spacing of the first predominant leading over the
    first line's font; 0 without leading values or lines. None when the first
    line carries no font (a null dereference in the source).
   */
  function TopLeading(leadingValues: seq<real>, lines: seq<LineModel>): (r: Option<real>)
    ensures |leadingValues| == 0 || |lines| == 0 ==> r == Some(0.0)
    ensures r.None? <==> |leadingValues| > 0 && |lines| > 0 && lines[0].font.None?
    ensures |leadingValues| > 0 && |lines| > 0 && lines[0].font.Some? ==>
      r == Some(LineSpacing(leadingValues[0], lines[0].font.value.size))
  {
    if |leadingValues| > 0 && |lines| > 0 then
      match lines[0].font
      case None => None
      case Some(f) => Some(LineSpacing(leadingValues[0], f.size))
    else Some(0.0)
  }

  predicate LowerYOrder(a: LineModel, b: LineModel) {
    a.lowerY <= b.lowerY
  }

  /**
    getLastY: the lines sorted in place by lower Y ascending, and the lowest
    lower Y (0 for no lines).
   */
  function LastY(lines: seq<LineModel>): (r: (seq<LineModel>, real))
    ensures multiset(r.0) == multiset(lines)
    ensures Sorted(r.0, LowerYOrder)
    ensures |lines| == 0 ==> r.1 == 0.0
    ensures |lines| > 0 ==> (forall l :: l in lines ==> r.1 <= l.lowerY) && exists l :: l in lines && l.lowerY == r.1
    ensures forall x :: EquivalentTo(r.0, x, LowerYOrder) == EquivalentTo(lines, x, LowerYOrder)
  {
    var sorted := Sort(lines, LowerYOrder);
    assert TotalPreorder(LowerYOrder);
    SortSorted(lines, LowerYOrder);
    forall x ensures EquivalentTo(sorted, x, LowerYOrder) == EquivalentTo(lines, x, LowerYOrder) {
      SortStable(lines, x, LowerYOrder);
    }
    assert forall l :: l in lines <==> l in sorted by {
      assert forall l :: l in lines <==> l in multiset(lines);
      assert forall l :: l in sorted <==> l in multiset(sorted);
    }
    if |sorted| > 0 then
      assert forall l :: l in sorted ==> l == sorted[0] || LowerYOrder(sorted[0], l);
      (sorted, sorted[0].lowerY)
    else (sorted, 0.0)
  }

  /** getColumnsPresent: some line sits in a column block above 1. */
  predicate ColumnsPresent(lines: seq<LineModel>) {
    exists l :: l in lines && l.colBlockNo > 1
  }

  // ---------------------------------------------------------------------------
  // Geometry of consecutive chunks

  /** The cross product's z component of (b - a) and (a - p). */
  function Cross(p: Point, a: Point, b: Point): real {
    (b.x - a.x) * (a.y - p.y) - (b.y - a.y) * (a.x - p.x)
  }

  function LengthSquared(a: Point, b: Point): (r: real)
    ensures r >= 0.0
  {
    (b.x - a.x) * (b.x - a.x) + (b.y - a.y) * (b.y - a.y)
  }

  /**
    getDistance(p, a, b) > bound: the squared distance of `p` from the line
    through `a` and `b` exceeds `bound`. For a == b the source divides 0 by 0;
    the NaN compares false.
   */
  predicate DistanceExceeds(p: Point, a: Point, b: Point, bound: real) {
    var d := LengthSquared(a, b);
    d != 0.0 && Cross(p, a, b) * Cross(p, a, b) / d > bound
  }

  /**
    The gap a missing space must exceed: the single-space width over 0.5, or,
    once the page's average space width exceeds 1, over half of itself. None is
    the NaN of 0 / 0, which no comparison accepts.
   */
  function SpaceThreshold(singleSpaceWidth: real, avgSingleSpaceWidth: real): (r: Option<real>)
    ensures avgSingleSpaceWidth <= SpaceCharacterWidthThreshold ==> r == Some(2.0 * singleSpaceWidth)
    ensures avgSingleSpaceWidth > SpaceCharacterWidthThreshold && singleSpaceWidth != 0.0 ==> r == Some(2.0)
    ensures r.None? <==> avgSingleSpaceWidth > SpaceCharacterWidthThreshold && singleSpaceWidth == 0.0
  {
    var divisor := if avgSingleSpaceWidth > SpaceCharacterWidthThreshold
      then singleSpaceWidth * SpaceCharacterWidthDivisor else SpaceCharacterWidthDivisor;
    if divisor == 0.0 then None
    else
      assert singleSpaceWidth / divisor == (if avgSingleSpaceWidth > SpaceCharacterWidthThreshold then 2.0 else 2.0 * singleSpaceWidth) by {
        if avgSingleSpaceWidth > SpaceCharacterWidthThreshold {
          assert divisor * 2.0 == singleSpaceWidth;
        } else {
          assert divisor * (2.0 * singleSpaceWidth) == singleSpaceWidth;
        }
      }
      Some(singleSpaceWidth / divisor)
  }

  /**
    The gap from `a` to `b` is longer than `t`. The length is a square root;
    since it is never negative, the comparison is made on squares.
   */
  predicate LongerThan(a: Point, b: Point, t: real) {
    t < 0.0 || LengthSquared(a, b) > t * t
  }

  /** Comparing squares decides the comparison of a length with any bound. */
  lemma CompareBySquares(d: real, t: real)
    requires d >= 0.0
    ensures d > t <==> (t < 0.0 || d * d > t * t)
  {
    if t >= 0.0 {
      assert d * d - t * t == (d - t) * (d + t);
      if d > t {
        ProductPositive(d - t, d + t);
      } else {
        ProductNonNegative(t - d, d + t);
      }
    }
  }

  lemma ProductPositive(a: real, b: real)
    requires a > 0.0 && b > 0.0
    ensures a * b > 0.0
  {
  }

  lemma ProductNonNegative(a: real, b: real)
    requires a >= 0.0 && b >= 0.0
    ensures a * b >= 0.0
  {
  }

  /** isTextRotated: the ascent line starts below the descent line's end. */
  predicate IsTextRotated(c: Chunk) {
    c.ascentStartY < c.descentEndY
  }

  // ---------------------------------------------------------------------------
  // Small helpers

  /** getLineNumber: the number the next stored line gets. */
  function LineNumber(lines: seq<LineModel>): (r: int)
    ensures r >= 1 && r - 1 == |lines|
  {
    |lines| + 1
  }

  /** A font name as the library comparison sees it: spaces and hyphens deleted. */
  function LibraryName(name: string): (r: string)
    ensures ' ' !in r && '-' !in r
    ensures forall x :: x in r <==> x in name && x != ' ' && x != '-'
  {
    RemoveChar(RemoveChar(name, ' '), '-')
  }

  /** An installed font is a library for `name` when either of its trimmed names matches, ignoring case. */
  predicate LibraryMatches(name: string, lib: InstalledFont) {
    EqualsIgnoreCase(LibraryName(name), LibraryName(Trim(lib.fontName)))
    || EqualsIgnoreCase(LibraryName(name), LibraryName(Trim(lib.psName)))
  }

  function HasLibrary(name: string, installed: seq<InstalledFont>): (r: bool)
    ensures r <==> exists i :: 0 <= i < |installed| && LibraryMatches(name, installed[i])
  {
    AnyOf(f => LibraryMatches(name, f), installed)
  }

  /**
    checkFont: a descriptor with a FontFile, FontFile2 or FontFile3 entry marks
    the font embedded (Type 1 and TrueType for the first two). A descriptor
    with none of them counts as no descriptor. Only a font without one is
    looked up among the installed fonts.
   */
  function CheckFont(name: string, desc: FontDescriptor, installed: seq<InstalledFont>): (r: FontInfo)
    ensures r.hasFontDescriptor <==> desc.Descriptor? && (desc.fontFile || desc.fontFile2 || desc.fontFile3)
    ensures r.embedded == r.hasFontDescriptor
    ensures r.fontType.Some? ==> r.hasFontDescriptor
    ensures r.fontType == Some(TypeOne) <==> desc.Descriptor? && desc.fontFile
    ensures r.fontType == Some(TrueType) <==> desc.Descriptor? && !desc.fontFile && desc.fontFile2
    ensures r.hasFontDescriptor ==> r.library == Some(LibraryNotApplicable)
    ensures !r.hasFontDescriptor ==>
      (r.library == Some(LibraryAvailable) <==> exists i :: 0 <= i < |installed| && LibraryMatches(name, installed[i]))
    ensures r.library.Some? && r.library.value.LibraryUnavailable? ==> !r.hasFontDescriptor
  {
    var (has, fontType) :=
      match desc
      case NoDescriptor => (false, None)
      case Descriptor(f1, f2, f3) =>
        if f1 then (true, Some(TypeOne))
        else if f2 then (true, Some(TrueType))
        else (f3, None);
    var library :=
      if has then LibraryNotApplicable
      else if HasLibrary(name, installed) then LibraryAvailable
      else LibraryUnavailable;
    FontInfo(has, has, fontType, Some(library))
  }

  /** setIgnoreSuperSubScriptFont: a font of at least 5 pt is flagged as ignorable; nothing else changes. */
  function SetIgnoreSuperSubScriptFont(f: FontModel): (r: FontModel)
    ensures r.(ignore := f.ignore) == f
    ensures r.ignore <==> f.ignore || f.key.size >= MinimumSuperSubscriptPtSize
  {
    if f.key.size >= MinimumSuperSubscriptPtSize then f.(ignore := true) else f
  }

  /** cleanUpFontName: the name up to its first '-'. */
  function CleanUpFontName(name: string): (r: string)
    ensures '-' !in r
    ensures |r| <= |name| && r == name[..|r|]
    ensures r == name <==> '-' !in name
    ensures r != name ==> name[|r|] == '-'
  {
    var i := IndexOfChar(name, '-');
    if i > -1 then name[..i] else name
  }

  /** getPdfVersion: the part after the last '-' ("PDF-1.7" gives "1.7"). */
  function PdfVersion(version: string): (r: string)
    ensures '-' !in r
    ensures |r| <= |version| && r == version[|version| - |r|..]
    ensures r == version <==> '-' !in version
    ensures r != version ==> version[|version| - |r| - 1] == '-'
  {
    var i := LastIndexOfChar(version, '-');
    assert forall j :: i < j < |version| ==> version[j] != '-';
    version[i + 1..]
  }

  /** The path without its trailing '/' characters, as java.io.File normalises a Unix path. */
  function DropTrailingSlashes(path: string): (r: string)
    ensures |r| <= |path| && r == path[..|r|]
    ensures forall i :: |r| <= i < |path| ==> path[i] == '/'
    ensures |r| == 0 || r[|r| - 1] != '/'
  {
    if |path| > 0 && path[|path| - 1] == '/' then DropTrailingSlashes(path[..|path| - 1]) else path
  }

  /**
    File.getName: the last path component, what follows the last '/' once the
    trailing '/' characters are dropped.
   */
  function BaseName(path: string): (r: string)
    ensures '/' !in r
    ensures var k := |DropTrailingSlashes(path)|;
      && |r| <= k && r == path[k - |r|..k]
      && (k - |r| == 0 || path[k - |r| - 1] == '/')
      && forall i :: k <= i < |path| ==> path[i] == '/'
  {
    var p := DropTrailingSlashes(path);
    var i := LastIndexOfChar(p, '/');
    assert p[i + 1..] == path[i + 1..|p|];
    p[i + 1..]
  }

  /** Files.getFileExtension: what follows the last '.' of File.getName (BaseName), or "". */
  function FileExtension(path: string): (r: string)
    ensures '.' !in r && '/' !in r
  {
    var name := BaseName(path);
    var i := LastIndexOfChar(name, '.');
    if i == -1 then "" else name[i + 1..]
  }

  /**
    correctFileName: quotes become spaces and the name is trimmed; a name
    without extension gets ".pdf"; another extension than "pdf" is an error;
    a name that already ends in ".pdf" gives null.
   */
  function CorrectFileName(fileName: string): (r: Result<Option<string>>)
    ensures r.Failure? <==> FileExtension(Trim(ReplaceChar(fileName, '\'', ' '))) !in {"", "pdf"}
    ensures r == Success(None) <==> FileExtension(Trim(ReplaceChar(fileName, '\'', ' '))) == "pdf"
    ensures r.Success? && r.value.Some? ==> r.value.value == Trim(ReplaceChar(fileName, '\'', ' ')) + ".pdf"
  {
    var corrected := Trim(ReplaceChar(fileName, '\'', ' '));
    var ext := FileExtension(corrected);
    if |ext| < 1 then Success(Some(corrected + ".pdf"))
    else if ext != "pdf" then Failure("Wrong file extension")
    else Success(None)
  }

  lemma TrimOfUntrimmedEnds(s: string)
    requires |s| > 0 && !IsTrimmed(s[0]) && !IsTrimmed(s[|s| - 1])
    ensures Trim(s) == s
  {
  }

  lemma ExtensionOfPdfName(s: string)
    ensures FileExtension(s + ".pdf") == "pdf"
  {
    assert s + ".pdf" == s + "." + "pdf";
    ExtensionOfName(s, "pdf");
  }

  /** The extension of a name ending in '.' and a non-empty dot- and slash-free `e` is `e`. */
  lemma ExtensionOfName(s: string, e: string)
    requires |e| > 0 && '.' !in e && '/' !in e
    ensures FileExtension(s + "." + e) == e
  {
    var n := s + "." + e;
    var k := |s|;
    assert n[k] == '.' && n[k + 1..] == e;
    assert DropTrailingSlashes(n) == n by {
      assert n[|n| - 1] == e[|e| - 1];
    }
    var slash := LastIndexOfChar(n, '/');
    assert forall j :: k < j < |n| ==> n[j] == e[j - k - 1];
    assert slash < k;
    var b := BaseName(n);
    assert b == n[slash + 1..];
    var dot := k - slash - 1;
    assert b[dot] == '.';
    assert b[dot + 1..] == e;
    assert forall j :: dot < j < |b| ==> b[j] == e[j - dot - 1];
    assert LastIndexOfChar(b, '.') == dot;
  }

  /** A trailing '/' changes nothing: java.io.File drops it before the last component is taken. */
  lemma TrailingSlashIgnored(path: string)
    ensures DropTrailingSlashes(path + "/") == DropTrailingSlashes(path)
    ensures BaseName(path + "/") == BaseName(path)
    ensures FileExtension(path + "/") == FileExtension(path)
  {
    assert (path + "/")[..|path|] == path;
  }

  /** A name with no quote and no code point <= U+0020 at either end is left as it is by the first correction step. */
  lemma CleanName(n: string)
    requires |n| > 0 && '\'' !in n && !IsTrimmed(n[0]) && !IsTrimmed(n[|n| - 1])
    ensures Trim(ReplaceChar(n, '\'', ' ')) == n
  {
    ReplaceCharAbsent(n, '\'', ' ');
    TrimOfUntrimmedEnds(n);
  }

  /**
    So a trailing '/' does not hide the extension: "x.doc/" is rejected as a
    .doc file, and "x.pdf/" is accepted as it stands.
   */
  lemma TrailingSlashKeepsExtension(s: string, e: string)
    requires |s| > 0 && !IsTrimmed(s[0]) && '\'' !in s
    requires |e| > 0 && '.' !in e && '/' !in e && '\'' !in e
    ensures e != "pdf" ==> CorrectFileName(s + "." + e + "/").Failure?
    ensures e == "pdf" ==> CorrectFileName(s + "." + e + "/") == Success(None)
  {
    SlashedNameFacts(s, e);
    CorrectFileNameOfCleanName(s + "." + e + "/");
  }

  lemma SlashedNameFacts(s: string, e: string)
    requires |s| > 0 && !IsTrimmed(s[0]) && '\'' !in s
    requires |e| > 0 && '.' !in e && '/' !in e && '\'' !in e
    ensures var n := s + "." + e + "/";
      && FileExtension(n) == e && |n| > 0 && '\'' !in n && !IsTrimmed(n[0]) && !IsTrimmed(n[|n| - 1])
  {
    var n := s + "." + e + "/";
    TrailingSlashIgnored(s + "." + e);
    ExtensionOfName(s, e);
    assert n[0] == s[0] && n[|n| - 1] == '/';
    SlashedNameQuoteFree(s, e);
  }

  lemma SlashedNameQuoteFree(s: string, e: string)
    requires '\'' !in s && '\'' !in e
    ensures '\'' !in s + "." + e + "/"
  {
    var n := s + "." + e + "/";
    forall i | 0 <= i < |n|
      ensures n[i] != '\''
    {
      if i < |s| {
        assert n[i] == s[i];
      } else if |s| < i < |n| - 1 {
        assert n[i] == e[i - |s| - 1];
      }
    }
  }

  /** A name with no quote and untrimmed ends is judged by its own extension. */
  lemma CorrectFileNameOfCleanName(n: string)
    requires |n| > 0 && '\'' !in n && !IsTrimmed(n[0]) && !IsTrimmed(n[|n| - 1])
    ensures FileExtension(n) !in {"", "pdf"} ==> CorrectFileName(n).Failure?
    ensures FileExtension(n) == "pdf" ==> CorrectFileName(n) == Success(None)
  {
    CleanName(n);
  }

  lemma ReplaceCharAbsent(s: string, from: char, to: char)
    requires from !in s
    ensures ReplaceChar(s, from, to) == s
  {
  }

  lemma ReplacedCharAbsent(s: string, from: char, to: char)
    requires from != to
    ensures from !in ReplaceChar(s, from, to)
  {
    var r := ReplaceChar(s, from, to);
    forall i | 0 <= i < |r| ensures r[i] != from {
    }
  }

  lemma TrimKeepsAbsence(s: string, c: char)
    requires c !in s
    ensures c !in Trim(s)
  {
    var k := |s| - |TrimStart(s)|;
    assert OccursAt(s, Trim(s), k);
  }

  /** A name the correction extended is accepted as it stands when corrected again. */
  lemma CorrectFileNameSettles(fileName: string)
    ensures var r := CorrectFileName(fileName);
      r.Success? && r.value.Some? ==> CorrectFileName(r.value.value) == Success(None)
  {
    var replaced := ReplaceChar(fileName, '\'', ' ');
    assert '\'' !in replaced by {
      ReplacedCharAbsent(fileName, '\'', ' ');
    }
    TrimKeepsAbsence(replaced, '\'');
    var corrected := Trim(replaced);
    assert corrected == "" || !IsTrimmed(corrected[0]);
    PdfNameSettled(corrected);
  }

  lemma PdfNameSettled(corrected: string)
    requires '\'' !in corrected && (corrected == "" || !IsTrimmed(corrected[0]))
    ensures CorrectFileName(corrected + ".pdf") == Success(None)
  {
    var n := corrected + ".pdf";
    assert '\'' !in n;
    ReplaceCharAbsent(n, '\'', ' ');
    assert !IsTrimmed(n[0]) by {
      if corrected != "" {
        assert n[0] == corrected[0];
      }
    }
    TrimOfUntrimmedEnds(n);
    ExtensionOfPdfName(corrected);
  }
}

=== FILE: sorting.dfy ===
/**
  The stable sort behind java.util.Collections.sort and List.sort. A stable
  sort's output is unique for a given total preorder, so an insertion sort that
  keeps equal elements in input order stands for the library's merge sort.
 */
module Sorting {

  /** `le` is total and transitive: a comparator that never contradicts itself. */
  ghost predicate TotalPreorder<T(!new)>(le: (T, T) -> bool) {
    && (forall a, b :: le(a, b) || le(b, a))
    && (forall a, b, c :: le(a, b) && le(b, c) ==> le(a, c))
  }

  predicate Sorted<T>(s: seq<T>, le: (T, T) -> bool) {
    forall i, j :: 0 <= i < j < |s| ==> le(s[i], s[j])
  }

  /** Neither orders before the other: the comparator returns 0. */
  predicate Equivalent<T>(a: T, b: T, le: (T, T) -> bool) {
    le(a, b) && le(b, a)
  }

  /** Places `x` just before the first element that it does not exceed. */
  function Insert<T>(x: T, s: seq<T>, le: (T, T) -> bool): (r: seq<T>)
    ensures |r| == |s| + 1
    ensures multiset(r) == multiset(s) + multiset{x}
  {
    if |s| == 0 then [x]
    else if le(x, s[0]) then [x] + s
    else
      assert s == [s[0]] + s[1..];
      [s[0]] + Insert(x, s[1..], le)
  }

  /** Stable sort: each element is inserted in front of the equal elements that followed it. */
  function Sort<T>(s: seq<T>, le: (T, T) -> bool): (r: seq<T>)
    ensures |r| == |s|
    ensures multiset(r) == multiset(s)
  {
    if |s| == 0 then []
    else
      assert s == [s[0]] + s[1..];
      Insert(s[0], Sort(s[1..], le), le)
  }

  lemma {:induction false} InsertSorted<T(!new)>(x: T, s: seq<T>, le: (T, T) -> bool)
    requires TotalPreorder(le)
    requires Sorted(s, le)
    ensures Sorted(Insert(x, s, le), le)
    decreases |s|
  {
    if |s| > 0 && !le(x, s[0]) {
      var t := Insert(x, s[1..], le);
      InsertSorted(x, s[1..], le);
      forall e | e in t
        ensures le(s[0], e)
      {
        assert e in multiset(t);
        if e != x {
          assert e in multiset(s[1..]);
          var j :| 0 <= j < |s[1..]| && s[1..][j] == e;
          assert s[j + 1] == e;
        }
      }
      var r := [s[0]] + t;
      forall i, j | 0 <= i < j < |r|
        ensures le(r[i], r[j])
      {
        if i == 0 {
          assert r[j] == t[j - 1];
          assert r[j] in t;
        } else {
          assert r[i] == t[i - 1] && r[j] == t[j - 1];
        }
      }
    }
  }

  /** The sorted output is ordered by `le`. */
  lemma {:induction false} SortSorted<T(!new)>(s: seq<T>, le: (T, T) -> bool)
    requires TotalPreorder(le)
    ensures Sorted(Sort(s, le), le)
    decreases |s|
  {
    if |s| > 0 {
      SortSorted(s[1..], le);
      InsertSorted(s[0], Sort(s[1..], le), le);
    }
  }

  /** The elements of `s` that compare equal to `x`, in their order in `s`. */
  function EquivalentTo<T>(s: seq<T>, x: T, le: (T, T) -> bool): seq<T> {
    if |s| == 0 then []
    else (if Equivalent(s[0], x, le) then [s[0]] else []) + EquivalentTo(s[1..], x, le)
  }

  lemma SwapEmpty<T>(a: seq<T>, b: seq<T>, c: seq<T>)
    requires a == [] || b == []
    ensures a + (b + c) == b + (a + c)
  {
  }

  lemma NotBothEquivalent<T(!new)>(y: T, z: T, x: T, le: (T, T) -> bool)
    requires TotalPreorder(le) && !le(y, z)
    ensures !(Equivalent(y, x, le) && Equivalent(z, x, le))
  {
  }

  lemma {:induction false} InsertKeepsEquivalentOrder<T(!new)>(y: T, t: seq<T>, x: T, le: (T, T) -> bool)
    requires TotalPreorder(le)
    ensures EquivalentTo(Insert(y, t, le), x, le)
         == (if Equivalent(y, x, le) then [y] else []) + EquivalentTo(t, x, le)
    decreases |t|
  {
    var cy := if Equivalent(y, x, le) then [y] else [];
    if |t| == 0 {
      assert EquivalentTo([y], x, le) == cy + EquivalentTo([y][1..], x, le);
    } else if le(y, t[0]) {
      assert ([y] + t)[1..] == t;
    } else {
      var rest := Insert(y, t[1..], le);
      var r := [t[0]] + rest;
      var ct := if Equivalent(t[0], x, le) then [t[0]] else [];
      assert r[1..] == rest;
      assert EquivalentTo(r, x, le) == ct + EquivalentTo(rest, x, le);
      InsertKeepsEquivalentOrder(y, t[1..], x, le);
      // y orders strictly after t[0], so the two cannot both be equivalent to x
      NotBothEquivalent(y, t[0], x, le);
      SwapEmpty(ct, cy, EquivalentTo(t[1..], x, le));
      assert EquivalentTo(t, x, le) == ct + EquivalentTo(t[1..], x, le);
    }
  }

  /** Stability: elements that compare equal keep their relative input order. */
  lemma {:induction false} SortStable<T(!new)>(s: seq<T>, x: T, le: (T, T) -> bool)
    requires TotalPreorder(le)
    ensures EquivalentTo(Sort(s, le), x, le) == EquivalentTo(s, x, le)
    decreases |s|
  {
    if |s| > 0 {
      SortStable(s[1..], x, le);
      InsertKeepsEquivalentOrder(s[0], Sort(s[1..], le), x, le);
    }
  }
}

=== FILE: spreadsheet_model_builder_utils.dfy ===
/**
  The spreadsheet helpers: the charset check that replaces characters a
  charset cannot hold by their code page 850 stand-ins, the row and column
  bookkeeping of a table, and the naming and numbering of tables.
 */
module SpreadsheetModelBuilderUtils {
  import opened Common
  import opened Constants
  import opened Sorting
  import D = DocComplianceUtils

  datatype CellModel = CellModel(
    col: string,
    row: int,
    value: string,
    format: Option<string>,
    unsupportedChars: Option<seq<string>>)

  datatype RowModel = RowModel(cells: seq<CellModel>, num: int, tableRowNum: int)

  /**
    The configured charset, as far as the charset check sees it. `survives(c)` says
    that the one-char string encodes and decodes back to itself, ignoring
    case; `decode(hex)` is the text the bytes spelled by `hex` decode to, None
    where decoding throws.
   */
  datatype Charset = Charset(survives: char -> bool, decode: string -> Option<string>)

  /** StringUtils.isEmpty of Apache Commons Lang: null or no chars. */
  predicate LangIsEmpty(s: string) {
    |s| == 0
  }

  // ---------------------------------------------------------------------------
  // Character substitution

  /**
    convertHexToString: a code of fewer than two digits decodes to the empty
    string (the pair loop never runs); a longer one is decoded in the charset,
    with the placeholder when decoding throws.
   */
  function ConvertHexToString(hex: string, cs: Charset): (r: string)
    ensures |hex| < 2 ==> r == ""
    ensures |hex| >= 2 ==> r == cs.decode(hex).GetOr(DefaultCharsetPlaceholder)
  {
    if |hex| < 2 then ""
    else
      match cs.decode(hex)
      case Some(s) => s
      case None => DefaultCharsetPlaceholder
  }

  /** getCheckedValue: the decoded stand-in, or the placeholder when the char has no table entry. */
  function CheckedValue(matching: Option<string>, cs: Charset): (r: string)
    ensures matching.None? || LangIsEmpty(matching.value) ==> r == DefaultCharsetPlaceholder
    ensures matching.Some? && !LangIsEmpty(matching.value) ==> r == ConvertHexToString(matching.value, cs)
  {
    if matching.None? || LangIsEmpty(matching.value) then DefaultCharsetPlaceholder
    else ConvertHexToString(matching.value, cs)
  }

  /** What one char becomes: itself when the charset holds it, else its checked stand-in. */
  function Replacement(c: char, cs: Charset): string {
    if cs.survives(c) then [c] else CheckedValue(D.MatchingCp850Character(c), cs)
  }

  /** The char is reported as unsupported: the charset loses it and its stand-in is the placeholder. */
  predicate Unsupported(c: char, cs: Charset) {
    !cs.survives(c) && EqualsIgnoreCase(CheckedValue(D.MatchingCp850Character(c), cs), DefaultCharsetPlaceholder)
  }

  /** The replacements of every char, concatenated. */
  function ReplaceAll(value: string, cs: Charset): (r: string)
    ensures (forall i :: 0 <= i < |value| ==> cs.survives(value[i])) ==> r == value
  {
    if |value| == 0 then ""
    else
      var front := value[..|value| - 1];
      assert forall i :: 0 <= i < |front| ==> front[i] == value[i];
      assert value == front + [value[|value| - 1]];
      ReplaceAll(front, cs) + Replacement(value[|value| - 1], cs)
  }

  /** Replacing chars works piece by piece: the replacement of a concatenation is the concatenation of the replacements. */
  lemma {:induction false} ReplaceAllAppend(a: string, b: string, cs: Charset)
    ensures ReplaceAll(a + b, cs) == ReplaceAll(a, cs) + ReplaceAll(b, cs)
    decreases |b|
  {
    if |b| == 0 {
      assert a + b == a;
    } else {
      var front := b[..|b| - 1];
      assert (a + b)[..|a + b| - 1] == a + front;
      ReplaceAllAppend(a, front, cs);
    }
  }

  /** The unsupported chars, each once as a one-char string, in order of first occurrence. */
  function UnsupportedList(value: string, cs: Charset): (r: seq<string>)
    ensures forall i :: 0 <= i < |r| ==> |r[i]| == 1
    ensures Distinct(r)
    ensures forall c :: [c] in r <==> c in value && Unsupported(c, cs)
  {
    if |value| == 0 then []
    else
      var front := value[..|value| - 1];
      var c := value[|value| - 1];
      var rest := UnsupportedList(front, cs);
      assert value == front + [c];
      assert forall x :: x in value <==> x in front || x == c;
      if Unsupported(c, cs) && [c] !in rest then rest + [[c]] else rest
  }

  /** Each listed one-char string's char occurs earlier in `value` than the next one's. */
  predicate InFirstOccurrenceOrder(r: seq<string>, value: string)
    requires forall i :: 0 <= i < |r| ==> |r[i]| == 1
  {
    forall i, j :: 0 <= i < j < |r| ==> IndexOfChar(value, r[i][0]) < IndexOfChar(value, r[j][0])
  }

  /** The unsupported chars are listed in the order of their first occurrence in the value. */
  lemma {:induction false} UnsupportedListFirstOccurrence(value: string, cs: Charset)
    ensures InFirstOccurrenceOrder(UnsupportedList(value, cs), value)
    decreases |value|
  {
    if |value| > 0 {
      var front := value[..|value| - 1];
      var c := value[|value| - 1];
      var rest := UnsupportedList(front, cs);
      UnsupportedListFirstOccurrence(front, cs);
      var added := UnsupportedListSnoc(value, cs);
      OrderSnoc(value, rest, added);
    }
  }

  /** One step of the list: the list of the value without its last char, that char appended when newly found. */
  lemma UnsupportedListSnoc(value: string, cs: Charset) returns (added: bool)
    requires |value| > 0
    ensures var front := value[..|value| - 1];
      var c := value[|value| - 1];
      var rest := UnsupportedList(front, cs);
      && (added ==> c !in front)
      && (forall i :: 0 <= i < |rest| ==> rest[i][0] in front)
      && UnsupportedList(value, cs) == rest + (if added then [[c]] else [])
  {
    var front := value[..|value| - 1];
    var c := value[|value| - 1];
    var rest := UnsupportedList(front, cs);
    added := Unsupported(c, cs) && [c] !in rest;
    forall i | 0 <= i < |rest| ensures rest[i][0] in front {
      assert [rest[i][0]] == rest[i];
    }
    if !added {
      assert rest + [] == rest;
    }
  }

  /** Appending a char keeps the listed chars' order, and a newly listed char comes last. */
  lemma OrderSnoc(value: string, rest: seq<string>, added: bool)
    requires |value| > 0
    requires forall i :: 0 <= i < |rest| ==> |rest[i]| == 1 && rest[i][0] in value[..|value| - 1]
    requires InFirstOccurrenceOrder(rest, value[..|value| - 1])
    requires added ==> value[|value| - 1] !in value[..|value| - 1]
    ensures InFirstOccurrenceOrder(rest + (if added then [[value[|value| - 1]]] else []), value)
  {
    var front := value[..|value| - 1];
    var c := value[|value| - 1];
    assert value == front + [c];
    forall i | 0 <= i < |rest| ensures IndexOfChar(front + [c], rest[i][0]) == IndexOfChar(front, rest[i][0]) {
      IndexOfCharSnoc(front, c, rest[i][0]);
    }
    if added {
      IndexOfCharSnoc(front, c, c);
      var r := rest + [[c]];
      forall i, j | 0 <= i < j < |r|
        ensures IndexOfChar(front + [c], r[i][0]) < IndexOfChar(front + [c], r[j][0])
      {
        assert r[i] == rest[i];
      }
    } else {
      assert rest + [] == rest;
    }
  }

  /** The first index of a char in a string with one more char at its end. */
  lemma IndexOfCharSnoc(s: string, y: char, x: char)
    requires x in s || x == y
    ensures IndexOfChar(s + [y], x) == if x in s then IndexOfChar(s, x) else |s|
  {
    var t := s + [y];
    if x in s {
      var j := IndexOfChar(s, x);
      assert t[..j] == s[..j];
    } else {
      assert t[..|s|] == s;
    }
  }

  /**
    enforceCharset: every char replaced, and the unsupported chars recorded
    when there are any; the cell is otherwise unchanged.
   */
  function EnforceCharset(cell: CellModel, cs: Charset): (r: CellModel)
    ensures r.value == ReplaceAll(cell.value, cs)
    ensures var u := UnsupportedList(cell.value, cs);
      r.unsupportedChars == if |u| > 0 then Some(u) else cell.unsupportedChars
    ensures r.(value := cell.value, unsupportedChars := cell.unsupportedChars) == cell
  {
    var u := UnsupportedList(cell.value, cs);
    cell.(value := ReplaceAll(cell.value, cs),
          unsupportedChars := if |u| > 0 then Some(u) else cell.unsupportedChars)
  }

  /** A value the charset holds entirely comes back unchanged, with nothing recorded. */
  lemma EnforceCharsetKeepsSupported(cell: CellModel, cs: Charset)
    requires forall i :: 0 <= i < |cell.value| ==> cs.survives(cell.value[i])
    ensures EnforceCharset(cell, cs) == cell
  {
    NothingUnsupported(cell.value, cs);
  }

  /** A value the charset holds entirely has no unsupported char. */
  lemma {:induction false} NothingUnsupported(value: string, cs: Charset)
    requires forall i :: 0 <= i < |value| ==> cs.survives(value[i])
    ensures UnsupportedList(value, cs) == []
    decreases |value|
  {
    if |value| > 0 {
      var front := value[..|value| - 1];
      assert forall i :: 0 <= i < |front| ==> front[i] == value[i];
      NothingUnsupported(front, cs);
      assert cs.survives(value[|value| - 1]);
    }
  }

  /** checkCharset: the charset is enforced only on a non-empty value with checking on. */
  function CheckCharset(cell: CellModel, value: string, cs: Charset, checkCharset: bool): (r: CellModel)
    ensures LangIsEmpty(value) || !checkCharset ==> r == cell
    ensures !LangIsEmpty(value) && checkCharset ==> r == EnforceCharset(cell, cs)
  {
    if !LangIsEmpty(value) && checkCharset then EnforceCharset(cell, cs) else cell
  }

  /** Only the bullet has a one-digit code, so it is the one stand-in that decodes to nothing. */
  lemma BulletDecodesToEmpty(cs: Charset)
    requires !cs.survives('\U{2022}')
    ensures Replacement('\U{2022}', cs) == ""
    ensures !Unsupported('\U{2022}', cs)
  {
    var t := D.Cp850.Table;
    assert t[1].unicode == "2022";
    assert HexValue("2022") == 0x2022 by {
      assert "2022"[..3] == "202" && "202"[..2] == "20" && "20"[..1] == "2";
    }
    D.EveryEntryReachable(1);
  }

  // ---------------------------------------------------------------------------
  // Rows and columns

  /** createCellModelList: the row's cells are dropped when all, or all but one, of its cells were empty. */
  function CreateCellModelList(cells: seq<CellModel>, lastCellNum: int, emptyValueCount: int): (r: seq<CellModel>)
    ensures r == [] || r == cells
    ensures |cells| > 0 ==> (r == [] <==> emptyValueCount == lastCellNum || emptyValueCount == lastCellNum - 1)
  {
    if emptyValueCount == lastCellNum || emptyValueCount == lastCellNum - 1 then [] else cells
  }

  /** The value as the column test reads it: trimmed and upper-cased. */
  function Normalized(value: string): string {
    ToUpper(Trim(value))
  }

  /** How many of the column markers the text contains. */
  function CountContained(markers: seq<string>, text: string): (n: nat)
    ensures n <= |markers|
  {
    if |markers| == 0 then 0
    else CountContained(markers[..|markers| - 1], text) + (if Contains(text, markers[|markers| - 1]) then 1 else 0)
  }

  /**
    updateNonStrColumns: in a table's header row, the cell's column once for
    every non-text marker its normalised value contains; nothing elsewhere.
   */
  function UpdateNonStrColumns(nonTextColumns: seq<string>, columnIndex: int, value: string, tableRowNum: int): (r: seq<int>)
    ensures forall x :: x in r ==> x == columnIndex
    ensures tableRowNum != 0 ==> r == []
    ensures tableRowNum == 0 ==> |r| == CountContained(nonTextColumns, Normalized(value))
  {
    if |nonTextColumns| == 0 then []
    else
      var rest := UpdateNonStrColumns(nonTextColumns[..|nonTextColumns| - 1], columnIndex, value, tableRowNum);
      if tableRowNum == 0 && Contains(Normalized(value), nonTextColumns[|nonTextColumns| - 1])
      then rest + [columnIndex] else rest
  }

  /** The header cell names its column non-text exactly when its value contains a marker. */
  lemma {:induction false} NonStrColumnsIffMarker(nonTextColumns: seq<string>, columnIndex: int, value: string)
    ensures |UpdateNonStrColumns(nonTextColumns, columnIndex, value, 0)| > 0
      <==> exists i :: 0 <= i < |nonTextColumns| && Contains(Normalized(value), nonTextColumns[i])
    decreases |nonTextColumns|
  {
    if |nonTextColumns| > 0 {
      var n := |nonTextColumns| - 1;
      var front := nonTextColumns[..n];
      var text := Normalized(value);
      NonStrColumnsIffMarker(front, columnIndex, value);
      if Contains(text, nonTextColumns[n]) {
        assert |UpdateNonStrColumns(nonTextColumns, columnIndex, value, 0)| > 0;
      } else {
        assert UpdateNonStrColumns(nonTextColumns, columnIndex, value, 0) == UpdateNonStrColumns(front, columnIndex, value, 0);
        if exists i :: 0 <= i < |nonTextColumns| && Contains(text, nonTextColumns[i]) {
          var i :| 0 <= i < |nonTextColumns| && Contains(text, nonTextColumns[i]);
          assert front[i] == nonTextColumns[i];
        }
      }
    }
  }

  /** updateNonStrValue: a non-numeric value in a non-text column is blanked. */
  function UpdateNonStrValue(nonStrCols: seq<int>, columnIndex: int, isNumeric: bool, value: string): (r: string)
    ensures r == "" || r == value
    ensures r == "" <==> value == "" || (columnIndex in nonStrCols && !isNumeric)
  {
    if columnIndex in nonStrCols && !isNumeric then "" else value
  }

  /** addNewRowModel: a row numbered `j` with its table row number, appended only when it has cells. */
  function AddNewRowModel(cells: seq<CellModel>, rows: seq<RowModel>, j: int, rowNum: int): (r: seq<RowModel>)
    ensures |cells| == 0 ==> r == rows
    ensures |cells| > 0 ==> |r| == |rows| + 1 && r[..|rows|] == rows && r[|rows|] == RowModel(cells, j, rowNum)
  {
    if |cells| > 0 then rows + [RowModel(cells, j, rowNum)] else rows
  }

  // ---------------------------------------------------------------------------
  // Tables

  /**
    The display name with a space before every upper-case letter that
    follows a lower-case one in the original name (the regular expression
    (?<=[a-z])([A-Z]) replaced by " $1"). `prevLower` says whether the char
    before `s` is lower-case.
   */
  function CamelSpaced(s: string, prevLower: bool): (r: string)
    ensures |s| > 0 && !(prevLower && IsUpper(s[0])) ==> |r| > 0 && r[0] == s[0]
    ensures |s| > 0 && prevLower && IsUpper(s[0]) ==> |r| > 0 && r[0] == ' '
    decreases |s|
  {
    if |s| == 0 then ""
    else (if prevLower && IsUpper(s[0]) then " " else "") + [s[0]] + CamelSpaced(s[1..], IsLower(s[0]))
  }

  /** The number of places where a space goes. */
  function Boundaries(s: string, prevLower: bool): nat
    decreases |s|
  {
    if |s| == 0 then 0
    else (if prevLower && IsUpper(s[0]) then 1 else 0) + Boundaries(s[1..], IsLower(s[0]))
  }

  /** Deleting the spaces of the spaced name gives the name without its spaces: only spaces are inserted. */
  lemma {:induction false} CamelSpacedRemoveSpaces(s: string, prevLower: bool)
    ensures RemoveChar(CamelSpaced(s, prevLower), ' ') == RemoveChar(s, ' ')
    decreases |s|
  {
    if |s| > 0 {
      var rest := CamelSpaced(s[1..], IsLower(s[0]));
      CamelSpacedRemoveSpaces(s[1..], IsLower(s[0]));
      var boundary := prevLower && IsUpper(s[0]);
      assert CamelSpaced(s, prevLower) == (if boundary then [' '] else []) + [s[0]] + rest;
      SpacedStepRemoveSpaces(s[0], s[1..], rest, CamelSpaced(s, prevLower), boundary, ' ');
      assert [s[0]] + s[1..] == s;
    }
  }

  /** One space goes in at every boundary and nowhere else. */
  lemma {:induction false} CamelSpacedLength(s: string, prevLower: bool)
    ensures |CamelSpaced(s, prevLower)| == |s| + Boundaries(s, prevLower)
    decreases |s|
  {
    if |s| > 0 {
      CamelSpacedLength(s[1..], IsLower(s[0]));
    }
  }

  /** No lower-case letter is directly followed by an upper-case one. */
  predicate NoCamelBoundary(r: string) {
    forall i :: 0 <= i < |r| - 1 ==> !(IsLower(r[i]) && IsUpper(r[i + 1]))
  }

  lemma {:induction false} CamelSpacedSeparated(s: string, prevLower: bool)
    ensures NoCamelBoundary(CamelSpaced(s, prevLower))
    decreases |s|
  {
    if |s| > 0 {
      var rest := CamelSpaced(s[1..], IsLower(s[0]));
      CamelSpacedSeparated(s[1..], IsLower(s[0]));
      var t := [s[0]] + rest;
      forall i | 0 <= i < |t| - 1 ensures !(IsLower(t[i]) && IsUpper(t[i + 1])) {
        if i > 0 {
          assert t[i] == rest[i - 1] && t[i + 1] == rest[i];
        }
      }
      if prevLower && IsUpper(s[0]) {
        var u := " " + t;
        forall i | 0 <= i < |u| - 1 ensures !(IsLower(u[i]) && IsUpper(u[i + 1])) {
          if i > 0 {
            assert u[i] == t[i - 1] && u[i + 1] == t[i];
          }
        }
      }
    }
  }

  /** A name without spaces is recovered from its spaced form by deleting the spaces. */
  lemma CamelSpacedRecoversName(s: string)
    requires ' ' !in s
    ensures RemoveChar(CamelSpaced(s, false), ' ') == s
  {
    CamelSpacedRemoveSpaces(s, false);
    RemoveAbsentChar(s, ' ');
  }

  lemma {:induction false} RemoveAbsentChar(s: string, c: char)
    requires c !in s
    ensures RemoveChar(s, c) == s
    decreases |s|
  {
    if |s| > 0 {
      RemoveAbsentChar(s[1..], c);
      assert s == [s[0]] + s[1..];
    }
  }

  /** A table as the sheet lists it: its start row, display name, identifier and built rows. */
  datatype TableSource = TableSource(startRow: int, displayName: string, id: int, rows: seq<RowModel>)

  datatype TableModel = TableModel(num: int, name: string, rows: seq<RowModel>)

  /** The table's name: the spaced display name, or "[Table <id>]" for an empty one. */
  function TableName(displayName: string, id: int): (r: string)
    ensures LangIsEmpty(displayName) ==> r == "[Table " + ShowDecimal(id) + "]"
    ensures !LangIsEmpty(displayName) ==> r == CamelSpaced(displayName, false)
  {
    if LangIsEmpty(displayName) then "[Table " + ShowDecimal(id) + "]" else CamelSpaced(displayName, false)
  }

  predicate ByStartRow(a: TableSource, b: TableSource) {
    a.startRow <= b.startRow
  }

  /** The tables in start-row order; tables starting on one row keep the sheet's order. */
  function SortByStartRow(tables: seq<TableSource>): (r: seq<TableSource>)
    ensures multiset(r) == multiset(tables)
    ensures Sorted(r, ByStartRow)
    ensures forall x :: EquivalentTo(r, x, ByStartRow) == EquivalentTo(tables, x, ByStartRow)
  {
    assert TotalPreorder(ByStartRow);
    SortSorted(tables, ByStartRow);
    forall x ensures EquivalentTo(Sort(tables, ByStartRow), x, ByStartRow) == EquivalentTo(tables, x, ByStartRow) {
      SortStable(tables, x, ByStartRow);
    }
    Sort(tables, ByStartRow)
  }

  /**
    The table models of processXSSFTables: the tables in start-row order,
    numbered from 1, each named from its display name.
   */
  function NameTables(tables: seq<TableSource>): (r: seq<TableModel>)
    ensures |r| == |tables|
    ensures forall i :: 0 <= i < |r| ==> r[i].num == i + 1
    ensures var sorted := SortByStartRow(tables);
      forall i :: 0 <= i < |r| ==> r[i].name == TableName(sorted[i].displayName, sorted[i].id) && r[i].rows == sorted[i].rows
  {
    var sorted := SortByStartRow(tables);
    seq(|sorted|, i requires 0 <= i < |sorted| =>
      TableModel(i + 1, TableName(sorted[i].displayName, sorted[i].id), sorted[i].rows))
  }

  /** Numbers are gapless and the start rows of the numbered tables never decrease. */
  lemma NameTablesOrdered(tables: seq<TableSource>, i: nat, j: nat)
    requires i < j < |tables|
    ensures var sorted := SortByStartRow(tables);
      NameTables(tables)[j].num == NameTables(tables)[i].num + j - i && sorted[i].startRow <= sorted[j].startRow
  {
  }
}

=== FILE: string_order.dfy ===
/**
  String.compareTo: lexicographic order on chars, a proper prefix first; and
  the sorted set of strings that a java.util.TreeSet keeps.
 */
module StringOrder {

  /** a.compareTo(b) <= 0. */
  predicate LexLe(a: string, b: string)
    decreases |a|
  {
    |a| == 0 || (|b| > 0 && (a[0] < b[0] || (a[0] == b[0] && LexLe(a[1..], b[1..]))))
  }

  /** a.compareTo(b) < 0. */
  predicate LexLt(a: string, b: string) {
    LexLe(a, b) && a != b
  }

  lemma {:induction false} LexLeTotal(a: string, b: string)
    ensures LexLe(a, b) || LexLe(b, a)
    decreases |a|
  {
    if |a| > 0 && |b| > 0 && a[0] == b[0] {
      LexLeTotal(a[1..], b[1..]);
    }
  }

  lemma {:induction false} LexLeTransitive(a: string, b: string, c: string)
    requires LexLe(a, b) && LexLe(b, c)
    ensures LexLe(a, c)
    decreases |a|
  {
    if |a| > 0 && a[0] == b[0] && b[0] == c[0] {
      LexLeTransitive(a[1..], b[1..], c[1..]);
    }
  }

  lemma {:induction false} LexLeAntisymmetric(a: string, b: string)
    requires LexLe(a, b) && LexLe(b, a)
    ensures a == b
    decreases |a|
  {
    if |a| > 0 {
      LexLeAntisymmetric(a[1..], b[1..]);
      assert a == [a[0]] + a[1..] && b == [b[0]] + b[1..];
    }
  }

  /** Every string is below every string it is a prefix of, itself included. */
  lemma {:induction false} LexLePrefix(a: string, b: string)
    requires a <= b
    ensures LexLe(a, b)
    decreases |a|
  {
    if |a| > 0 {
      LexLePrefix(a[1..], b[1..]);
    }
  }

  /** Strictly ascending: what a TreeSet iterates, with no duplicates. */
  predicate StrictlySorted(s: seq<string>) {
    forall i, j :: 0 <= i < j < |s| ==> LexLt(s[i], s[j])
  }

  /** The strings of the set, ascending. */
  ghost predicate ListsSet(s: seq<string>, elements: set<string>) {
    StrictlySorted(s) && (forall x :: x in s <==> x in elements)
  }

  /** TreeSet.add: `x` in its place, or nothing when it is already present. */
  function SortedAdd(s: seq<string>, x: string): (r: seq<string>)
    requires StrictlySorted(s)
    ensures StrictlySorted(r)
    ensures forall y :: y in r <==> y in s || y == x
    decreases |s|
  {
    if |s| == 0 then [x]
    else if x == s[0] then s
    else if LexLe(x, s[0]) then
      forall j | 0 <= j < |s| ensures LexLt(x, s[j]) {
        if j > 0 {
          LexLeTransitive(x, s[0], s[j]);
          if x == s[j] {
            LexLeAntisymmetric(s[0], s[j]);
          }
        }
      }
      [x] + s
    else
      var rest := SortedAdd(s[1..], x);
      assert forall y :: y in s <==> y == s[0] || y in s[1..];
      LexLeTotal(x, s[0]);
      forall y | y in rest ensures LexLt(s[0], y) {
        if y != x {
          var j :| 0 <= j < |s[1..]| && s[1..][j] == y;
          assert s[j + 1] == y;
        }
      }
      [s[0]] + rest
  }

  /** TreeSet.addAll, one element at a time. */
  function SortedAddAll(s: seq<string>, xs: seq<string>): (r: seq<string>)
    requires StrictlySorted(s)
    ensures StrictlySorted(r)
    ensures forall y :: y in r <==> y in s || y in xs
    decreases |xs|
  {
    if |xs| == 0 then s
    else
      assert forall y :: y in xs <==> y in xs[..|xs| - 1] || y == xs[|xs| - 1];
      SortedAdd(SortedAddAll(s, xs[..|xs| - 1]), xs[|xs| - 1])
  }

  lemma StrictlySortedTail(s: seq<string>)
    requires StrictlySorted(s) && |s| > 0
    ensures StrictlySorted(s[1..])
    ensures forall y :: y in s[1..] ==> LexLt(s[0], y)
  {
  }

  /**
    A set has one ascending listing: two strictly sorted sequences with the
    same elements are equal. So the TreeSet's order is fixed by its contents.
   */
  lemma {:induction false} SortedListingUnique(a: seq<string>, b: seq<string>)
    requires StrictlySorted(a) && StrictlySorted(b)
    requires forall x :: x in a <==> x in b
    ensures a == b
    decreases |a|
  {
    assert |a| == 0 ==> |b| == 0 by {
      if |b| > 0 {
        assert b[0] in a;
      }
    }
    if |a| > 0 {
      assert a[0] in b;
      assert b[0] in a;
      assert a[0] == b[0] by {
        if a[0] != b[0] {
          var i :| 0 < i < |a| && a[i] == b[0];
          var j :| 0 < j < |b| && b[j] == a[0];
          assert LexLe(a[0], a[i]) && LexLe(b[0], b[j]);
          LexLeAntisymmetric(a[0], b[0]);
        }
      }
      StrictlySortedTail(a);
      StrictlySortedTail(b);
      forall x ensures x in a[1..] <==> x in b[1..] {
        assert x in a <==> x == a[0] || x in a[1..];
        assert x in b <==> x == b[0] || x in b[1..];
        if x in a[1..] {
          assert LexLt(a[0], x);
        }
        if x in b[1..] {
          assert LexLt(b[0], x);
        }
      }
      SortedListingUnique(a[1..], b[1..]);
      assert a == [a[0]] + a[1..] && b == [b[0]] + b[1..];
    }
  }
}

=== FILE: text_event_filter.dfy ===
/**
  The filter in front of the text-margin finder: only text render events whose
  text is not blank reach it.
 */
module TextEventFilter {
  import opened Common
  import opened Model

  /**
    accept(data, type): a render-text event with a render info whose trimmed
    text is non-empty. `text` is None for a null render info.
   */
  function Accept(kind: EventType, text: Option<string>): (r: bool)
    ensures r <==> kind == RenderText && text.Some? && !IsBlank(text.value)
  {
    if kind != RenderText then false
    else
      match text
      case None => false
      case Some(t) =>
        TrimEmptyIffBlank(t);
        |Trim(t)| > 0
  }

  /** The glyphs of a sequence of render-text events that the filter lets through, in order. */
  function Accepted(glyphs: seq<Glyph>): (r: seq<Glyph>)
    ensures |r| <= |glyphs|
    ensures forall g :: g in r <==> g in glyphs && !IsBlank(g.text)
  {
    if |glyphs| == 0 then []
    else
      var rest := Accepted(glyphs[..|glyphs| - 1]);
      var g := glyphs[|glyphs| - 1];
      assert forall h :: h in glyphs <==> h in glyphs[..|glyphs| - 1] || h == g;
      if Accept(RenderText, Some(g.text)) then rest + [g] else rest
  }

  /** Filtering one more glyph appends it exactly when the filter accepts it. */
  lemma AcceptedSnoc(glyphs: seq<Glyph>, g: Glyph)
    ensures Accepted(glyphs + [g]) == Accepted(glyphs) + (if Accept(RenderText, Some(g.text)) then [g] else [])
  {
    assert (glyphs + [g])[..|glyphs|] == glyphs;
  }

  /**
    The filter holds no state: filtering a stream in two pieces gives the same
    glyphs as filtering it whole.
   */
  lemma {:induction false} AcceptedAppend(a: seq<Glyph>, b: seq<Glyph>)
    ensures Accepted(a + b) == Accepted(a) + Accepted(b)
    decreases |b|
  {
    if |b| > 0 {
      var front := b[..|b| - 1];
      var g := b[|b| - 1];
      assert b == front + [g];
      assert a + b == (a + front) + [g];
      AcceptedAppend(a, front);
      AcceptedSnoc(a + front, g);
      AcceptedSnoc(front, g);
    } else {
      assert a + b == a;
    }
  }
}

=== FILE: text_render_info_listener.dfy ===
/**
  The pre-scan of a page: it counts the text blocks, averages their single-space
  widths, remembers whether the last two blocks sit on one line, and forwards
  every glyph to the margin finder behind the text filter.
 */
module TextRenderInfoListener {
  import opened Common
  import opened Model

  datatype PreScan = PreScan(
    blockCount: nat,
    totalSingleSpaceWidth: real,
    averageSingleSpaceWidth: real,
    nextMaxY: real,
    prevMaxY: real,
    lastBlockOnSameLine: bool,
    forwarded: seq<Glyph>)   // what the wrapped strategy received, in order

  const Initial := PreScan(0, 0.0, 0.0, 0.0, 0.0, false, [])

  /** eventOccurred: render-text events go to renderText; every other event type is ignored. */
  function Step(s: PreScan, e: ContentEvent): (r: PreScan)
    ensures !e.TextRendered? ==> r == s
    ensures e.TextRendered? ==> r.blockCount == s.blockCount + 1 && r.prevMaxY == s.nextMaxY
  {
    match e
    case TextRendered(c) =>
      var count := s.blockCount + 1;
      var total := s.totalSingleSpaceWidth + c.singleSpaceWidth;
      PreScan(count, total, total / count as real, c.bboxY, s.nextMaxY,
              Round(s.nextMaxY) == Round(c.bboxY), s.forwarded + c.glyphs)
    case _ => s
  }

  function Run(events: seq<ContentEvent>): PreScan {
    if |events| == 0 then Initial
    else Step(Run(events[..|events| - 1]), events[|events| - 1])
  }

  // ---------------------------------------------------------------------------
  // Reference definitions over the text events of a page

  /** The text chunks among the events, in order. */
  function TextChunks(events: seq<ContentEvent>): (r: seq<Chunk>)
    ensures |r| <= |events|
  {
    if |events| == 0 then []
    else
      var e := events[|events| - 1];
      TextChunks(events[..|events| - 1]) + (if e.TextRendered? then [e.chunk] else [])
  }

  function SpaceWidths(chunks: seq<Chunk>): (r: seq<real>)
    ensures |r| == |chunks| && forall i :: 0 <= i < |chunks| ==> r[i] == chunks[i].singleSpaceWidth
  {
    seq(|chunks|, i requires 0 <= i < |chunks| => chunks[i].singleSpaceWidth)
  }

  function AllGlyphs(chunks: seq<Chunk>): seq<Glyph> {
    if |chunks| == 0 then [] else AllGlyphs(chunks[..|chunks| - 1]) + chunks[|chunks| - 1].glyphs
  }

  /** The rounded baseline heights of the last two blocks agree; before the first block the height is 0. */
  predicate SameLine(chunks: seq<Chunk>)
    requires |chunks| > 0
  {
    var previous := if |chunks| >= 2 then chunks[|chunks| - 2].bboxY else 0.0;
    Round(previous) == Round(chunks[|chunks| - 1].bboxY)
  }

  /**
    After any prefix of the events: one block per text event (blank ones
    included), the average space width is the mean over all blocks, the
    same-line flag compares the last two blocks, and the strategy has received
    every glyph of every block in order.
   */
  lemma {:induction false} RunSummary(events: seq<ContentEvent>)
    ensures var s := Run(events); var cs := TextChunks(events);
      && s.blockCount == |cs|
      && s.totalSingleSpaceWidth == SumReals(SpaceWidths(cs))
      && (|cs| == 0 ==> s.averageSingleSpaceWidth == 0.0 && s.nextMaxY == 0.0 && !s.lastBlockOnSameLine)
      && (|cs| > 0 ==> s.averageSingleSpaceWidth == SumReals(SpaceWidths(cs)) / |cs| as real)
      && (|cs| > 0 ==> s.nextMaxY == cs[|cs| - 1].bboxY && (s.lastBlockOnSameLine <==> SameLine(cs)))
      && s.forwarded == AllGlyphs(cs)
    decreases |events|
  {
    if |events| > 0 {
      var front := events[..|events| - 1];
      var e := events[|events| - 1];
      RunSummary(front);
      var cs0 := TextChunks(front);
      if e.TextRendered? {
        var cs := cs0 + [e.chunk];
        assert TextChunks(events) == cs;
        assert cs[..|cs| - 1] == cs0;
        assert SpaceWidths(cs)[..|cs|-1] == SpaceWidths(cs0);
        if |cs0| > 0 {
          assert cs[|cs| - 2] == cs0[|cs0| - 1];
        }
      } else {
        assert TextChunks(events) == cs0;
      }
    }
  }

  /** Events other than text rendering leave the pre-scan as it was. */
  lemma {:induction false} NonTextEventsIgnored(events: seq<ContentEvent>, e: ContentEvent)
    requires !e.TextRendered?
    ensures Run(events + [e]) == Run(events)
  {
    assert (events + [e])[..|events|] == events;
  }
}

=== FILE: unicode_to_cp850.dfy ===
/**
  The substitution table for characters that code page 850 cannot encode: a
  Unicode character, written as Integer.toHexString prints its code, and the
  hexadecimal code of its code page 850 stand-in.
 */
module UnicodeToCp850 {
  import opened Common

  datatype Entry = Entry(unicode: string, cp850Code: string)

  /** E1 .. E12, in declaration order (the order `values()` returns). */
  const Table: seq<Entry> := [
    Entry("201c", "22"),
    Entry("2022", "7"),
    Entry("2019", "27"),
    Entry("2010", "F0"),
    Entry("e9", "82"),
    Entry("201d", "22"),
    Entry("2013", "2D"),
    Entry("f6", "94"),
    Entry("ed", "A1"),
    Entry("ea", "88"),
    Entry("b7", "FA"),
    Entry("131", "D5")]

  /** The code of the entry for a key, None when no entry has it. */
  function Lookup(unicode: string): (r: Option<string>)
    ensures r.Some? <==> exists i :: 0 <= i < |Table| && Table[i].unicode == unicode
    ensures forall i :: 0 <= i < |Table| && Table[i].unicode == unicode ==> r == Some(Table[i].cp850Code)
  {
    TableKeysDistinct();
    LookupIn(Table, unicode)
  }

  function LookupIn(entries: seq<Entry>, unicode: string): (r: Option<string>)
    ensures r.Some? <==> exists i :: 0 <= i < |entries| && entries[i].unicode == unicode
    ensures r.Some? ==> exists i :: 0 <= i < |entries| && entries[i].unicode == unicode && entries[i].cp850Code == r.value
  {
    if |entries| == 0 then None
    else if entries[0].unicode == unicode then Some(entries[0].cp850Code)
    else
      var r := LookupIn(entries[1..], unicode);
      assert forall i :: 1 <= i < |entries| ==> entries[i] == entries[1..][i - 1];
      r
  }

  /** No two entries share a key, so lookup by key is a function. */
  lemma TableKeysDistinct()
    ensures |Table| == 12
    ensures forall i, j :: 0 <= i < j < |Table| ==> Table[i].unicode != Table[j].unicode
  {
  }

  /** Two entries share a code: the table is not injective. */
  lemma TableNotInjective()
    ensures Lookup("201c") == Lookup("201d") == Some("22")
    ensures exists i, j :: 0 <= i < j < |Table| && Table[i].cp850Code == Table[j].cp850Code
  {
    assert Table[0].unicode == "201c" && Table[5].unicode == "201d";
    assert Table[0].cp850Code == Table[5].cp850Code;
  }

  /**
    Every key is in the form Integer.toHexString prints, so it is exactly the
    printed code of one character: the character with that code finds it.
   */
  lemma TableKeysInHexForm()
    ensures forall i :: 0 <= i < |Table| ==> IsHexStringForm(Table[i].unicode)
  {
    forall i | 0 <= i < |Table|
      ensures IsHexStringForm(Table[i].unicode)
    {
      var k := Table[i].unicode;
      assert AllHexDigits(k) by {
        assert forall j :: 0 <= j < |k| ==> IsHexDigit(k[j]);
      }
    }
  }

  /** Only the bullet, U+2022, has a one-digit code. */
  lemma OneDigitCodeOnlyBullet()
    ensures forall i :: 0 <= i < |Table| ==> (|Table[i].cp850Code| < 2 <==> Table[i].unicode == "2022")
    ensures Lookup("2022") == Some("7")
  {
    assert Table[1].unicode == "2022";
  }
}
